=== FILE: README.md ===
# shagua: lexer, Pratt parser and tree-walking evaluator, modelled in Dafny

This project models the core of a small interpreter for a Monkey-like
language, in which a program is a list of statements:

- **lexer**: turns a string into tokens one call at a time. It skips
  spaces, tabs and line breaks. Two-rune operators `==`, `!=`, `<=` and
  `>=` take precedence over their one-rune prefixes. Identifiers are
  looked up in a keyword table. Once the input is used up, every further
  call returns `EOF`.
- **parser**: keeps a current and a peek token. Statements are `let`,
  `return` and expression statements. Expressions are parsed by a Pratt
  parser with prefix and infix handler tables and a precedence ladder.
  Expected-token mismatches are recorded as error messages
  (`expect <kind>, got <kind>`).
- **AST**: nodes with their `TokenLiteral` and `String` forms. The printed
  form parenthesises every operator node.
- **object**: run-time values (64-bit integers, the two canonical
  booleans and null) with their type tags and printed forms.
- **evaluator**: walks the tree.
  - Integers use Go's `int64` arithmetic: wrap-around, and division
    truncating toward zero.
  - Booleans support `==`; the orderings always give false on them.
  - `!` and unary `-` are prefix operators.
  - A program's value is its last statement's value.
  - Wherever the interpreter stops with a fatal log, the model aborts.

Modules follow the program's packages:

- `Token`
- `Lexer`
- `Precedence`
- `Ast`
- `Parser`: the three parser files form one mutually recursive module.
- `Object`
- `Eval`
- `GoInt`: Go's `int64` and decimal conversions.
- `Options`

`ParserFacts` states how the parser, taken as a whole, reads the lexer's
stream and groups operator chains. `Scenarios` instantiates those facts on
the parser's and evaluator's test inputs.

Modelling choices:
- The parser's state is `(tokens, index, errors)`. The tokens are what
  `Lexer.Tokenize` produces, read with `EOF` past their end.
  `ParserFacts.StreamIsLexer` and `Lexer.TokenizeIsStream` show this is
  exactly what successive `NextToken` calls give.
- Parse functions return `Done(node, rest)` or `Hang`. `Hang` stands for
  the skip loops of `let` and `return`, which never end when no `;`
  follows. Every parse function is `Done` on a stream where each `let` and
  `return` has a `;` after it (`NoSkipping`).
- Go's nil expression is `NilExpr`, and a nil statement is `None`.
  Printing requires that no nil is reached (`Printable`), because Go would
  dereference it.

## Model

| member | source | states |
|---|---|---|
| Token.NameRoundTrip | token/token.go:10-48 | Every kind's string value reads back as that kind, under an independent decoder. |
| Token.NameInjective | token/token.go:10-48 | No two kinds share a string value; so diagnostics that print kinds never confuse two kinds. |
| Token.LookupIdent | token/token.go:60-65 | The lookup is total and returns either IDENT or a keyword kind. It returns IDENT exactly when the word is not one of the seven keyword spellings. |
| Token.LookupIdentKeyword | token/token.go:50-58 | Each keyword kind is returned for its own spelling and for no other word. |
| Token.LookupIdentInjective | token/token.go:50-63 | Two words that look up to the same keyword are the same word. |
| Token.LookupIdentExact | token/token.go:60-65 | The lookup is exact and case-sensitive: `let` and `fn` are keywords, while `Let`, `LET`, `lets` and the empty word are identifiers. |
| Lexer.New | lexer/lexer.go:14-20 | A fresh lexer keeps the input and stands on its first rune, or on NUL when the input is empty. |
| Lexer.SkipDelim | lexer/lexer.go:153-157 | Skipping passes over delimiters only and stops on a rune that is not a delimiter (NUL past the end). |
| Lexer.SkipDelimTo | lexer/lexer.go:153-157 | Conversely, skipping stops at every position preceded only by delimiters that is itself no delimiter. So the stopping point is unique. |
| Lexer.ReadIdentifier | lexer/lexer.go:125-131 | An identifier is the maximal run of identifier runes: all of them letters, `_`, `!` or `?`, followed by the end or a non-letter. |
| Lexer.ReadNumber | lexer/lexer.go:133-139 | A number is the maximal run of decimal digits. |
| Lexer.PeekRune | lexer/lexer.go:117-123 | The one-rune lookahead is empty exactly at the end of the input, and otherwise is the rune after the current one. |
| Lexer.NextToken | lexer/lexer.go:22-108 | Each call skips delimiters, then consumes at least one rune. It yields EOF exactly on NUL, with an empty literal. Any other token's literal is exactly the input slice it consumed and holds no delimiter. |
| Lexer.TwoRuneOperators | lexer/lexer.go:27-72 | `=`, `!`, `>` and `<` followed by `=` give the two-rune operator `==`, `!=`, `>=` or `<=` and consume both runes; otherwise they give `=`, `!`, `>` or `<` alone. |
| Lexer.OneRuneOperators | lexer/lexer.go:47-88 | `?`, `+`, `-`, `/`, `*`, the brackets, `,` and `;` are each a token of one rune, of their own kind, whatever follows. |
| Lexer.IdentifierToken | lexer/lexer.go:93-96 | A token that starts with a letter spans the maximal identifier run, and its kind is the keyword lookup of that run. |
| Lexer.NumberToken | lexer/lexer.go:97-100 | A token that starts with a digit is an INT spelled by the maximal digit run. |
| Lexer.IllegalToken | lexer/lexer.go:101-103 | Any other rune becomes one ILLEGAL token spelled by that rune. |
| Lexer.EofForever | lexer/lexer.go:89-91 | Once only delimiters remain, every later call returns EOF with the empty literal. |
| Lexer.TokenizeIsStream | lexer/lexer.go:22-108 | The finished token sequence, read with EOF past its end, agrees at every index n with the n-th call of NextToken. |
| Lexer.TokenizeSpellsInput | lexer/lexer.go:22-108 | On input without NUL, no EOF comes before the end. The token literals put together are the input with its delimiters removed: nothing lost, added or reordered. |
| Precedence.FindPrecedence | parser/precedence.go:42-48 | Every kind has a precedence on the ladder; a kind absent from the table ranks LOWEST. |
| Precedence.LadderIncreases | parser/precedence.go:5-17 | The ranks strictly increase from LOWEST to the bracket rank. |
| Precedence.TableRanks | parser/precedence.go:19-40 | For all 33 kinds, the table agrees with an independent kind-by-kind ranking. |
| Precedence.LowestKinds | parser/precedence.go:19-48 | A kind ranks LOWEST exactly when it is not one of the 16 operator or opening kinds. So `)`, `}`, `;`, EOF, literals, keywords, `++` and `--` all end an expression. |
| Ast.ProgramTokenLiteralAppend | ast/ast.go:24-30 | A program's token literal distributes over concatenation of its statement lists. |
| Ast.ProgramTokenLiteralLength | ast/ast.go:24-30 | Its length is the sum of the statements' literal lengths plus one newline each. |
| Ast.ProgramTokenLiteralLines | ast/ast.go:24-30 | Line i of a program's token literal is the token literal of statement i. |
| Ast.StmtsStringAppend | ast/stmts.go:72-79 | Printing a statement list distributes over concatenation. |
| Ast.EmptyBlockString | ast/stmts.go:72-79 | An empty block prints as `{}`. |
| Ast.BlockStringSnoc | ast/stmts.go:72-79 | Appending a statement to a block inserts its printed form just before the closing brace. |
| Ast.OperatorTreeNesting | ast/expressions.go:55-75 | A printed operator tree never closes more parentheses than it opened, and ends at the depth it started. It has one `(` and one `)` per operator node. |
| Ast.PrintedParensBalanced | ast/expressions.go:55-75 | Every tree of prefix, infix and suffix nodes over identifiers and literals whose spellings hold no parenthesis prints with balanced parentheses, exactly one pair per operator node. |
| Parser.Parser.ExpectPeek | parser/parser.go:83-91 | It returns true exactly when the peek token has the expected kind. It then advances one token, adding no error. Otherwise it stays put and appends exactly one error naming the expected and the found kind. |
| Parser.Parser.AddPeekError | parser/parser.go:98-101 | It appends exactly one message, naming the given kind and the peek token's kind, and changes nothing else. |
| Parser.Parser.NextToken | parser/parser.go:69-72 | Advancing makes the peek token current and reads the next token of the same stream into the peek slot. It keeps the errors and, short of EOF, strictly shrinks the input left to read. |
| ParserFacts.StreamIsLexer | parser/parser.go:22-39 | A new parser sees at index n the lexer's n-th token. So construction primes the current token with the first token and the peek token with the second. |
| Parser.ParseProgram | parser/parser.go:41-55 | It never moves backwards or drops earlier errors, and it stops on EOF. It always finishes when every `let` and `return` has a `;` somewhere after it. |
| Parser.ProgramLoop | parser/parser.go:46-53 | At EOF it returns what was collected. Otherwise collected statements stay a prefix of the result and the loop ends on EOF. |
| ParserFacts.ProgramRun | parser/parser.go:46-53 | For any run of statement parses, each resuming one token after the previous statement and none starting at EOF until the last state, which is at EOF, the loop returns exactly the run's statements in order, nil ones dropped, after those already collected. |
| ParserFacts.ProgramCollects | parser/parser.go:41-55 | Such a run from the first token to EOF is parsed into the program holding exactly its non-nil statements, in order, and parsing ends at the run's last state. |
| ParserFacts.OneStatementProgram | parser/parser.go:41-55 | A statement followed directly by EOF makes a one-statement program. |
| Parser.ParseStatement | parser/parser.go:57-66 | It dispatches on the current token: a let statement iff the token is LET, and a return statement iff it is RETURN. The statement carries that token. It yields no statement only for a `let` not followed by a name and `=`, and always finishes when every `let` and `return` has a later `;`. |
| Parser.ParseExpressionStatement | parser/stmt_parser.go:12-23 | Any other start yields an expression statement, never none. Its tag is the first token (an evaluation-order choice, see Left out). |
| ParserFacts.SingleExpressionProgram | parser/parser.go:41-55 | `expression ;` then EOF is a program of exactly that statement, ending on EOF with no new errors. |
| Parser.SkipToSemicolon | parser/stmt_parser.go:52-54 | The skip finishes iff a `;` lies ahead. It then stops on the first one and adds no error. |
| Parser.ParseLetStatement | parser/stmt_parser.go:25-57 | A parsed `let` binds the peek identifier with a nil value, ends on `;` and adds no error. It yields no statement only when the name or the `=` is missing, and it finishes whenever every `let` has a later `;`. |
| Parser.LetMissingName | parser/stmt_parser.go:33-37 | `let` not followed by an identifier yields no statement, two errors, and no movement. |
| Parser.LetMissingAssign | parser/stmt_parser.go:44-47 | `let x` not followed by `=` yields no statement and one error, and leaves the parser on the name. |
| Parser.LetCompletes | parser/stmt_parser.go:49-54 | A well-formed `let x =` finishes iff a `;` follows somewhere. |
| Parser.LetYieldsStatement | parser/stmt_parser.go:25-57 | A well-formed `let x =` that finishes yields exactly the let statement binding `x`, tagged with `let`, with a nil value. |
| Parser.ParseReturnStatement | parser/stmt_parser.go:59-71 | `return` finishes iff a `;` follows. It gives a return statement with a nil value, ending on that `;` with no new error. |
| Parser.ParseBlockStatement | parser/stmt_parser.go:81-98 | A block is tagged with its `{`, moves forward, and ends on `}` or EOF. |
| Parser.BlockLoop | parser/stmt_parser.go:89-95 | On `}` or EOF it returns what was collected. Otherwise collected statements stay a prefix of the result. |
| ParserFacts.BlockRun | parser/stmt_parser.go:89-95 | For any run of statement parses that meets neither `}` nor EOF until its last state, which is at one of them, the loop returns exactly the run's non-nil statements in order after those already collected. |
| ParserFacts.BlockCollects | parser/stmt_parser.go:81-98 | A block tagged with its `{` holds exactly the non-nil statements of the run starting just after the `{`, and ends where the run ends. |
| Parser.ParseExpression | parser/expr_parser.go:58-80 | Without a prefix handler the result is nil, with no error and no movement. Otherwise the loop stops only where the peek is `;`, binds no tighter than the caller's precedence, or has no infix handler. |
| Parser.InfixLoop | parser/expr_parser.go:67-76 | The loop takes no turn exactly when the stop condition already holds, and it ends only where the stop condition holds. A non-nil left operand stays non-nil. |
| ParserFacts.OperandTurn | parser/expr_parser.go:104-116 | In one turn over `op`, whatever parses at `op`'s precedence becomes the right child of `op`, with the accumulated tree as its left child. |
| Parser.ParsePrefixExpression | parser/expr_parser.go:90-101 | `!` and `-` yield a prefix node carrying that operator, having moved forward. |
| Parser.ParseInfixExpression | parser/expr_parser.go:104-116 | An infix handler yields an infix node carrying the operator, with the given left operand, having moved forward. |
| ParserFacts.SuffixTurn | parser/expr_parser.go:118-124 | In the operator loop, `?` makes the whole tree so far its operand and consumes only itself. |
| ParserFacts.SuffixBindsTighter | parser/precedence.go:19-40 | In `a op b ?` the suffix binds tighter than any binary operator: the result is `(a op (b ?))`, ending on the `?`. |
| Parser.IdentifierPrints | parser/expr_parser.go:126-131 | An identifier is named by its token's spelling and prints back as exactly that spelling, without moving or adding errors. |
| Parser.ParseParen | parser/expr_parser.go:133-140 | A group moves forward past its `(` and, when every `let` and `return` has a later `;`, always finishes. |
| Parser.ParenCloses | parser/expr_parser.go:133-140 | A finished group ends on `)`, or else yields nil with the failed expectation of `)` as its latest error. |
| ParserFacts.EmptyGroup | parser/expr_parser.go:133-140 | `( )` whose inner token has no prefix handler yields nil, consumes the `)` and records no error. |
| Parser.BooleanSpelling | parser/expr_parser.go:154-159 | For a token classified by the keyword table, the literal is true exactly when it is spelled `true`. It prints back as its spelling, without moving. |
| Parser.ParseInteger | parser/expr_parser.go:142-152 | A literal of digits no larger than the int64 maximum gives that value and no error. Anything else appends one error. |
| Parser.ParseIfExpression | parser/expr_parser.go:161-183 | `if` yields an if node tagged with its token, having moved forward. |
| Parser.ParseElse | parser/expr_parser.go:176-180 | An alternative is parsed exactly when the peek token is ELSE. |
| ParserFacts.LeafExpression | parser/expr_parser.go:58-80 | An integer followed by a token that ends the loop parses to its literal alone. |
| ParserFacts.BinaryAt | parser/expr_parser.go:58-80 | `a op b`, at a precedence below `op` and followed by a stopping token, parses to one infix node. |
| ParserFacts.LeftAssociates | parser/expr_parser.go:104-116 | In `a op1 b op2 c`, when `op1` binds at least as tightly as `op2`, the chain groups to the left: operators of equal rank associate left. |
| ParserFacts.TighterNestsRight | parser/expr_parser.go:67-76 | In `a op1 b op2 c`, when `op2` binds tighter, it nests to the right as `(a op1 (b op2 c))`. |
| ParserFacts.TighterPairsNest | parser/expr_parser.go:58-116 | In a five-operand chain, each tighter operator nests inside the looser one before it, and the looser operators group to the left. |
| ParserFacts.PrefixOperandSpansInfix | parser/expr_parser.go:90-101 | The operand of `-` or `!` is parsed at the next token's own precedence, so `-a op b` parses as `(-(a op b))`. |
| ParserFacts.PrefixStartsLoop | parser/expr_parser.go:90-101 | A prefix operator starts the infix loop with the prefix node built around its operand. |
| ParserFacts.ParenStartsLoop | parser/expr_parser.go:133-140 | `(` starts the loop with the enclosed expression when `)` follows. Otherwise it starts with nil and one recorded error. |
| ParserFacts.ParensRegroup | parser/expr_parser.go:133-140 | `(a op1 b) op2 c` keeps the parenthesised grouping whatever the two precedences. |
| ParserFacts.MissingRightParen | parser/expr_parser.go:133-140 | `( a` followed by a token other than `)` gives no expression and exactly one error naming the token found. |
| Object.Value.Inspect | object/object.go:21-47 | An integer prints in signed decimal, with a leading `-` exactly when it is negative; booleans print `true`/`false`, and null prints `NULL`. |
| Object.NativeBoolToBooleanObject | eval/eval.go:161-169 | Each truth value maps to its canonical boolean object, and true maps to TRUE only. |
| Object.TypeTagsDistinct | object/object.go:7-11 | Two values share a type tag exactly when they are the same variant. |
| Object.IntegerInspectStart | object/object.go:21-23 | A printed integer starts with a minus sign or a digit. |
| Object.InspectInjective | object/object.go:21-47 | The printed form determines the value. |
| GoInt.Wrap | eval/eval.go:101-109 | int64 arithmetic is the exact result reduced modulo 2^64 into the signed range. It is the identity when the result fits. |
| GoInt.WrapAdd | eval/eval.go:104-106 | Wrapping commutes with addition, so sums may be wrapped step by step. |
| GoInt.WrapMul | eval/eval.go:107-109 | Wrapping commutes with multiplication. |
| GoInt.Quot | eval/eval.go:110-112 | Go's integer quotient truncates toward zero: the remainder is smaller than the divisor and has the dividend's sign. The one overflow, the minimum divided by -1, wraps to the minimum. |
| GoInt.TruncDivMagnitude | eval/eval.go:110-112 | A truncated quotient is never larger in magnitude than the dividend, and equals it only for a divisor of ±1. |
| GoInt.NegInvolutive | eval/eval.go:145 | int64 negation undoes itself, including at the minimum. |
| GoInt.ItoaRoundTrip | object/object.go:21-23 | Decimal printing of an integer reads back as the same integer. |
| GoInt.ParseInt | parser/expr_parser.go:143-146 | Parsing succeeds exactly on a nonempty unsigned digit string whose value fits in int64, and then yields that value. |
| GoInt.ParseIntRoundTrip | parser/expr_parser.go:143 | Every int64 value from 0 up, printed in decimal, parses back to itself. |
| Eval.EvalExpr | eval/eval.go:27-57 | Only an if expression evaluates to nothing. Nil, identifiers and suffix nodes abort as unknown nodes. A boolean literal gives its canonical object. |
| Eval.LiteralValues | eval/eval.go:35-40 | Integer and boolean literals evaluate to their own values. |
| Eval.EvalStmt | eval/eval.go:32-34 | Only expression statements evaluate; `let` and `return` abort. |
| Eval.StatementsOutcome | eval/eval.go:171-177 | A statement list's result is its first aborting statement's result. If none aborts, it is the last statement's value, or the incoming value when the list is empty. |
| Eval.ProgramOutcome | eval/eval.go:29-31 | An empty program yields no value. Otherwise the program's result is its first abort, or else its last statement's value. |
| Eval.BlockOutcome | eval/eval.go:50-52 | A block evaluates like a program: no value when empty, otherwise its first abort, or else its last statement's value. |
| Eval.EvalBangExpression | eval/eval.go:148-159 | `!` yields a canonical boolean, and it is true exactly for false and null. |
| Eval.DoubleBang | eval/eval.go:148-159 | `!!x` is the truthiness of x: true unless x is false or null. |
| Eval.EvalMinusExpression | eval/eval.go:140-146 | Unary minus negates integers modulo 2^64, and gives null for anything else. |
| Eval.MinusInvolutive | eval/eval.go:140-146 | Unary minus applied twice gives back the integer. |
| Eval.EvalPrefixExpression | eval/eval.go:129-138 | An aborted operand propagates. Otherwise `!` gives the bang rule of the operand, `-` gives the minus rule of the operand, and any other operator gives null. |
| Eval.EvalIntegerExpression | eval/eval.go:97-127 | `+`, `-`, `*` and nonzero `/` give the exact result wrapped to int64, and division by zero aborts. The comparisons give the canonical boolean of the comparison; any other operator aborts. |
| Eval.EvalBooleanExpression | eval/eval.go:77-95 | `==` is true iff the operands are equal. The orderings are always false, and any other operator aborts. |
| Eval.EvalInfixExpression | eval/eval.go:63-75 | The left operand is evaluated and propagated first, then the right. Two integers go to integer rules and two booleans to boolean rules. Mixed types abort, and so does a null left operand. A missing left operand aborts as a nil dereference. So does a missing right operand after an integer or boolean left one. The result is never "no value". |
| Eval.RingStep | eval/eval.go:97-109 | On wrapped operands, `+`, `-` and `*` give the wrapped exact result. |
| Eval.RingExprEvaluatesExactly | eval/eval.go:41-46 | A tree of integer literals under `+`, `-`, `*` and unary minus evaluates to its exact mathematical value reduced to int64. |
| Eval.BoolExprEvaluates | eval/eval.go:63-159 | Every tree of boolean literals, `!`, and comparisons between two integer trees or two boolean trees evaluates without abort to the canonical boolean of its truth value, read independently off the tree: integers compare after wrap-around, `!` of an integer is false, booleans support `==` only, and their orderings are false. |
| Scenarios.SumParses | parser/integral_expr_test.go:127 | `5 + 5;` parses to one infix node. |
| Scenarios.SumPrints | parser/integral_expr_test.go:126-128 | That node prints as `(5 + 5)`. |
| Scenarios.ProductLexes | lexer/lexer.go:22-108 | The line `1 - 1 * 10;` lexes to exactly its six tokens. |
| Scenarios.ProductBindsTighter | parser/integral_expr_test.go:130 | In `1 - 1 * 10`, `*` nests under `-`. |
| Scenarios.ProductPrints | parser/integral_expr_test.go:129-131 | That tree prints as `(1 - (1 * 10))`. |
| Scenarios.ProductEvaluates | eval/eval.go:101-109 | That tree evaluates to -9. |
| Scenarios.ProductProgram | parser/integral_expr_test.go:143-153 | From the source text, the whole pipeline gives a one-statement program whose value is -9. |
| Scenarios.QuotientAssociatesLeft | parser/integral_expr_test.go:133 | `22 * 22 / 2` groups to the left. |
| Scenarios.QuotientPrints | parser/integral_expr_test.go:132-134 | It prints as `((22 * 22) / 2)`. |
| Scenarios.QuotientEvaluates | eval/eval.go:107-112 | It evaluates to 242. |
| Scenarios.MixedChainGroups | parser/integral_expr_test.go:136 | `1 + 0 / 0 - 5 * 0` groups as `((1 + (0 / 0)) - (5 * 0))`. |
| Scenarios.MixedPrints | parser/integral_expr_test.go:135-137 | It prints as `((1 + (0 / 0)) - (5 * 0))`. |
| Scenarios.MixedAborts | eval/eval.go:110-112 | Evaluating it aborts on the division by zero. |
| Scenarios.GroupRegroups | parser/integral_expr_test.go:139 | `(1 + 2) * 3` keeps its parenthesised grouping. |
| Scenarios.GroupPrints | parser/integral_expr_test.go:138-140 | It prints as `((1 + 2) * 3)`. |
| Scenarios.GroupEvaluates | eval/eval.go:101-109 | It evaluates to 9. |
| Scenarios.NegatesDifference | eval/eval_test.go:102 | `-6 - 1` parses as `(-(6 - 1))`. |
| Scenarios.NegPrints | parser/expr_parser.go:96-98 | It prints as `(-(6 - 1))`. |
| Scenarios.NegEvaluates | eval/eval.go:140-146 | It evaluates to -5, not the -7 its test expects. |

## Where the model follows the code over its tests

- **Operand of a prefix operator.** It is parsed at the precedence of the
  token after the operator (parser/expr_parser.go:96-98). For an integer
  that precedence is LOWEST, so `-6 - 1` is `(-(6 - 1))` and evaluates to
  -5, where eval/eval_test.go:102 expects -7. For the same reason `-5 + 5`
  is `(-(5 + 5))`, which is -10.
  - The boolean cases at eval/eval_test.go:75-82 that start with `-` are
    affected the same way.
- **`if` expressions.** They evaluate to nothing (eval/eval.go:59-61),
  where eval/eval_test.go:41 expects 10.

Other behaviour of the code that the model keeps as written:

- A token without a prefix handler gives a nil expression and records no
  error (parser/expr_parser.go:60-63).
- `!=` has no infix handler and `fn` no prefix handler
  (parser/expr_parser.go:32-54).
- `let` (parser/stmt_parser.go:25-57):
  - the value is parsed starting from the `=` token, then dropped, so the
    statement's value is always nil;
  - everything up to the next `;` is skipped;
  - a `let` without a name records two errors: the failed expectation and
    a second message (parser/stmt_parser.go:33-37).
- `return` skips to the next `;` and keeps a nil value
  (parser/stmt_parser.go:59-71).
- An integer literal too large for int64 keeps the value
  `strconv.ParseInt` returns, the int64 maximum, and records one error
  (parser/expr_parser.go:142-152).
- `++`, `--` and `?`:
  - `++` and `--` rank LOWEST (parser/precedence.go:19-48), so their
    suffix handlers are never reached from the loop;
  - `?` ranks WEN and parses as a suffix that binds tighter than every
    binary operator;
  - the lexer never produces `++` or `--` (lexer/lexer.go:49-52).
- Evaluator:
  - every path that ends in `glog.Fatal` is an abort;
  - an empty program yields Go's nil (eval/eval.go:171-177);
  - `!=` between integers or booleans aborts (eval/eval.go:91-92 and
    123-125);
  - identifiers, `let` and `return` abort (eval/eval.go:53-54).

## Left out

- The REPL (repl/repl.go): terminal input/output only.
- Logging:
  - the evaluator's `Logger` (eval/eval.go:11-25);
  - the parser's `glog.Error` (parser/expr_parser.go:78);
  - the `print` in parser/stmt_parser.go:33.

  None of them changes a result, except that the log call at
  parser/expr_parser.go:78 dereferences a nil expression whenever the
  prefix handler returned one. Only `parseParem` does, in two cases, and
  in both the model carries on with `NilExpr` where Go would panic:
  - a missing `)`: the model keeps the recorded error
    (`ParserFacts.MissingRightParen`);
  - an empty group such as `())` or `(;)`, where the token after `(` has
    no prefix handler and `)` follows: the inner parse gives nil, the `)`
    is found, and the model records no error at all
    (`ParserFacts.EmptyGroup`).
- `glog.Fatal`: modelled as `Abort` with a fault naming the cause. The
  process exit is not modelled.
- `strconv` and `fmt` internals:
  - integer literals are read as plain decimal digit strings, which is all
    the lexer produces;
  - a sign or base prefix is not modelled;
  - error values are modelled by their message strings.
- GoInt.ParseInt: accepts only unsigned decimal digits, while
  `strconv.ParseInt` also takes a leading `+` or `-`; the lexer never puts a
  sign inside an INT literal.
- `object.Environment`, `parseIfStatement` and `parseFunctionStatement`:
  declared but unused or stubs returning nil; nothing reaches them.
- The duplicate AST files (ast/iden.go, ast/integer.go, ast/let.go,
  ast/return.go, ast/ex_stat.go, ast/program.go): older copies of the
  nodes in ast/expressions.go and ast/stmts.go.
- The nodes `ast.Boolean`, `ast.SuffixExpression` and `ast.IfExpreesion`
  are used by the parser, but their declarations are not part of this
  model. Their fields follow their uses in the parser. Their printed forms
  follow the other nodes: a boolean prints its literal, a suffix prints as
  `(left op)`, and an if prints as `if` + condition + blocks.
- The endless skip loops of `let` and `return` without a later `;` are the
  result `Hang`, not a non-terminating function.
- The lexer's `readPosition` and `peekRune` are folded into functions over
  an index.
- The lexer is applied eagerly (`Tokenize`) rather than pulled one token
  at a time; `Lexer.TokenizeIsStream` connects the two.
- ParserFacts.TighterPairsNest: proves the five-operand chain for one
  precedence pattern only. That pattern covers the test at
  parser/integral_expr_test.go:136; the other patterns are not stated.
- Parser.ParseIfExpression: states the node's kind, token and progress,
  but not which of its expectations record errors.
- Parser.ParseBlockStatement: states the tag, progress and stopping token.
  Its statements are given by `ParserFacts.BlockCollects`.
- Parser.ParseExpressionStatement: the statement is tagged with the token
  current before its expression is parsed. The source builds the node in
  one composite literal whose `Token` field reads the current token while
  another field calls the expression parser. Go leaves the order of that
  field read and that call unspecified, and the gc compiler performs the
  call first, which would tag the statement with the expression's last
  token. Only the statement's `TokenLiteral` depends on this choice.
- Lexer.PeekRune: models a lookahead of one rune, the only width the lexer
  asks for.
- Parser.ParsePrefixExpression and Parser.ParseInfixExpression: state the
  node's shape and progress. Their operands are given by
  `ParserFacts.PrefixStartsLoop`, `ParserFacts.OperandTurn` and the chain
  lemmas.
- Eval.EvalMinusExpression: states negation modulo 2^64. The exact value
  at the int64 minimum is given by `GoInt.Neg`.

=== FILE: ast.dfy ===
/** The syntax tree the parser builds and the evaluator walks, with the
    printed forms the parser's tests compare against. A Go `nil` in an
    expression slot is the `NilExpr` variant. */
module Ast {
  import opened Options
  import opened Token
  import opened GoInt

  datatype Identifier = Identifier(tok: Token, value: string)

  datatype Expr =
    | NilExpr
    | Ident(id: Identifier)
    | IntegerLiteral(tok: Token, intValue: int64)
    | BooleanLiteral(tok: Token, boolValue: bool)
    | Prefix(tok: Token, right: Expr)
    | Infix(tok: Token, left: Expr, right: Expr)
    | Suffix(tok: Token, left: Expr)
    | If(tok: Token, condition: Expr, consequence: Block, alternative: Option<Block>)

  /** A brace-delimited statement list; its token is the opening `{`. */
  datatype Block = Block(tok: Token, stmts: seq<Stmt>)

  datatype Stmt =
    | Let(tok: Token, name: Identifier, value: Expr)
    | Return(tok: Token, value: Expr)
    | ExpressionStatement(tok: Token, expr: Expr)

  datatype Program = Program(stmts: seq<Stmt>)

  // Token literals

  /** The literal of the token a (non-nil) expression node stores. */
  function ExprTokenLiteral(e: Expr): string
    requires !e.NilExpr?
  {
    if e.Ident? then e.id.tok.literal else e.tok.literal
  }

  function StmtTokenLiteral(s: Stmt): string
  {
    s.tok.literal
  }

  /** Each statement's token literal followed by a newline, in order. */
  function ProgramTokenLiteral(stmts: seq<Stmt>): string
  {
    if |stmts| == 0 then "" else StmtTokenLiteral(stmts[0]) + "\n" + ProgramTokenLiteral(stmts[1..])
  }

  /** The literal of a program splits along any split of its statements. */
  lemma {:induction false} ProgramTokenLiteralAppend(s1: seq<Stmt>, s2: seq<Stmt>)
    ensures ProgramTokenLiteral(s1 + s2) == ProgramTokenLiteral(s1) + ProgramTokenLiteral(s2)
  {
    if |s1| == 0 {
      assert s1 + s2 == s2;
    } else {
      assert (s1 + s2)[1..] == s1[1..] + s2;
      ProgramTokenLiteralAppend(s1[1..], s2);
    }
  }

  function LiteralLengths(stmts: seq<Stmt>): nat
  {
    if |stmts| == 0 then 0 else |StmtTokenLiteral(stmts[0])| + 1 + LiteralLengths(stmts[1..])
  }

  /** The literal is as long as the statements' literals plus one newline
      each. */
  lemma {:induction false} ProgramTokenLiteralLength(stmts: seq<Stmt>)
    ensures |ProgramTokenLiteral(stmts)| == LiteralLengths(stmts)
  {
    if |stmts| > 0 {
      ProgramTokenLiteralLength(stmts[1..]);
    }
  }

  /** The `i`-th line of a program's literal is the `i`-th statement's,
      with the earlier statements before it and the later ones after. */
  lemma {:induction false} ProgramTokenLiteralLines(stmts: seq<Stmt>, i: nat)
    requires i < |stmts|
    ensures ProgramTokenLiteral(stmts)
            == ProgramTokenLiteral(stmts[..i]) + StmtTokenLiteral(stmts[i]) + "\n" + ProgramTokenLiteral(stmts[i + 1..])
  {
    assert stmts == stmts[..i] + stmts[i..];
    ProgramTokenLiteralAppend(stmts[..i], stmts[i..]);
    assert stmts[i..][1..] == stmts[i + 1..];
  }

  // Printed forms

  /** Printing reaches no nil expression, on which the source would
      dereference a nil interface. `let` and `return` print nothing, so their
      contents do not matter. */
  predicate Printable(e: Expr)
  {
    match e
    case NilExpr => false
    case Ident(_) => true
    case IntegerLiteral(_, _) => true
    case BooleanLiteral(_, _) => true
    case Prefix(_, r) => Printable(r)
    case Infix(_, l, r) => Printable(l) && Printable(r)
    case Suffix(_, l) => Printable(l)
    case If(_, c, cons, alt) =>
      Printable(c) && BlockPrintable(cons) && (alt.Some? ==> BlockPrintable(alt.value))
  }

  predicate BlockPrintable(b: Block)
  {
    forall i :: 0 <= i < |b.stmts| ==> StmtPrintable(b.stmts[i])
  }

  predicate StmtPrintable(s: Stmt)
  {
    s.ExpressionStatement? ==> Printable(s.expr)
  }

  /** The printed form of an expression: leaves print their spelling,
      operator nodes are parenthesised. */
  function ExprString(e: Expr): string
    requires Printable(e)
  {
    match e
    case Ident(id) => id.tok.literal
    case IntegerLiteral(tok, _) => tok.literal
    case BooleanLiteral(tok, _) => tok.literal
    case Prefix(tok, r) => "(" + tok.literal + ExprString(r) + ")"
    case Infix(tok, l, r) => "(" + ExprString(l) + " " + tok.literal + " " + ExprString(r) + ")"
    case Suffix(tok, l) => "(" + ExprString(l) + tok.literal + ")"
    case If(_, c, cons, alt) =>
      "if (" + ExprString(c) + ")" + BlockString(cons) + (if alt.Some? then BlockString(alt.value) else "")
  }

  function BlockString(b: Block): string
    requires BlockPrintable(b)
  {
    "{" + StmtsString(b.stmts) + "}"
  }

  function StmtsString(ss: seq<Stmt>): string
    requires forall i :: 0 <= i < |ss| ==> StmtPrintable(ss[i])
  {
    if |ss| == 0 then "" else StmtString(ss[0]) + StmtsString(ss[1..])
  }

  function StmtString(s: Stmt): string
    requires StmtPrintable(s)
  {
    match s
    case Let(_, _, _) => ""
    case Return(_, _) => ""
    case ExpressionStatement(_, e) => ExprString(e)
  }

  /** The block prints its statements in order between braces. */
  lemma {:induction false} StmtsStringAppend(s1: seq<Stmt>, s2: seq<Stmt>)
    requires forall i :: 0 <= i < |s1| ==> StmtPrintable(s1[i])
    requires forall i :: 0 <= i < |s2| ==> StmtPrintable(s2[i])
    ensures forall i :: 0 <= i < |s1 + s2| ==> StmtPrintable((s1 + s2)[i])
    ensures StmtsString(s1 + s2) == StmtsString(s1) + StmtsString(s2)
  {
    if |s1| == 0 {
      assert s1 + s2 == s2;
    } else {
      assert (s1 + s2)[1..] == s1[1..] + s2;
      StmtsStringAppend(s1[1..], s2);
    }
  }

  /** An empty block prints as `{}`. */
  lemma EmptyBlockString(tok: Token)
    ensures BlockString(Block(tok, [])) == "{}"
  {
    assert StmtsString([]) == "";
  }

  /** Appending a statement appends its printed form. */
  lemma StmtsStringSnoc(ss: seq<Stmt>, s: Stmt)
    requires forall i :: 0 <= i < |ss| ==> StmtPrintable(ss[i])
    requires StmtPrintable(s)
    ensures forall i :: 0 <= i < |ss + [s]| ==> StmtPrintable((ss + [s])[i])
    ensures StmtsString(ss + [s]) == StmtsString(ss) + StmtString(s)
  {
    StmtsStringAppend(ss, [s]);
    assert StmtsString([s]) == StmtString(s) by {
      assert [s][1..] == [];
    }
  }

  /** Appending a statement to a block appends its printed form inside the
      braces. */
  lemma BlockStringSnoc(b: Block, s: Stmt)
    requires BlockPrintable(b) && StmtPrintable(s)
    ensures BlockPrintable(Block(b.tok, b.stmts + [s]))
    ensures BlockString(Block(b.tok, b.stmts + [s]))
            == "{" + (StmtsString(b.stmts) + StmtString(s)) + "}"
  {
    StmtsStringSnoc(b.stmts, s);
  }

  // Parenthesisation of operator trees

  predicate ParenFree(s: string)
  {
    forall i :: 0 <= i < |s| ==> s[i] != '(' && s[i] != ')'
  }

  /** Trees made of literals and operators, with no parentheses in any
      spelling: what the Pratt parser builds from lexed tokens. */
  predicate OperatorTree(e: Expr)
  {
    match e
    case NilExpr => false
    case Ident(id) => ParenFree(id.tok.literal)
    case IntegerLiteral(tok, _) => ParenFree(tok.literal)
    case BooleanLiteral(tok, _) => ParenFree(tok.literal)
    case Prefix(tok, r) => ParenFree(tok.literal) && OperatorTree(r)
    case Infix(tok, l, r) => ParenFree(tok.literal) && OperatorTree(l) && OperatorTree(r)
    case Suffix(tok, l) => ParenFree(tok.literal) && OperatorTree(l)
    case If(_, _, _, _) => false
  }

  /** The number of operator nodes in a tree. */
  function Operators(e: Expr): nat
  {
    match e
    case Prefix(_, r) => 1 + Operators(r)
    case Infix(_, l, r) => 1 + Operators(l) + Operators(r)
    case Suffix(_, l) => 1 + Operators(l)
    case _ => 0
  }

  /** Reads `s` from nesting depth `d`: the depth at the end, or `None` if a
      `)` closes more than was opened. */
  function Walk(s: string, d: nat): Option<nat>
  {
    if |s| == 0 then Some(d)
    else if s[0] == '(' then Walk(s[1..], d + 1)
    else if s[0] == ')' then (if d == 0 then None else Walk(s[1..], d - 1))
    else Walk(s[1..], d)
  }

  predicate Balanced(s: string)
  {
    Walk(s, 0) == Some(0)
  }

  function Count(s: string, c: char): nat
  {
    if |s| == 0 then 0 else (if s[0] == c then 1 else 0) + Count(s[1..], c)
  }

  lemma {:induction false} WalkAppend(a: string, b: string, d: nat)
    ensures Walk(a + b, d) == (match Walk(a, d) case None => None case Some(d') => Walk(b, d'))
    decreases |a|
  {
    if |a| == 0 {
      assert a + b == b;
    } else {
      assert (a + b)[1..] == a[1..] + b;
      if a[0] == '(' {
        WalkAppend(a[1..], b, d + 1);
      } else if a[0] == ')' {
        if d > 0 {
          WalkAppend(a[1..], b, d - 1);
        }
      } else {
        WalkAppend(a[1..], b, d);
      }
    }
  }

  lemma {:induction false} CountAppend(a: string, b: string, c: char)
    ensures Count(a + b, c) == Count(a, c) + Count(b, c)
  {
    if |a| == 0 {
      assert a + b == b;
    } else {
      assert (a + b)[1..] == a[1..] + b;
      CountAppend(a[1..], b, c);
    }
  }

  lemma {:induction false} ParenFreeFacts(s: string, d: nat)
    requires ParenFree(s)
    ensures Walk(s, d) == Some(d)
    ensures Count(s, '(') == 0 && Count(s, ')') == 0
  {
    if |s| > 0 {
      ParenFreeFacts(s[1..], d);
    }
  }

  /** Read from any depth, the printed form of an operator tree comes back
      to that depth without dipping below it, and holds one `(` and one `)`
      per operator node. */
  lemma {:induction false} OperatorTreeNesting(e: Expr, d: nat)
    requires OperatorTree(e)
    ensures Printable(e)
    ensures Walk(ExprString(e), d) == Some(d)
    ensures Count(ExprString(e), '(') == Operators(e) == Count(ExprString(e), ')')
  {
    match e
    case Ident(id) =>
      ParenFreeFacts(id.tok.literal, d);
    case IntegerLiteral(tok, _) =>
      ParenFreeFacts(tok.literal, d);
    case BooleanLiteral(tok, _) =>
      ParenFreeFacts(tok.literal, d);
    case Prefix(tok, r) =>
      OperatorTreeNesting(r, d + 1);
      ParenFreeFacts(tok.literal, d + 1);
      Splice3("(", tok.literal, ExprString(r), ")", d);
    case Infix(tok, l, r) =>
      OperatorTreeNesting(l, d + 1);
      OperatorTreeNesting(r, d + 1);
      var mid := " " + tok.literal + " ";
      assert ParenFree(mid);
      ParenFreeFacts(mid, d + 1);
      assert ExprString(e) == "(" + ExprString(l) + mid + ExprString(r) + ")";
      Splice4("(", ExprString(l), mid, ExprString(r), ")", d);
    case Suffix(tok, l) =>
      OperatorTreeNesting(l, d + 1);
      ParenFreeFacts(tok.literal, d + 1);
      Splice3("(", ExprString(l), tok.literal, ")", d);
  }

  lemma Splice3(o: string, x: string, y: string, c: string, d: nat)
    requires o == "(" && c == ")"
    requires Walk(x, d + 1) == Some(d + 1) && Walk(y, d + 1) == Some(d + 1)
    ensures Walk(o + x + y + c, d) == Some(d)
    ensures Count(o + x + y + c, '(') == 1 + Count(x, '(') + Count(y, '(')
    ensures Count(o + x + y + c, ')') == 1 + Count(x, ')') + Count(y, ')')
  {
    WalkAppend(o + x + y, c, d);
    WalkAppend(o + x, y, d);
    WalkAppend(o, x, d);
    CountAppend(o + x + y, c, '(');
    CountAppend(o + x, y, '(');
    CountAppend(o, x, '(');
    CountAppend(o + x + y, c, ')');
    CountAppend(o + x, y, ')');
    CountAppend(o, x, ')');
  }

  lemma Splice4(o: string, x: string, y: string, z: string, c: string, d: nat)
    requires o == "(" && c == ")"
    requires Walk(x, d + 1) == Some(d + 1) && Walk(y, d + 1) == Some(d + 1) && Walk(z, d + 1) == Some(d + 1)
    ensures Walk(o + x + y + z + c, d) == Some(d)
    ensures Count(o + x + y + z + c, '(') == 1 + Count(x, '(') + Count(y, '(') + Count(z, '(')
    ensures Count(o + x + y + z + c, ')') == 1 + Count(x, ')') + Count(y, ')') + Count(z, ')')
  {
    WalkAppend(o + x + y + z, c, d);
    WalkAppend(o + x + y, z, d);
    WalkAppend(o + x, y, d);
    WalkAppend(o, x, d);
    CountAppend(o + x + y + z, c, '(');
    CountAppend(o + x + y, z, '(');
    CountAppend(o + x, y, '(');
    CountAppend(o, x, '(');
    CountAppend(o + x + y + z, c, ')');
    CountAppend(o + x + y, z, ')');
    CountAppend(o + x, y, ')');
    CountAppend(o, x, ')');
  }

  /** The printed form of an operator tree is balanced, with exactly one
      pair of parentheses per operator node. */
  lemma PrintedParensBalanced(e: Expr)
    requires OperatorTree(e)
    ensures Printable(e) && Balanced(ExprString(e))
    ensures Count(ExprString(e), '(') == Operators(e) == Count(ExprString(e), ')')
  {
    OperatorTreeNesting(e, 0);
  }
}

=== FILE: eval.dfy ===
/** The tree-walking evaluator. Evaluation either yields a value, yields
    nothing (the interpreter's nil object), or aborts: every path where the
    interpreter logs fatally and exits, divides by zero, or asks a nil
    object for its type ends in `Abort` with the reason. */
module Eval {
  import opened Options
  import opened Token
  import opened GoInt
  import opened Ast
  import opened Object

  datatype Fault =
    | UnknownNode          // no evaluation rule for this kind of node
    | TypeMismatch         // infix operands that are not two integers or two booleans
    | UnsupportedOperator  // an infix operator the operand type has no rule for
    | DivideByZero
    | NilDereference       // an infix operand that evaluated to nothing

  datatype Outcome = Val(value: Value) | NoValue | Abort(fault: Fault)

  /** Evaluates an expression node. Identifiers, suffix expressions and the
      nil expression have no rule; an `if` yields nothing without looking
      at its condition. */
  function EvalExpr(e: Expr): (r: Outcome)
    ensures r.NoValue? <==> e.If?
    ensures e.NilExpr? || e.Ident? || e.Suffix? ==> r == Abort(UnknownNode)
    ensures e.BooleanLiteral? ==> r.Val? && (r.value == TrueObj <==> e.boolValue)
  {
    match e
    case IntegerLiteral(_, n) => Val(Integer(n))
    case BooleanLiteral(_, b) => Val(NativeBoolToBooleanObject(b))
    case Prefix(tok, right) => EvalPrefixExpression(tok.kind, EvalExpr(right))
    case Infix(tok, left, right) => EvalInfixExpression(tok.kind, EvalExpr(left), EvalExpr(right))
    case If(_, _, _, _) => EvalIfExpression(e)
    case _ => Abort(UnknownNode)
  }

  /** The `if` rule is a stub: nothing, whatever the condition. */
  function EvalIfExpression(e: Expr): (r: Outcome)
    requires e.If?
    ensures r.NoValue?
  {
    NoValue
  }

  /** Only expression statements evaluate; `let` and `return` have no rule. */
  function EvalStmt(s: Stmt): (r: Outcome)
    ensures !s.ExpressionStatement? ==> r == Abort(UnknownNode)
  {
    match s
    case ExpressionStatement(_, e) => EvalExpr(e)
    case _ => Abort(UnknownNode)
  }

  function EvalProgram(p: Program): Outcome
  {
    EvalStatements(p.stmts)
  }

  function EvalBlock(b: Block): Outcome
  {
    EvalStatements(b.stmts)
  }

  /** Evaluates statements in order and keeps the last outcome; an abort
      ends the run at once. */
  function EvalStatements(ss: seq<Stmt>): Outcome
  {
    EvalStatementsFrom(ss, NoValue)
  }

  function EvalStatementsFrom(ss: seq<Stmt>, last: Outcome): Outcome
  {
    if |ss| == 0 then last
    else
      var o := EvalStmt(ss[0]);
      if o.Abort? then o else EvalStatementsFrom(ss[1..], o)
  }

  /** The index of the first statement that aborts, if any. */
  function FirstAbort(ss: seq<Stmt>): (r: Option<nat>)
    ensures r.Some? ==> r.value < |ss| && EvalStmt(ss[r.value]).Abort?
    ensures r.Some? ==> forall i :: 0 <= i < r.value ==> !EvalStmt(ss[i]).Abort?
    ensures r.None? ==> forall i :: 0 <= i < |ss| ==> !EvalStmt(ss[i]).Abort?
  {
    if |ss| == 0 then None
    else if EvalStmt(ss[0]).Abort? then Some(0)
    else match FirstAbort(ss[1..])
         case None => None
         case Some(k) => Some(k + 1)
  }

  /** A statement sequence evaluates to the outcome of its first aborting
      statement; with none, to the last statement's outcome, or nothing when
      it is empty. */
  lemma {:induction false} StatementsOutcome(ss: seq<Stmt>, last: Outcome)
    requires !last.Abort?
    ensures FirstAbort(ss).Some? ==> EvalStatementsFrom(ss, last) == EvalStmt(ss[FirstAbort(ss).value])
    ensures FirstAbort(ss).None? && |ss| > 0 ==> EvalStatementsFrom(ss, last) == EvalStmt(ss[|ss| - 1])
    ensures |ss| == 0 ==> EvalStatementsFrom(ss, last) == last
  {
    if |ss| > 0 && !EvalStmt(ss[0]).Abort? {
      StatementsOutcome(ss[1..], EvalStmt(ss[0]));
      if FirstAbort(ss[1..]).None? && |ss| > 1 {
        assert ss[1..][|ss| - 2] == ss[|ss| - 1];
      }
    }
  }

  /** A program yields the value of its last statement when no statement
      aborts, and nothing when it has no statements. */
  lemma ProgramOutcome(p: Program)
    ensures |p.stmts| == 0 ==> EvalProgram(p) == NoValue
    ensures FirstAbort(p.stmts).None? && |p.stmts| > 0 ==> EvalProgram(p) == EvalStmt(p.stmts[|p.stmts| - 1])
    ensures FirstAbort(p.stmts).Some? ==> EvalProgram(p) == EvalStmt(p.stmts[FirstAbort(p.stmts).value])
  {
    StatementsOutcome(p.stmts, NoValue);
  }

  /** A block evaluates like a program: to its first aborting statement,
      else to its last statement, else to nothing. */
  lemma BlockOutcome(b: Block)
    ensures |b.stmts| == 0 ==> EvalBlock(b) == NoValue
    ensures FirstAbort(b.stmts).None? && |b.stmts| > 0 ==> EvalBlock(b) == EvalStmt(b.stmts[|b.stmts| - 1])
    ensures FirstAbort(b.stmts).Some? ==> EvalBlock(b) == EvalStmt(b.stmts[FirstAbort(b.stmts).value])
  {
    StatementsOutcome(b.stmts, NoValue);
  }

  // Prefix operators

  /** `!` on an evaluated operand: `TRUE` and `FALSE` swap, `NULL` becomes
      `TRUE`, and anything else, nothing included, becomes `FALSE`. */
  function EvalBangExpression(o: Outcome): (r: Outcome)
    requires !o.Abort?
    ensures r == Val(TrueObj) || r == Val(FalseObj)
    ensures r == Val(TrueObj) <==> o == Val(FalseObj) || o == Val(NullObj)
  {
    if o == Val(TrueObj) then Val(FalseObj)
    else if o == Val(FalseObj) then Val(TrueObj)
    else if o == Val(NullObj) then Val(TrueObj)
    else Val(FalseObj)
  }

  /** Unary minus negates an integer with 64-bit wrap-around and turns
      anything else into `NULL`. */
  function EvalMinusExpression(o: Outcome): (r: Outcome)
    requires !o.Abort?
    ensures o.Val? && o.value.Integer? ==>
              r.Val? && r.value.Integer? && (r.value.intValue + o.value.intValue) % MODULUS == 0
    ensures !(o.Val? && o.value.Integer?) ==> r == Val(NullObj)
  {
    if o.Val? && o.value.Integer? then
      var n := o.value.intValue;
      assert (Neg(n) + n) % MODULUS == 0 by {
        if n == MIN_INT64 {
          assert Neg(n) + n == -MODULUS;
        }
      }
      Val(Integer(Neg(n)))
    else Val(NullObj)
  }

  /** The operand is evaluated first and an abort there ends evaluation;
      operators other than `!` and `-` yield `NULL`. */
  function EvalPrefixExpression(op: Kind, o: Outcome): (r: Outcome)
    ensures o.Abort? ==> r == o
    ensures !o.Abort? ==> r.Val?
    ensures !o.Abort? && op == BANG ==> r == EvalBangExpression(o)
    ensures !o.Abort? && op == MINUS ==> r == EvalMinusExpression(o)
    ensures !o.Abort? && op != BANG && op != MINUS ==> r == Val(NullObj)
  {
    if o.Abort? then o
    else if op == BANG then EvalBangExpression(o)
    else if op == MINUS then EvalMinusExpression(o)
    else Val(NullObj)
  }

  // Infix operators

  /** The mathematical meaning of an arithmetic operator, before wrap-around;
      division truncates toward zero. */
  function Exact(op: Kind, a: int, b: int): int
    requires op == PLUS || op == MINUS || op == MULTI || (op == DIVIDE && b != 0)
  {
    match op
    case PLUS => a + b
    case MINUS => a - b
    case MULTI => a * b
    case DIVIDE => TruncDiv(a, b)
  }

  /** The meaning of a comparison operator. */
  predicate Holds(op: Kind, a: int, b: int)
    requires op == EQ || op == GE || op == GT || op == LE || op == LT
  {
    match op
    case EQ => a == b
    case GE => a >= b
    case GT => a > b
    case LE => a <= b
    case LT => a < b
  }

  /** Integer operators: the arithmetic ones give the exact result wrapped
      to 64 bits, division by zero aborts, comparisons give the canonical
      boolean, and every other operator aborts. */
  function EvalIntegerExpression(op: Kind, a: int64, b: int64): (r: Outcome)
    ensures op == PLUS || op == MINUS || op == MULTI || (op == DIVIDE && b != 0) ==>
              r == Val(Integer(Wrap(Exact(op, a, b))))
    ensures op == DIVIDE && b == 0 ==> r == Abort(DivideByZero)
    ensures op == EQ || op == GE || op == GT || op == LE || op == LT ==>
              r == Val(NativeBoolToBooleanObject(Holds(op, a, b)))
    ensures !(op in {PLUS, MINUS, MULTI, DIVIDE, EQ, GE, GT, LE, LT}) ==> r == Abort(UnsupportedOperator)
  {
    match op
    case MINUS => Val(Integer(Sub(a, b)))
    case PLUS => Val(Integer(Add(a, b)))
    case MULTI => Val(Integer(Mul(a, b)))
    case DIVIDE => if b == 0 then Abort(DivideByZero) else Val(Integer(Quot(a, b)))
    case EQ => Val(NativeBoolToBooleanObject(a == b))
    case GE => Val(NativeBoolToBooleanObject(a >= b))
    case GT => Val(NativeBoolToBooleanObject(a > b))
    case LE => Val(NativeBoolToBooleanObject(a <= b))
    case LT => Val(NativeBoolToBooleanObject(a < b))
    case _ => Abort(UnsupportedOperator)
  }

  /** Boolean operators: `==` compares truth values, the four orderings are
      always `FALSE`, and every other operator aborts. */
  function EvalBooleanExpression(op: Kind, a: bool, b: bool): (r: Outcome)
    ensures op == EQ ==> (r == Val(TrueObj) <==> a == b) && r.Val?
    ensures op == GE || op == GT || op == LE || op == LT ==> r == Val(FalseObj)
    ensures !(op in {EQ, GE, GT, LE, LT}) ==> r == Abort(UnsupportedOperator)
  {
    match op
    case EQ => Val(NativeBoolToBooleanObject(a == b))
    case GE => Val(NativeBoolToBooleanObject(false))
    case GT => Val(NativeBoolToBooleanObject(false))
    case LE => Val(NativeBoolToBooleanObject(false))
    case LT => Val(NativeBoolToBooleanObject(false))
    case _ => Abort(UnsupportedOperator)
  }

  /** Both operands are evaluated, left first, before either is inspected.
      The left operand's type is asked first, and the right one's only when
      the left is an integer or a boolean; asking a missing value its type
      aborts. Two integers or two booleans go to their rules, any other
      pairing aborts. */
  function EvalInfixExpression(op: Kind, lo: Outcome, ro: Outcome): (r: Outcome)
    ensures lo.Abort? ==> r == lo
    ensures !lo.Abort? && ro.Abort? ==> r == ro
    ensures r.NoValue? == false
    ensures !lo.Abort? && !ro.Abort? && lo.NoValue? ==> r == Abort(NilDereference)
    ensures lo.Val? && lo.value.Null? && !ro.Abort? ==> r == Abort(TypeMismatch)
    ensures lo.Val? && !lo.value.Null? && ro.NoValue? ==> r == Abort(NilDereference)
    ensures lo.Val? && ro.Val? && lo.value.Integer? && ro.value.Integer? ==>
              r == EvalIntegerExpression(op, lo.value.intValue, ro.value.intValue)
    ensures lo.Val? && ro.Val? && lo.value.Boolean? && ro.value.Boolean? ==>
              r == EvalBooleanExpression(op, lo.value.boolValue, ro.value.boolValue)
    ensures lo.Val? && ro.Val? && (lo.value.Type() != ro.value.Type() || lo.value.Null?) ==> r == Abort(TypeMismatch)
  {
    if lo.Abort? then lo
    else if ro.Abort? then ro
    else if lo.NoValue? then Abort(NilDereference)
    else if lo.value.Null? then Abort(TypeMismatch)
    else if ro.NoValue? then Abort(NilDereference)
    else if lo.value.Integer? && ro.value.Integer? then
      EvalIntegerExpression(op, lo.value.intValue, ro.value.intValue)
    else if lo.value.Boolean? && ro.value.Boolean? then
      EvalBooleanExpression(op, lo.value.boolValue, ro.value.boolValue)
    else Abort(TypeMismatch)
  }

  // Reference semantics

  /** `!!o` is the canonical boolean of `o`'s truthiness: everything but
      `FALSE` and `NULL` is truthy, nothing included. */
  lemma DoubleBang(o: Outcome)
    requires !o.Abort?
    ensures EvalBangExpression(EvalBangExpression(o)) == Val(NativeBoolToBooleanObject(o != Val(FalseObj) && o != Val(NullObj)))
  {
  }

  /** Unary minus undoes itself on integers. */
  lemma MinusInvolutive(n: int64)
    ensures EvalMinusExpression(EvalMinusExpression(Val(Integer(n)))) == Val(Integer(n))
  {
    NegInvolutive(n);
  }

  /** Integer trees built from literals with `+`, `-`, `*` and unary minus. */
  predicate RingExpr(e: Expr)
  {
    match e
    case IntegerLiteral(_, _) => true
    case Prefix(tok, r) => tok.kind == MINUS && RingExpr(r)
    case Infix(tok, l, r) => (tok.kind == PLUS || tok.kind == MINUS || tok.kind == MULTI) && RingExpr(l) && RingExpr(r)
    case _ => false
  }

  /** The value of a ring tree over the unbounded integers. */
  function ExactValue(e: Expr): int
    requires RingExpr(e)
  {
    match e
    case IntegerLiteral(_, n) => n
    case Prefix(_, r) => -ExactValue(r)
    case Infix(tok, l, r) => Exact(tok.kind, ExactValue(l), ExactValue(r))
  }

  /** One ring operator on wrapped operands gives the wrapped exact
      result. */
  lemma RingStep(op: Kind, x: int, y: int)
    requires op == PLUS || op == MINUS || op == MULTI
    ensures EvalInfixExpression(op, Val(Integer(Wrap(x))), Val(Integer(Wrap(y)))) == Val(Integer(Wrap(Exact(op, x, y))))
  {
    match op {
      case PLUS => RingAdd(x, y);
      case MINUS => RingSub(x, y);
      case MULTI => RingMul(x, y);
    }
  }

  lemma RingAdd(x: int, y: int)
    ensures EvalInfixExpression(PLUS, Val(Integer(Wrap(x))), Val(Integer(Wrap(y)))) == Val(Integer(Wrap(x + y)))
  {
    var a, b := Wrap(x), Wrap(y);
    calc {
      EvalInfixExpression(PLUS, Val(Integer(a)), Val(Integer(b)));
      EvalIntegerExpression(PLUS, a, b);
      Val(Integer(Add(a, b)));
      { WrapAdd(x, y); }
      Val(Integer(Wrap(x + y)));
    }
  }

  lemma RingSub(x: int, y: int)
    ensures EvalInfixExpression(MINUS, Val(Integer(Wrap(x))), Val(Integer(Wrap(y)))) == Val(Integer(Wrap(x - y)))
  {
    var a, b := Wrap(x), Wrap(y);
    calc {
      EvalInfixExpression(MINUS, Val(Integer(a)), Val(Integer(b)));
      EvalIntegerExpression(MINUS, a, b);
      Val(Integer(Sub(a, b)));
      { WrapSub(x, y); }
      Val(Integer(Wrap(x - y)));
    }
  }

  lemma RingMul(x: int, y: int)
    ensures EvalInfixExpression(MULTI, Val(Integer(Wrap(x))), Val(Integer(Wrap(y)))) == Val(Integer(Wrap(x * y)))
  {
    var a, b := Wrap(x), Wrap(y);
    calc {
      EvalInfixExpression(MULTI, Val(Integer(a)), Val(Integer(b)));
      EvalIntegerExpression(MULTI, a, b);
      Val(Integer(Mul(a, b)));
      { WrapMul(x, y); }
      Val(Integer(Wrap(x * y)));
    }
  }

  lemma RingNeg(x: int)
    ensures EvalPrefixExpression(MINUS, Val(Integer(Wrap(x)))) == Val(Integer(Wrap(-x)))
  {
    var a := Wrap(x);
    calc {
      EvalPrefixExpression(MINUS, Val(Integer(a)));
      EvalMinusExpression(Val(Integer(a)));
      Val(Integer(Neg(a)));
      { WrapNeg(x); }
      Val(Integer(Wrap(-x)));
    }
  }

  /** The evaluator computes ring trees exactly modulo 2^64: it never aborts
      on them, and its result is the wrap-around of the unbounded value,
      however many intermediate results overflow. */
  lemma {:induction false} RingExprEvaluatesExactly(e: Expr)
    requires RingExpr(e)
    ensures EvalExpr(e) == Val(Integer(Wrap(ExactValue(e))))
  {
    match e
    case IntegerLiteral(_, n) =>
    case Prefix(tok, r) =>
      RingExprEvaluatesExactly(r);
      RingPrefixCase(tok, r);
    case Infix(tok, l, r) =>
      RingExprEvaluatesExactly(l);
      RingExprEvaluatesExactly(r);
      RingInfixCase(tok, l, r);
  }

  lemma RingPrefixCase(tok: Token, r: Expr)
    requires RingExpr(Prefix(tok, r))
    requires EvalExpr(r) == Val(Integer(Wrap(ExactValue(r))))
    ensures EvalExpr(Prefix(tok, r)) == Val(Integer(Wrap(ExactValue(Prefix(tok, r)))))
  {
    assert EvalExpr(Prefix(tok, r)) == EvalPrefixExpression(MINUS, Val(Integer(Wrap(ExactValue(r)))));
    RingNeg(ExactValue(r));
  }

  lemma RingInfixCase(tok: Token, l: Expr, r: Expr)
    requires RingExpr(Infix(tok, l, r))
    requires EvalExpr(l) == Val(Integer(Wrap(ExactValue(l))))
    requires EvalExpr(r) == Val(Integer(Wrap(ExactValue(r))))
    ensures EvalExpr(Infix(tok, l, r)) == Val(Integer(Wrap(ExactValue(Infix(tok, l, r)))))
  {
    assert EvalExpr(Infix(tok, l, r))
        == EvalInfixExpression(tok.kind, Val(Integer(Wrap(ExactValue(l)))), Val(Integer(Wrap(ExactValue(r)))));
    RingStep(tok.kind, ExactValue(l), ExactValue(r));
  }

  /** Boolean trees: literals, `!` over a boolean or an integer tree, and
      the five comparisons between two integer trees or two boolean trees. */
  predicate BoolExpr(e: Expr)
  {
    match e
    case BooleanLiteral(_, _) => true
    case Prefix(tok, r) => tok.kind == BANG && (BoolExpr(r) || RingExpr(r))
    case Infix(tok, l, r) =>
      (tok.kind == EQ || tok.kind == GE || tok.kind == GT || tok.kind == LE || tok.kind == LT) &&
      ((RingExpr(l) && RingExpr(r)) || (BoolExpr(l) && BoolExpr(r)))
    case _ => false
  }

  /** The truth value of a boolean tree, read off the tree: integers are
      compared after wrap-around, an integer negated with `!` is false (it is
      truthy), booleans compare equal or unequal, and the orderings between
      booleans never hold. */
  function Truth(e: Expr): bool
    requires BoolExpr(e)
  {
    match e
    case BooleanLiteral(_, b) => b
    case Prefix(_, r) => if BoolExpr(r) then !Truth(r) else false
    case Infix(tok, l, r) =>
      if RingExpr(l) && RingExpr(r) then Holds(tok.kind, Wrap(ExactValue(l)), Wrap(ExactValue(r)))
      else tok.kind == EQ && Truth(l) == Truth(r)
  }

  /** The evaluator decides boolean trees by their truth value: it never
      aborts on them and always yields the canonical boolean. */
  lemma {:induction false} BoolExprEvaluates(e: Expr)
    requires BoolExpr(e)
    ensures EvalExpr(e) == Val(NativeBoolToBooleanObject(Truth(e)))
  {
    match e
    case BooleanLiteral(_, _) =>
    case Prefix(tok, r) =>
      if BoolExpr(r) {
        BoolExprEvaluates(r);
        assert EvalExpr(e) == EvalBangExpression(Val(NativeBoolToBooleanObject(Truth(r))));
      } else {
        RingExprEvaluatesExactly(r);
        assert EvalExpr(e) == EvalBangExpression(Val(Integer(Wrap(ExactValue(r)))));
      }
    case Infix(tok, l, r) =>
      if RingExpr(l) && RingExpr(r) {
        RingExprEvaluatesExactly(l);
        RingExprEvaluatesExactly(r);
        ComparisonCase(tok, l, r);
      } else {
        BoolExprEvaluates(l);
        BoolExprEvaluates(r);
        assert EvalExpr(e) == EvalBooleanExpression(tok.kind, Truth(l), Truth(r));
      }
  }

  lemma ComparisonCase(tok: Token, l: Expr, r: Expr)
    requires BoolExpr(Infix(tok, l, r)) && RingExpr(l) && RingExpr(r)
    requires EvalExpr(l) == Val(Integer(Wrap(ExactValue(l))))
    requires EvalExpr(r) == Val(Integer(Wrap(ExactValue(r))))
    ensures EvalExpr(Infix(tok, l, r)) == Val(NativeBoolToBooleanObject(Truth(Infix(tok, l, r))))
  {
    assert EvalExpr(Infix(tok, l, r))
        == EvalIntegerExpression(tok.kind, Wrap(ExactValue(l)), Wrap(ExactValue(r)));
  }

  /** Evaluation never changes the kind of a literal: integer literals give
      their value, boolean literals their canonical object. */
  lemma LiteralValues(t: Token, n: int64, b: bool)
    ensures EvalExpr(IntegerLiteral(t, n)) == Val(Integer(n))
    ensures EvalExpr(BooleanLiteral(t, b)) == Val(if b then TrueObj else FalseObj)
  {
  }
}

=== FILE: goint.dfy ===
/** Go's `int64` arithmetic and the decimal conversions the interpreter borrows
    from Go's standard library (`strconv.ParseInt(s, 10, 64)` for integer
    literals, `fmt.Sprintf("%d", n)` for printing integers), written out over
    Dafny's unbounded integers. */
module GoInt {

  const MIN_INT64: int := -0x8000_0000_0000_0000
  const MAX_INT64: int := 0x7fff_ffff_ffff_ffff
  /** 2^64: two results that differ by a multiple of it share a bit pattern. */
  const MODULUS: int := 0x1_0000_0000_0000_0000

  type int64 = x: int | MIN_INT64 <= x <= MAX_INT64

  /** Two's-complement wrap-around: the unique `int64` congruent to `x`. */
  function Wrap(x: int): (r: int64)
    ensures (r - x) % MODULUS == 0
    ensures MIN_INT64 <= x <= MAX_INT64 ==> r == x
  {
    var m := (x - MIN_INT64) % MODULUS;
    assert x - MIN_INT64 == MODULUS * ((x - MIN_INT64) / MODULUS) + m;
    m + MIN_INT64
  }

  /** No two distinct `int64` values are congruent, so `Wrap` is the only
      wrap-around there is. */
  lemma WrapUnique(x: int, r: int64)
    requires (r - x) % MODULUS == 0
    ensures r == Wrap(x)
  {
    var w := Wrap(x);
    assert (r - w) % MODULUS == 0 by {
      CongruentSub(r, w, x);
    }
    assert -MODULUS < r - w < MODULUS;
  }

  lemma CongruentSub(a: int, b: int, x: int)
    requires (a - x) % MODULUS == 0 && (b - x) % MODULUS == 0
    ensures (a - b) % MODULUS == 0
  {
    var qa := (a - x) / MODULUS;
    var qb := (b - x) / MODULUS;
    assert a - x == MODULUS * qa;
    assert b - x == MODULUS * qb;
    assert a - b == MODULUS * (qa - qb);
    MultipleMod(qa - qb);
  }

  lemma MultipleMod(q: int)
    ensures (MODULUS * q) % MODULUS == 0
  {
  }

  /** Wrap-around is a ring homomorphism from the integers onto `int64`:
      wrapping the operands first, or only the result, gives the same
      value. */
  lemma WrapAdd(x: int, y: int)
    ensures Wrap(Wrap(x) + Wrap(y)) == Wrap(x + y)
  {
    var s := Wrap(x) + Wrap(y);
    var ka, kb, kc := (Wrap(x) - x) / MODULUS, (Wrap(y) - y) / MODULUS, (Wrap(s) - s) / MODULUS;
    assert Wrap(s) - (x + y) == MODULUS * (kc + ka + kb);
    MultipleMod(kc + ka + kb);
    WrapUnique(x + y, Wrap(s));
  }

  lemma WrapSub(x: int, y: int)
    ensures Wrap(Wrap(x) - Wrap(y)) == Wrap(x - y)
  {
    var s := Wrap(x) - Wrap(y);
    var ka, kb, kc := (Wrap(x) - x) / MODULUS, (Wrap(y) - y) / MODULUS, (Wrap(s) - s) / MODULUS;
    assert Wrap(s) - (x - y) == MODULUS * (kc + ka - kb);
    MultipleMod(kc + ka - kb);
    WrapUnique(x - y, Wrap(s));
  }

  lemma WrapNeg(x: int)
    ensures Wrap(-(Wrap(x) as int)) == Wrap(-x)
  {
    var s := -(Wrap(x) as int);
    var ka, kc := (Wrap(x) - x) / MODULUS, (Wrap(s) - s) / MODULUS;
    assert Wrap(s) - (-x) == MODULUS * (kc - ka);
    MultipleMod(kc - ka);
    WrapUnique(-x, Wrap(s));
  }

  lemma WrapMul(x: int, y: int)
    ensures Wrap(Wrap(x) * Wrap(y)) == Wrap(x * y)
  {
    var wx, wy := Wrap(x) as int, Wrap(y) as int;
    var s := wx * wy;
    var ka, kb, kc := (wx - x) / MODULUS, (wy - y) / MODULUS, (Wrap(s) - s) / MODULUS;
    assert wx == x + MODULUS * ka && wy == y + MODULUS * kb;
    var m := x * kb + ka * y + MODULUS * ka * kb;
    assert s - x * y == MODULUS * m by {
      ProductExpansion(x, y, ka, kb);
    }
    assert Wrap(s) - x * y == MODULUS * (kc + m);
    MultipleMod(kc + m);
    WrapUnique(x * y, Wrap(s));
  }

  lemma ProductExpansion(x: int, y: int, a: int, b: int)
    ensures (x + MODULUS * a) * (y + MODULUS * b) - x * y == MODULUS * (x * b + a * y + MODULUS * a * b)
  {
  }

  /** Go's `a + b` on `int64`. */
  function Add(a: int64, b: int64): (r: int64)
    ensures (r - (a + b)) % MODULUS == 0
    ensures MIN_INT64 <= a + b <= MAX_INT64 ==> r == a + b
  {
    Wrap(a + b)
  }

  /** Go's `a - b` on `int64`. */
  function Sub(a: int64, b: int64): (r: int64)
    ensures (r - (a - b)) % MODULUS == 0
    ensures MIN_INT64 <= a - b <= MAX_INT64 ==> r == a - b
  {
    Wrap(a - b)
  }

  /** Go's `a * b` on `int64`. */
  function Mul(a: int64, b: int64): (r: int64)
    ensures (r - a * b) % MODULUS == 0
    ensures MIN_INT64 <= a * b <= MAX_INT64 ==> r == a * b
  {
    Wrap(a * b)
  }

  /** Go's unary `-a` on `int64`: only the most negative value overflows, and
      it is its own negation. */
  function Neg(a: int64): (r: int64)
    ensures a != MIN_INT64 ==> r == -a
    ensures a == MIN_INT64 ==> r == MIN_INT64
  {
    Wrap(-(a as int))
  }

  lemma NegInvolutive(a: int64)
    ensures Neg(Neg(a)) == a
  {
  }

  function Abs(x: int): nat
  {
    if x < 0 then -x else x
  }

  /** Integer division rounding toward zero, as Go, C and Java divide: the
      remainder it leaves is smaller than the divisor and takes the sign of
      the dividend. */
  function TruncDiv(a: int, b: int): (q: int)
    requires b != 0
    ensures Abs(a - q * b) < Abs(b)
    ensures a - q * b == 0 || (a - q * b < 0 <==> a < 0)
  {
    var n := Abs(a) / Abs(b);
    NatDivFacts(Abs(a), Abs(b));
    var q := if (a < 0) == (b < 0) then n else -n;
    assert q * b == (if a < 0 then -(n * Abs(b)) else n * Abs(b)) by {
      SignedProduct(a, b, n);
    }
    q
  }

  lemma NatDivFacts(x: nat, y: nat)
    requires y > 0
    ensures x / y >= 0
    ensures 0 <= x - (x / y) * y < y
    ensures x / y <= x
    ensures x / y == x && x > 0 ==> y == 1
  {
    var n := x / y;
    assert x == y * n + x % y;
    assert n * y >= n by {
      MulMonotone(n, y);
    }
    if n == x && x > 0 && y > 1 {
      assert n * y >= n * 2 by {
        MulMonotone2(n, y);
      }
    }
  }

  lemma MulMonotone(n: nat, y: nat)
    requires y >= 1
    ensures n * y >= n
  {
  }

  lemma MulMonotone2(n: nat, y: nat)
    requires y >= 2
    ensures n * y >= n * 2
  {
  }

  lemma SignedProduct(a: int, b: int, n: int)
    requires b != 0 && n >= 0
    ensures (if (a < 0) == (b < 0) then n else -n) * b == (if a < 0 then -(n * Abs(b)) else n * Abs(b))
  {
    if b < 0 {
      assert n * b == -(n * Abs(b));
    }
  }

  /** The truncated quotient is never larger in magnitude than the dividend,
      and only a divisor of magnitude one keeps it as large. */
  lemma TruncDivMagnitude(a: int, b: int)
    requires b != 0
    ensures Abs(TruncDiv(a, b)) <= Abs(a)
    ensures Abs(TruncDiv(a, b)) == Abs(a) && a != 0 ==> Abs(b) == 1
  {
    NatDivFacts(Abs(a), Abs(b));
  }

  /** Go's `a / b` on `int64`: truncating, and `MIN_INT64 / -1` wraps back to
      `MIN_INT64`. The caller has already ruled out `b == 0`, which is a Go
      run-time panic. */
  function Quot(a: int64, b: int64): (r: int64)
    requires b != 0
    ensures Abs(a - r * b) < Abs(b) || (a == MIN_INT64 && b == -1)
    ensures a - r * b == 0 || (a - r * b < 0 <==> a < 0)
    ensures a == MIN_INT64 && b == -1 ==> r == MIN_INT64
  {
    var q := TruncDiv(a, b);
    TruncDivMagnitude(a, b);
    Wrap(q)
  }

  // Decimal digits

  predicate IsDecimalDigit(c: char)
  {
    '0' <= c <= '9'
  }

  predicate AllDigits(s: string)
  {
    forall i :: 0 <= i < |s| ==> IsDecimalDigit(s[i])
  }

  function DigitChar(d: int): (c: char)
    requires 0 <= d < 10
    ensures IsDecimalDigit(c)
  {
    ('0' as int + d) as char
  }

  function DigitValue(c: char): (d: int)
    requires IsDecimalDigit(c)
    ensures 0 <= d < 10
    ensures DigitChar(d) == c
  {
    c as int - '0' as int
  }

  /** The number a run of decimal digits spells, most significant first. */
  function DecimalValue(s: string): nat
    requires AllDigits(s)
  {
    if |s| == 0 then 0 else DecimalValue(s[..|s| - 1]) * 10 + DigitValue(s[|s| - 1])
  }

  /** The shortest decimal spelling of `n`: no leading zero except for `0`. */
  function NatToDecimal(n: nat): (s: string)
    ensures |s| > 0 && AllDigits(s)
    ensures s[0] == '0' ==> n == 0
    decreases n
  {
    if n < 10 then [DigitChar(n)] else NatToDecimal(n / 10) + [DigitChar(n % 10)]
  }

  lemma {:induction false} DecimalRoundTrip(n: nat)
    ensures DecimalValue(NatToDecimal(n)) == n
    decreases n
  {
    var s := NatToDecimal(n);
    if n >= 10 {
      DecimalRoundTrip(n / 10);
      assert s[..|s| - 1] == NatToDecimal(n / 10);
    }
  }

  /** `fmt.Sprintf("%d", n)`: a minus sign for negative values, then the
      digits of the magnitude. */
  function Itoa(n: int): (s: string)
    ensures |s| > 0
    ensures s[0] == '-' <==> n < 0
  {
    if n < 0 then "-" + NatToDecimal(-n) else NatToDecimal(n)
  }

  /** Reads back what `Itoa` writes: the inverse of the rendering. */
  function Atoi(s: string): int
  {
    if |s| > 0 && s[0] == '-' && AllDigits(s[1..]) then -(DecimalValue(s[1..]) as int)
    else if AllDigits(s) then DecimalValue(s)
    else 0
  }

  lemma ItoaRoundTrip(n: int)
    ensures Atoi(Itoa(n)) == n
  {
    var s := Itoa(n);
    if n < 0 {
      assert s[1..] == NatToDecimal(-n);
      DecimalRoundTrip(-n);
    } else {
      DecimalRoundTrip(n);
    }
  }

  /** `strconv.ParseInt(s, 10, 64)` on an unsigned literal. The flag is false
      for a syntax error (value 0) and for a value above `MAX_INT64`, where
      Go's documented result is `MAX_INT64`. */
  function ParseInt(s: string): (r: (int64, bool))
    ensures r.1 <==> |s| > 0 && AllDigits(s) && DecimalValue(s) <= MAX_INT64
    ensures r.1 ==> r.0 == DecimalValue(s)
  {
    if |s| > 0 && AllDigits(s) then
      var v := DecimalValue(s);
      if v <= MAX_INT64 then (v, true) else (MAX_INT64, false)
    else
      (0, false)
  }

  lemma ParseIntRoundTrip(n: nat)
    requires n <= MAX_INT64
    ensures ParseInt(NatToDecimal(n)) == (n, true)
  {
    DecimalRoundTrip(n);
  }
}

=== FILE: lexer.dfy ===
/** The lexer: a cursor over the input's runes that hands out one token per
    call, skipping delimiters first and answering `EOF` for ever once the
    input is used up. */
module Lexer {
  import opened Token

  /** The rune the source uses both for "past the end" and as the `EOF`
      case of the dispatch. */
  const NUL: char := '\0'

  /** The lexer state. `position` is the index of the current rune `ch`;
      the source's `readPosition` is always `position + 1`. */
  datatype Lexer = Lexer(input: string, position: nat) {

    /** The current rune, NUL once the position is past the end. */
    function Ch(): char
    {
      CharAt(input, position)
    }
  }

  function CharAt(input: string, i: nat): char
  {
    if i < |input| then input[i] else NUL
  }

  /** A fresh lexer positioned on the first rune. */
  function New(input: string): (l: Lexer)
    ensures l.input == input && l.Ch() == (if |input| > 0 then input[0] else NUL)
  {
    Lexer(input, 0)
  }

  predicate IsDelim(c: char)
  {
    c == ' ' || c == '\n' || c == '\t' || c == '\r'
  }

  /** Identifier runes. `!` and `?` only ever continue an identifier: at the
      start of a token they are dispatched as operators first. */
  predicate IsLetter(c: char)
  {
    ('a' <= c <= 'z') || ('A' <= c <= 'Z') || c == '_' || c == '!' || c == '?'
  }

  predicate IsDigit(c: char)
  {
    '0' <= c <= '9'
  }

  /** The first position at or after `pos` whose rune is not a delimiter. */
  function SkipDelim(input: string, pos: nat): (q: nat)
    ensures pos <= q
    ensures forall i :: pos <= i < q ==> i < |input| && IsDelim(input[i])
    ensures !IsDelim(CharAt(input, q))
    decreases |input| - pos
  {
    if IsDelim(CharAt(input, pos)) then
      assert pos < |input| && IsDelim(input[pos]);
      SkipDelim(input, pos + 1)
    else
      pos
  }

  /** Skipping stops exactly at the first rune that is not a delimiter. */
  lemma {:induction false} SkipDelimTo(input: string, pos: nat, q: nat)
    requires pos <= q && (forall i :: pos <= i < q ==> IsDelim(CharAt(input, i)))
    requires !IsDelim(CharAt(input, q))
    ensures SkipDelim(input, pos) == q
    decreases q - pos
  {
    if pos < q {
      assert IsDelim(CharAt(input, pos));
      SkipDelimTo(input, pos + 1, q);
    }
  }

  /** The end of the maximal run of identifier runes starting at `pos`. */
  function ReadIdentifier(input: string, pos: nat): (end: nat)
    requires pos <= |input|
    ensures pos <= end <= |input|
    ensures forall i :: pos <= i < end ==> IsLetter(input[i])
    ensures end == |input| || !IsLetter(input[end])
    decreases |input| - pos
  {
    if pos < |input| && IsLetter(input[pos]) then ReadIdentifier(input, pos + 1) else pos
  }

  /** The end of the maximal run of decimal digits starting at `pos`. */
  function ReadNumber(input: string, pos: nat): (end: nat)
    requires pos <= |input|
    ensures pos <= end <= |input|
    ensures forall i :: pos <= i < end ==> IsDigit(input[i])
    ensures end == |input| || !IsDigit(input[end])
    decreases |input| - pos
  {
    if pos < |input| && IsDigit(input[pos]) then ReadNumber(input, pos + 1) else pos
  }

  /** The rune after the one at `pos`, as a string, or "" past the end. */
  function PeekRune(input: string, pos: nat): (r: string)
    ensures |r| <= 1
    ensures r == "" <==> pos + 1 >= |input|
    ensures r != "" ==> r[0] == input[pos + 1]
  {
    if pos + 1 >= |input| then "" else [input[pos + 1]]
  }

  /** A token whose literal is one rune. */
  function NewToken(kind: Kind, ch: char): Token
  {
    Token(kind, [ch])
  }

  /** The kind of each rune that is a token on its own. */
  function SingleKind(c: char): Kind
  {
    match c
    case '=' => ASSIGN
    case '!' => BANG
    case '?' => WHAT
    case '+' => PLUS
    case '-' => MINUS
    case '>' => GT
    case '<' => LT
    case '/' => DIVIDE
    case '*' => MULTI
    case '(' => LPAREN
    case ')' => RPAREN
    case '{' => LBRACE
    case '}' => RBRACE
    case ',' => COMMA
    case ';' => SEMICOLON
    case _ => ILLEGAL
  }

  /** The runes that are a token on their own, whatever follows them. */
  predicate IsOneRune(c: char)
  {
    c == '?' || c == '+' || c == '-' || c == '/' || c == '*' || c == '(' ||
    c == ')' || c == '{' || c == '}' || c == ',' || c == ';'
  }

  /** The two-rune operator an `=`, `!`, `>` or `<` starts when `=` follows. */
  function DoubleKind(c: char): Kind
  {
    match c
    case '=' => EQ
    case '!' => NE
    case '>' => GE
    case '<' => LE
    case _ => ILLEGAL
  }

  predicate StartsDouble(c: char)
  {
    c == '=' || c == '!' || c == '>' || c == '<'
  }

  /** One call of the source's `NextToken`: the token and the lexer after it.
      Every token but `EOF` is spelled by the input runes it consumed, and no
      delimiter ever appears in a literal. */
  function NextToken(l: Lexer): (r: (Token, Lexer))
    ensures r.1.input == l.input
    ensures r.1.position > SkipDelim(l.input, l.position) >= l.position
    ensures r.0.kind == EOF <==> CharAt(l.input, SkipDelim(l.input, l.position)) == NUL
    ensures r.0.kind == EOF ==> r.0.literal == "" && r.1.position == SkipDelim(l.input, l.position) + 1
    ensures r.0.kind != EOF ==>
              r.1.position <= |l.input| &&
              r.0.literal == l.input[SkipDelim(l.input, l.position)..r.1.position]
    ensures forall i :: 0 <= i < |r.0.literal| ==> !IsDelim(r.0.literal[i])
  {
    var q := SkipDelim(l.input, l.position);
    var (t, e) := TokenAt(l.input, q);
    (t, Lexer(l.input, e))
  }

  /** The dispatch on the rune at `q`, which is not a delimiter: the token
      that starts there and the position after it. */
  function TokenAt(input: string, q: nat): (r: (Token, nat))
    requires !IsDelim(CharAt(input, q))
    ensures r.1 > q
    ensures r.0.kind == EOF <==> CharAt(input, q) == NUL
    ensures r.0.kind == EOF ==> r.0.literal == "" && r.1 == q + 1
    ensures r.0.kind != EOF ==> r.1 <= |input| && r.0.literal == input[q..r.1]
    ensures forall i :: 0 <= i < |r.0.literal| ==> !IsDelim(r.0.literal[i])
  {
    var ch := CharAt(input, q);
    if StartsDouble(ch) then
      if PeekRune(input, q) == "=" then
        (Token(DoubleKind(ch), [ch, '=']), q + 2)
      else
        (NewToken(SingleKind(ch), ch), q + 1)
    else if IsOneRune(ch) then
      (NewToken(SingleKind(ch), ch), q + 1)
    else if ch == NUL then
      (Token(EOF, ""), q + 1)
    else if IsLetter(ch) then
      WordAt(input, q)
    else if IsDigit(ch) then
      NumberAt(input, q)
    else
      (NewToken(ILLEGAL, ch), q + 1)
  }

  /** An identifier or keyword: the longest run of identifier runes. */
  function WordAt(input: string, q: nat): (r: (Token, nat))
    requires q < |input| && IsLetter(input[q])
    ensures q < r.1 <= |input| && r.0.literal == input[q..r.1] && r.0.kind != EOF
    ensures forall i :: 0 <= i < |r.0.literal| ==> IsLetter(r.0.literal[i])
  {
    var end := ReadIdentifier(input, q);
    var lit := input[q..end];
    assert forall i :: 0 <= i < |lit| ==> IsLetter(lit[i]) by {
      forall i | 0 <= i < |lit| ensures IsLetter(lit[i]) {
        assert lit[i] == input[q + i];
      }
    }
    (Token(LookupIdent(lit), lit), end)
  }

  /** A number: the longest run of decimal digits. */
  function NumberAt(input: string, q: nat): (r: (Token, nat))
    requires q < |input| && IsDigit(input[q])
    ensures q < r.1 <= |input| && r.0 == Token(INT, input[q..r.1])
    ensures forall i :: 0 <= i < |r.0.literal| ==> IsDigit(r.0.literal[i])
  {
    var end := ReadNumber(input, q);
    assert forall i :: 0 <= i < end - q ==> IsDigit(input[q..end][i]);
    (Token(INT, input[q..end]), end)
  }

  /** The state after `n` calls of `NextToken`. */
  function Advance(l: Lexer, n: nat): Lexer
    decreases n
  {
    if n == 0 then l else Advance(NextToken(l).1, n - 1)
  }

  /** The token the `n`-th call (counting from zero) returns. */
  function NthToken(l: Lexer, n: nat): Token
  {
    NextToken(Advance(l, n)).0
  }

  /** Once nothing but delimiters is left, every call returns `EOF` with the
      empty literal, and leaves nothing but delimiters. */
  lemma {:induction false} EofForever(l: Lexer, n: nat)
    requires SkipDelim(l.input, l.position) >= |l.input|
    ensures NthToken(l, n) == Token(EOF, "")
    ensures SkipDelim(l.input, Advance(l, n).position) >= |l.input|
    decreases n
  {
    if n > 0 {
      var l' := NextToken(l).1;
      assert SkipDelim(l'.input, l'.position) >= |l'.input|;
      EofForever(l', n - 1);
    }
  }

  /** The tokens the lexer hands out before the input is used up, one per
      call; every later call answers `EOF` (see `TokenizeIsStream`). */
  function Tokenize(l: Lexer): (toks: seq<Token>)
    requires l.position <= |l.input|
    decreases |l.input| - l.position
  {
    if SkipDelim(l.input, l.position) >= |l.input| then []
    else
      var r := NextToken(l);
      [r.0] + Tokenize(r.1)
  }

  /** While input is left, the token sequence is the next token followed by
      the tokens of the rest. */
  lemma TokenizeStep(l: Lexer)
    requires l.position <= |l.input| && SkipDelim(l.input, l.position) < |l.input|
    ensures NextToken(l).1.position <= |l.input|
    ensures Tokenize(l) == [NextToken(l).0] + Tokenize(NextToken(l).1)
  {
  }

  /** The `i`-th token of a finished token sequence, `EOF` past its end. */
  function StreamAt(toks: seq<Token>, i: nat): Token
  {
    if i < |toks| then toks[i] else Token(EOF, "")
  }

  /** Reading `Tokenize` as an endless stream gives exactly what successive
      calls of `NextToken` return. */
  lemma {:induction false} TokenizeIsStream(l: Lexer, n: nat)
    requires l.position <= |l.input|
    ensures StreamAt(Tokenize(l), n) == NthToken(l, n)
    decreases n
  {
    if SkipDelim(l.input, l.position) >= |l.input| {
      StreamAtEnd(l, n);
    } else {
      TokenizeStep(l);
      if n > 0 {
        TokenizeIsStream(NextToken(l).1, n - 1);
      }
      StreamAtToken(l, n);
    }
  }

  /** One call of `NextToken` ahead: the stream from `l` is its token in
      front of the stream from the state it leaves. */
  lemma StreamAtToken(l: Lexer, n: nat)
    requires l.position <= |l.input| && SkipDelim(l.input, l.position) < |l.input|
    requires NextToken(l).1.position <= |l.input|
    requires n > 0 ==> StreamAt(Tokenize(NextToken(l).1), n - 1) == NthToken(NextToken(l).1, n - 1)
    ensures StreamAt(Tokenize(l), n) == NthToken(l, n)
  {
    var t, l' := NextToken(l).0, NextToken(l).1;
    TokenizeStep(l);
    StreamAtCons(t, Tokenize(l'), n);
    NthTokenStep(l, n);
  }

  /** The first call returns the first token; the later ones are the calls
      on the state the first leaves. */
  lemma NthTokenStep(l: Lexer, n: nat)
    ensures NthToken(l, n) == if n == 0 then NextToken(l).0 else NthToken(NextToken(l).1, n - 1)
  {
    if n > 0 {
      assert Advance(l, n) == Advance(NextToken(l).1, n - 1);
    }
  }

  /** Past the last token the stream and the lexer both give `EOF`. */
  lemma StreamAtEnd(l: Lexer, n: nat)
    requires l.position <= |l.input| && SkipDelim(l.input, l.position) >= |l.input|
    ensures StreamAt(Tokenize(l), n) == NthToken(l, n)
  {
    assert Tokenize(l) == [];
    EofForever(l, n);
  }

  lemma StreamAtCons(t: Token, ts: seq<Token>, n: nat)
    ensures StreamAt([t] + ts, n) == if n == 0 then t else StreamAt(ts, n - 1)
  {
    if n > 0 && n - 1 < |ts| {
      assert ([t] + ts)[n] == ts[n - 1];
    }
  }

  /** `s` with every delimiter removed. */
  function RemoveDelims(s: string): (r: string)
    ensures forall i :: 0 <= i < |r| ==> !IsDelim(r[i])
  {
    if |s| == 0 then []
    else (if IsDelim(s[0]) then [] else [s[0]]) + RemoveDelims(s[1..])
  }

  lemma {:induction false} RemoveDelimsAppend(a: string, b: string)
    ensures RemoveDelims(a + b) == RemoveDelims(a) + RemoveDelims(b)
  {
    if |a| > 0 {
      assert (a + b)[1..] == a[1..] + b;
      RemoveDelimsAppend(a[1..], b);
    } else {
      assert a + b == b;
    }
  }

  lemma {:induction false} RemoveDelimsNone(s: string)
    requires forall i :: 0 <= i < |s| ==> !IsDelim(s[i])
    ensures RemoveDelims(s) == s
  {
    if |s| > 0 {
      RemoveDelimsNone(s[1..]);
    }
  }

  lemma {:induction false} RemoveDelimsAll(s: string)
    requires forall i :: 0 <= i < |s| ==> IsDelim(s[i])
    ensures RemoveDelims(s) == []
  {
    if |s| > 0 {
      RemoveDelimsAll(s[1..]);
    }
  }

  function Literals(toks: seq<Token>): string
  {
    if |toks| == 0 then [] else toks[0].literal + Literals(toks[1..])
  }

  /** On input free of NUL runes no `EOF` comes before the end, and the
      literals of the tokens, put together, are the input with its
      delimiters removed: nothing is lost, invented or reordered. */
  lemma {:induction false} TokenizeSpellsInput(l: Lexer)
    requires l.position <= |l.input|
    requires forall i :: 0 <= i < |l.input| ==> l.input[i] != NUL
    ensures forall i :: 0 <= i < |Tokenize(l)| ==> Tokenize(l)[i].kind != EOF
    ensures Literals(Tokenize(l)) == RemoveDelims(l.input[l.position..])
    decreases |l.input| - l.position
  {
    var q := SkipDelim(l.input, l.position);
    if q >= |l.input| {
      RemoveDelimsAll(l.input[l.position..]);
    } else {
      var r := NextToken(l);
      StepSpellsInput(l);
      TokenizeSpellsInput(r.1);
      assert Tokenize(l) == [r.0] + Tokenize(r.1);
      assert Tokenize(l)[1..] == Tokenize(r.1);
    }
  }

  /** One step of `TokenizeSpellsInput`: the token just read spells the
      non-delimiter runes it consumed. */
  lemma StepSpellsInput(l: Lexer)
    requires l.position <= |l.input|
    requires forall i :: 0 <= i < |l.input| ==> l.input[i] != NUL
    requires SkipDelim(l.input, l.position) < |l.input|
    ensures NextToken(l).0.kind != EOF
    ensures NextToken(l).1.position <= |l.input|
    ensures RemoveDelims(l.input[l.position..])
            == NextToken(l).0.literal + RemoveDelims(l.input[NextToken(l).1.position..])
  {
    var input := l.input;
    var q := SkipDelim(input, l.position);
    var r := NextToken(l);
    var p := r.1.position;
    assert r.0.kind != EOF && q < p <= |input| && r.0.literal == input[q..p] by {
      assert CharAt(input, q) != NUL;
    }
    SpliceRemoveDelims(input, l.position, q, p);
  }

  lemma SpliceRemoveDelims(s: string, a: nat, q: nat, p: nat)
    requires a <= q <= p <= |s|
    requires forall i :: a <= i < q ==> IsDelim(s[i])
    requires forall i :: q <= i < p ==> !IsDelim(s[i])
    ensures RemoveDelims(s[a..]) == s[q..p] + RemoveDelims(s[p..])
  {
    var d, w, rest := s[a..q], s[q..p], s[p..];
    assert s[a..] == (d + w) + rest;
    RemoveDelimsAppend(d + w, rest);
    RemoveDelimsAppend(d, w);
    RemoveDelimsAll(d);
    RemoveDelimsNone(w);
    assert RemoveDelims(d + w) == w;
  }

  /** `=`, `!`, `<` and `>` take the following `=` into a two-rune operator
      and otherwise stand alone; a leading `!` is never part of an
      identifier. */
  lemma TwoRuneOperators(l: Lexer)
    requires var q := SkipDelim(l.input, l.position);
             q < |l.input| && StartsDouble(l.input[q])
    ensures var q := SkipDelim(l.input, l.position);
            var c := l.input[q];
            var t := NextToken(l).0;
            if q + 1 < |l.input| && l.input[q + 1] == '=' then
              NextToken(l).1.position == q + 2 &&
              t == (if c == '=' then Token(EQ, "==") else if c == '!' then Token(NE, "!=")
                    else if c == '<' then Token(LE, "<=") else Token(GE, ">="))
            else
              NextToken(l).1.position == q + 1 &&
              t == (if c == '=' then Token(ASSIGN, "=") else if c == '!' then Token(BANG, "!")
                    else if c == '<' then Token(LT, "<") else Token(GT, ">"))
  {
  }

  /** The runes `?`, `+`, `-`, `/`, `*`, the brackets, `,` and `;` are each
      a token on their own, whatever follows them. */
  lemma OneRuneOperators(l: Lexer)
    requires var q := SkipDelim(l.input, l.position);
             q < |l.input| && IsOneRune(l.input[q])
    ensures var q := SkipDelim(l.input, l.position);
            var c := l.input[q];
            NextToken(l) == (Token(SingleKind(c), [c]), Lexer(l.input, q + 1)) &&
            SingleKind(c) != ILLEGAL
  {
  }

  /** A token that starts with a letter or `_` is the longest run of
      identifier runes from there, classified by the keyword table. */
  lemma IdentifierToken(l: Lexer)
    requires var q := SkipDelim(l.input, l.position);
             q < |l.input| && (('a' <= l.input[q] <= 'z') || ('A' <= l.input[q] <= 'Z') || l.input[q] == '_')
    ensures var q := SkipDelim(l.input, l.position);
            var t := NextToken(l).0;
            var e := NextToken(l).1.position;
            q < e <= |l.input| && t.literal == l.input[q..e] &&
            (forall i :: q <= i < e ==> IsLetter(l.input[i])) &&
            (e == |l.input| || !IsLetter(l.input[e])) &&
            t.kind == LookupIdent(t.literal)
  {
  }

  /** A token that starts with a digit is `INT`, spelled by the longest run of
      digits from there; a letter right after the digits starts the next
      token. */
  lemma NumberToken(l: Lexer)
    requires var q := SkipDelim(l.input, l.position);
             q < |l.input| && IsDigit(l.input[q])
    ensures var q := SkipDelim(l.input, l.position);
            var t := NextToken(l).0;
            var e := NextToken(l).1.position;
            q < e <= |l.input| && t == Token(INT, l.input[q..e]) &&
            (forall i :: q <= i < e ==> IsDigit(l.input[i])) &&
            (e == |l.input| || !IsDigit(l.input[e]))
  {
  }

  /** Any rune no rule claims becomes an `ILLEGAL` token spelled by that rune. */
  lemma IllegalToken(l: Lexer)
    requires var q := SkipDelim(l.input, l.position);
             var c := CharAt(l.input, q);
             c != NUL && !IsLetter(c) && !IsDigit(c) && SingleKind(c) == ILLEGAL
    ensures var q := SkipDelim(l.input, l.position);
            NextToken(l) == (Token(ILLEGAL, [l.input[q]]), Lexer(l.input, q + 1))
  {
  }
}

=== FILE: object.dfy ===
/** Run-time values: 64-bit integers, booleans and null, each with a type
    tag and a printed form. The evaluator only ever builds the booleans and
    null through the canonical constants below, so a boolean value is equal
    to the canonical object of its truth value. */
module Object {
  import opened GoInt

  datatype Value = Integer(intValue: int64) | Boolean(boolValue: bool) | Null {

    /** The type tag, spelled as the interpreter spells it. */
    function Type(): string
    {
      match this
      case Integer(_) => INTEGER_OBJ
      case Boolean(_) => BOOLEAN_OBJ
      case Null => NULL_OBJ
    }

    /** The printed form: signed decimal, `true`/`false`, or `NULL`. */
    function Inspect(): (s: string)
      ensures Integer? ==> s == Itoa(intValue) && (s[0] == '-' <==> intValue < 0)
      ensures Boolean? ==> s == (if boolValue then "true" else "false")
      ensures Null? ==> s == "NULL"
    {
      match this
      case Integer(n) => Itoa(n)
      case Boolean(b) => if b then "true" else "false"
      case Null => "NULL"
    }
  }

  const INTEGER_OBJ: string := "INTERGER"
  const BOOLEAN_OBJ: string := "BOOLEAN"
  const NULL_OBJ: string := "NULL"

  const TrueObj: Value := Boolean(true)
  const FalseObj: Value := Boolean(false)
  const NullObj: Value := Null

  /** The canonical boolean object for a truth value. */
  function NativeBoolToBooleanObject(b: bool): (v: Value)
    ensures v == TrueObj || v == FalseObj
    ensures v == TrueObj <==> b
  {
    if b then TrueObj else FalseObj
  }

  /** Each variant has its own tag: two values share a tag exactly when they
      are the same variant. */
  lemma TypeTagsDistinct(a: Value, b: Value)
    ensures a.Type() == b.Type() <==>
            (a.Integer? && b.Integer?) || (a.Boolean? && b.Boolean?) || (a.Null? && b.Null?)
  {
    assert INTEGER_OBJ[0] == 'I' && BOOLEAN_OBJ[0] == 'B' && NULL_OBJ[0] == 'N';
  }

  /** The first character of a printed integer is a sign or a digit. */
  lemma IntegerInspectStart(n: int64)
    ensures Integer(n).Inspect()[0] == '-' || IsDecimalDigit(Integer(n).Inspect()[0])
  {
    if n >= 0 {
      assert Itoa(n) == NatToDecimal(n);
    }
  }

  /** The printed form determines the value: `Inspect` is injective. */
  lemma InspectInjective(a: Value, b: Value)
    requires a.Inspect() == b.Inspect()
    ensures a == b
  {
    if a.Integer? && b.Integer? {
      ItoaRoundTrip(a.intValue);
      ItoaRoundTrip(b.intValue);
    } else if a.Integer? {
      assert b.Inspect()[0] in {'t', 'f', 'N'};
      IntegerInspectStart(a.intValue);
    } else if b.Integer? {
      assert a.Inspect()[0] in {'t', 'f', 'N'};
      IntegerInspectStart(b.intValue);
    } else {
      assert a.Inspect()[0] == b.Inspect()[0];
    }
  }
}

=== FILE: options.dfy ===
/** The optional value used wherever the interpreter works with a Go pointer or
    interface that may be nil. */
module Options {

  datatype Option<+T> = None | Some(value: T)
}

=== FILE: parser.dfy ===
/** The Pratt parser: a cursor with a current and a peek token over the
    lexer's tokens, an append-only error list, prefix and infix handler
    tables, and the statement parsers. The statement and expression parsers
    call each other, so they share this one module.

    Each parse function takes the parser state and returns the node it
    built together with the state after it, or `Hang`: the `let` and
    `return` parsers skip forward to the next `;`, and when none is left the
    source loops for ever. */
module Parser {
  import opened Options
  import opened Token
  import Lexer
  import opened Precedence
  import opened Ast
  import opened GoInt

  /** The text of the error `expectPeek` and `addPeekError` record. */
  function PeekErrorMessage(expected: Kind, got: Kind): string
  {
    "expect " + Name(expected) + ", got " + Name(got)
  }

  /** The parser state: the whole token stream (`EOF` for ever past its
      end), the index of the current token, and the errors so far. */
  datatype Parser = Parser(toks: seq<Token>, idx: nat, errors: seq<string>) {

    function Cur(): Token
    {
      Lexer.StreamAt(toks, idx)
    }

    function Peek(): Token
    {
      Lexer.StreamAt(toks, idx + 1)
    }

    /** How many tokens are left before the stream is nothing but `EOF`. */
    function Rem(): nat
    {
      if idx < |toks| then |toks| - idx else 0
    }

    /** Moves the peek token into the current slot and pulls one more. */
    function NextToken(): (q: Parser)
      ensures q.Cur() == Peek()
      ensures q.Peek() == Lexer.StreamAt(toks, idx + 2)
      ensures q.toks == toks && q.errors == errors
      ensures Cur().kind != EOF ==> q.Rem() < Rem()
    {
      this.(idx := idx + 1)
    }

    predicate CurTokenIs(k: Kind)
    {
      Cur().kind == k
    }

    predicate PeekTokenIs(k: Kind)
    {
      Peek().kind == k
    }

    /** Records that `k` was expected where the peek token stands. */
    function AddPeekError(k: Kind): (q: Parser)
      ensures q.toks == toks && q.idx == idx
      ensures q.errors == errors + [PeekErrorMessage(k, Peek().kind)]
    {
      this.(errors := errors + [PeekErrorMessage(k, Peek().kind)])
    }

    /** Advances past the peek token when it is a `k` and says so; otherwise
        stays put and records exactly one error. */
    function ExpectPeek(k: Kind): (r: (bool, Parser))
      ensures r.0 <==> Peek().kind == k
      ensures r.1.toks == toks
      ensures r.0 ==> r.1.Cur() == Peek() && r.1.idx == idx + 1 && r.1.errors == errors
      ensures !r.0 ==> r.1.idx == idx && r.1.errors == errors + [PeekErrorMessage(k, Peek().kind)]
    {
      if PeekTokenIs(k) then (true, NextToken()) else (false, AddPeekError(k))
    }
  }

  /** A fresh parser over `input`: the current token is the lexer's first
      and the peek token its second. */
  function New(input: string): (p: Parser)
    ensures p.errors == [] && p.idx == 0
  {
    Parser(Lexer.Tokenize(Lexer.New(input)), 0, [])
  }

  /** What a parse function hands back: the node and the state after it, or
      `Hang` when the source would never return. */
  datatype Parsed<+T> = Done(node: T, rest: Parser) | Hang

  /** `q` is a later state of the same parse: same tokens, cursor not moved
      back, and the earlier errors kept in place. */
  predicate Follows(p: Parser, q: Parser)
  {
    q.toks == p.toks && p.idx <= q.idx && p.errors <= q.errors
  }

  predicate Moved<T>(p: Parser, r: Parsed<T>)
  {
    r.Done? ==> Follows(p, r.rest)
  }

  /** Every `let` and every `return` has a `;` somewhere after it: the
      statements that skip forward to a `;`, and so the only ones that can
      hang, always find one. */
  predicate NoSkipping(toks: seq<Token>)
  {
    forall i :: 0 <= i < |toks| && (toks[i].kind == LET || toks[i].kind == RETURN) ==>
      exists j :: i < j < |toks| && toks[j].kind == SEMICOLON
  }

  // The handler tables

  datatype PrefixFn = IfFn | IdentifierFn | IntegerFn | PrefixExprFn | ParenFn | BooleanFn

  /** The kinds that can start an expression, and their handlers. */
  const PrefixFns: map<Kind, PrefixFn> := map[
    IF := IfFn,
    IDENT := IdentifierFn,
    INT := IntegerFn,
    BANG := PrefixExprFn,
    MINUS := PrefixExprFn,
    LPAREN := ParenFn,
    TRUE := BooleanFn,
    FALSE := BooleanFn
  ]

  /** Infix handlers; suffix operators are infix handlers that take no
      right operand. */
  datatype InfixFn = InfixExprFn | SuffixExprFn

  const InfixFns: map<Kind, InfixFn> := map[
    PLUS := InfixExprFn,
    MINUS := InfixExprFn,
    DIVIDE := InfixExprFn,
    MULTI := InfixExprFn,
    GT := InfixExprFn,
    GE := InfixExprFn,
    LE := InfixExprFn,
    LT := InfixExprFn,
    EQ := InfixExprFn,
    PLUSPLUS := SuffixExprFn,
    MINUSMINUS := SuffixExprFn,
    WHAT := SuffixExprFn
  ]

  // Program and statements

  /** Parses statements until the current token is `EOF`, keeping the
      non-nil ones in order. */
  function ParseProgram(p: Parser): (r: Parsed<Program>)
    ensures Moved(p, r)
    ensures NoSkipping(p.toks) ==> r.Done?
    ensures r.Done? ==> r.rest.CurTokenIs(EOF)
  {
    match ProgramLoop(p, [])
    case Hang => Hang
    case Done(stmts, q) => Done(Program(stmts), q)
  }

  function ProgramLoop(p: Parser, acc: seq<Stmt>): (r: Parsed<seq<Stmt>>)
    ensures Moved(p, r)
    ensures NoSkipping(p.toks) ==> r.Done?
    ensures r.Done? ==> r.rest.CurTokenIs(EOF) && acc <= r.node
    ensures p.CurTokenIs(EOF) ==> r == Done(acc, p)
    decreases p.Rem()
  {
    if p.CurTokenIs(EOF) then Done(acc, p)
    else
      match ParseStatement(p)
      case Hang => Hang
      case Done(s, q) =>
        var acc' := match s case Some(st) => acc + [st] case None => acc;
        ProgramLoop(q.NextToken(), acc')
  }

  /** Dispatches on the current token: `let`, `return`, or an expression
      statement. Every statement keeps the token it started at, and only a
      malformed `let` yields no statement. */
  function ParseStatement(p: Parser): (r: Parsed<Option<Stmt>>)
    ensures Moved(p, r)
    ensures NoSkipping(p.toks) ==> r.Done?
    ensures r.Done? && r.node.Some? ==> r.node.value.tok == p.Cur()
    ensures r.Done? && r.node.Some? ==> (r.node.value.Let? <==> p.CurTokenIs(LET))
    ensures r.Done? && r.node.Some? ==> (r.node.value.Return? <==> p.CurTokenIs(RETURN))
    ensures r.Done? && !p.CurTokenIs(LET) ==> r.node.Some?
    ensures r.Done? && r.node.None? ==>
              p.CurTokenIs(LET) && (!p.PeekTokenIs(IDENT) || Lexer.StreamAt(p.toks, p.idx + 2).kind != ASSIGN)
    decreases p.Rem(), 8
  {
    match p.Cur().kind
    case LET => ParseLetStatement(p)
    case RETURN => ParseReturnStatement(p)
    case _ => ParseExpressionStatement(p, LOWEST)
  }

  /** An expression statement: its first token, an expression parsed at
      `LOWEST` whatever `precedence` says, and at most one `;` after it. */
  function ParseExpressionStatement(p: Parser, precedence: int): (r: Parsed<Option<Stmt>>)
    ensures Moved(p, r)
    ensures NoSkipping(p.toks) ==> r.Done?
    ensures r.Done? ==> r.node.Some? && r.node.value.ExpressionStatement? && r.node.value.tok == p.Cur()
    decreases p.Rem(), 7
  {
    match ParseExpression(p, LOWEST)
    case Hang => Hang
    case Done(e, q) =>
      Done(Some(ExpressionStatement(p.Cur(), e)), if q.PeekTokenIs(SEMICOLON) then q.NextToken() else q)
  }

  /** Moves forward to the next `;`, or `None` when no `;` is left: the
      source's skip loop then never ends. */
  function SkipToSemicolon(p: Parser): (r: Option<Parser>)
    ensures r.Some? <==> exists j :: p.idx <= j < |p.toks| && p.toks[j].kind == SEMICOLON
    ensures r.Some? ==> Follows(p, r.value) && r.value.errors == p.errors
    ensures r.Some? ==> r.value.CurTokenIs(SEMICOLON)
    ensures r.Some? ==> forall j :: p.idx <= j < r.value.idx ==> p.toks[j].kind != SEMICOLON
    decreases p.Rem()
  {
    if p.CurTokenIs(SEMICOLON) then Some(p)
    else if p.idx >= |p.toks| then None
    else SkipToSemicolon(p.NextToken())
  }

  /** `let <ident> = ...;`. The value is parsed with the `=` still current,
      and everything up to the next `;` is skipped. */
  function ParseLetStatement(p: Parser): (r: Parsed<Option<Stmt>>)
    ensures Moved(p, r)
    ensures r.Done? && r.node.Some? ==>
              r.node.value.Let? && r.node.value.tok == p.Cur() &&
              r.node.value.name == Identifier(p.Peek(), p.Peek().literal) && r.node.value.value == NilExpr &&
              r.rest.CurTokenIs(SEMICOLON) && r.rest.errors == p.errors
    ensures r.Done? && r.node.None? ==> !p.PeekTokenIs(IDENT) || Lexer.StreamAt(p.toks, p.idx + 2).kind != ASSIGN
    ensures NoSkipping(p.toks) && p.CurTokenIs(LET) ==> r.Done?
    decreases p.Rem(), 7
  {
    var (okName, p1) := p.ExpectPeek(IDENT);
    if !okName then
      Done(None, p1.AddPeekError(p1.Peek().kind))
    else
      var name := Identifier(p1.Cur(), p1.Cur().literal);
      assert p1.toks == p.toks && p1.Peek() == Lexer.StreamAt(p.toks, p.idx + 2);
      var (okAssign, p2) := p1.ExpectPeek(ASSIGN);
      if !okAssign then Done(None, p2)
      else
        // The value is parsed from the `=`, which starts no expression.
        AssignStartsNothing(p2);
        // The `;` after a `let` lies beyond the name and the `=`.
        LetSemicolon(p, p2);
        match ParseExpression(p2, LOWEST)
        case Hang => Hang
        case Done(value, p3) =>
          match SkipToSemicolon(p3)
          case None => Hang
          case Some(p4) => Done(Some(Let(p.Cur(), name, value)), p4)
  }

  /** `=` starts no expression: parsing from it gives nil and stays put. */
  lemma AssignStartsNothing(p: Parser)
    requires p.CurTokenIs(ASSIGN)
    ensures ParseExpression(p, LOWEST) == Done(NilExpr, p)
    decreases p.Rem(), 7
  {
    assert ASSIGN !in PrefixFns;
  }

  /** In a well-formed `let x =`, the `;` that every `let` has lies beyond
      the `=`. */
  lemma LetSemicolon(p: Parser, q: Parser)
    requires p.PeekTokenIs(IDENT) && Lexer.StreamAt(p.toks, p.idx + 2).kind == ASSIGN
    requires q.toks == p.toks && q.idx == p.idx + 2
    ensures NoSkipping(p.toks) && p.CurTokenIs(LET) ==> SkipToSemicolon(q).Some?
  {
    if NoSkipping(p.toks) && p.CurTokenIs(LET) {
      LetSemicolonAhead(p);
    }
  }

  lemma LetSemicolonAhead(p: Parser)
    requires NoSkipping(p.toks) && p.CurTokenIs(LET)
    requires p.PeekTokenIs(IDENT) && Lexer.StreamAt(p.toks, p.idx + 2).kind == ASSIGN
    ensures exists j :: p.idx + 2 <= j < |p.toks| && p.toks[j].kind == SEMICOLON
  {
    assert p.toks[p.idx].kind == LET;
    var j :| p.idx < j < |p.toks| && p.toks[j].kind == SEMICOLON;
    assert p.toks[p.idx + 1].kind == IDENT && p.toks[p.idx + 2].kind == ASSIGN;
    assert p.idx + 2 <= j;
  }

  /** A `let` not followed by an identifier records two errors: the failed
      expectation, then a second one naming the peek token against itself. */
  lemma LetMissingName(p: Parser)
    requires !p.PeekTokenIs(IDENT)
    ensures ParseLetStatement(p)
            == Done(None, p.(errors := p.errors + [PeekErrorMessage(IDENT, p.Peek().kind),
                                                   PeekErrorMessage(p.Peek().kind, p.Peek().kind)]))
  {
    var p1 := p.ExpectPeek(IDENT).1;
    assert p1 == p.(errors := p.errors + [PeekErrorMessage(IDENT, p.Peek().kind)]);
    assert p1.errors + [PeekErrorMessage(p1.Peek().kind, p1.Peek().kind)]
        == p.errors + [PeekErrorMessage(IDENT, p.Peek().kind), PeekErrorMessage(p.Peek().kind, p.Peek().kind)];
  }

  /** `let x` not followed by `=` records one error and stops on the name. */
  lemma LetMissingAssign(p: Parser)
    requires p.PeekTokenIs(IDENT) && Lexer.StreamAt(p.toks, p.idx + 2).kind != ASSIGN
    ensures ParseLetStatement(p)
            == Done(None, Parser(p.toks, p.idx + 1,
                                 p.errors + [PeekErrorMessage(ASSIGN, Lexer.StreamAt(p.toks, p.idx + 2).kind)]))
  {
    var p1 := p.NextToken();
    assert p.ExpectPeek(IDENT) == (true, p1);
    assert p1.Peek() == Lexer.StreamAt(p.toks, p.idx + 2);
  }

  /** `let x =` completes exactly when a `;` follows somewhere after the
      `=`; the value is parsed from the `=` itself, which starts no
      expression, so it is always nil. */
  lemma LetCompletes(p: Parser)
    requires p.PeekTokenIs(IDENT) && Lexer.StreamAt(p.toks, p.idx + 2).kind == ASSIGN
    ensures ParseLetStatement(p).Done? <==> exists j :: p.idx + 2 <= j < |p.toks| && p.toks[j].kind == SEMICOLON
  {
    var p1 := p.NextToken();
    assert p.ExpectPeek(IDENT) == (true, p1);
    var p2 := p1.NextToken();
    assert p1.ExpectPeek(ASSIGN) == (true, p2) by {
      assert p1.Peek() == Lexer.StreamAt(p.toks, p.idx + 2);
    }
    AssignStartsNothing(p2);
    assert p2.idx == p.idx + 2 && p2.toks == p.toks;
    assert ParseLetStatement(p).Done? == SkipToSemicolon(p2).Some? by {
      assert ParseLetStatement(p) == match SkipToSemicolon(p2)
        case None => Hang
        case Some(p4) => Done(Some(Let(p.Cur(), Identifier(p1.Cur(), p1.Cur().literal), NilExpr)), p4);
    }
  }

  /** A well-formed `let x =` that completes yields the statement binding
      `x` to the nil value. */
  lemma LetYieldsStatement(p: Parser)
    requires p.PeekTokenIs(IDENT) && Lexer.StreamAt(p.toks, p.idx + 2).kind == ASSIGN
    ensures ParseLetStatement(p).Done? ==>
              ParseLetStatement(p).node == Some(Let(p.Cur(), Identifier(p.Peek(), p.Peek().literal), NilExpr))
  {
  }

  /** `return ...;`: everything after `return` up to the next `;` is
      skipped and the value stays nil. */
  function ParseReturnStatement(p: Parser): (r: Parsed<Option<Stmt>>)
    ensures Moved(p, r)
    ensures r.Done? <==> exists j :: p.idx + 1 <= j < |p.toks| && p.toks[j].kind == SEMICOLON
    ensures r.Done? ==>
              r.node == Some(Return(p.Cur(), NilExpr)) &&
              r.rest.CurTokenIs(SEMICOLON) && r.rest.errors == p.errors
    ensures NoSkipping(p.toks) && p.CurTokenIs(RETURN) ==> r.Done?
  {
    match SkipToSemicolon(p.NextToken())
    case None => Hang
    case Some(q) => Done(Some(Return(p.Cur(), NilExpr)), q)
  }

  /** `{ ... }`: statements up to the closing `}` or `EOF`; the block keeps
      the token it started at. */
  function ParseBlockStatement(p: Parser): (r: Parsed<Block>)
    ensures Moved(p, r)
    ensures NoSkipping(p.toks) ==> r.Done?
    ensures r.Done? ==> r.node.tok == p.Cur()
    ensures r.Done? ==> r.rest.CurTokenIs(RBRACE) || r.rest.CurTokenIs(EOF)
    ensures r.Done? ==> p.idx < r.rest.idx
    decreases p.Rem(), 10
  {
    match BlockLoop(p.NextToken(), [])
    case Hang => Hang
    case Done(stmts, q) => Done(Block(p.Cur(), stmts), q)
  }

  function BlockLoop(p: Parser, acc: seq<Stmt>): (r: Parsed<seq<Stmt>>)
    ensures Moved(p, r)
    ensures NoSkipping(p.toks) ==> r.Done?
    ensures r.Done? ==> (r.rest.CurTokenIs(RBRACE) || r.rest.CurTokenIs(EOF)) && acc <= r.node
    ensures p.CurTokenIs(RBRACE) || p.CurTokenIs(EOF) ==> r == Done(acc, p)
    decreases p.Rem(), 9
  {
    if p.CurTokenIs(RBRACE) || p.CurTokenIs(EOF) then Done(acc, p)
    else
      match ParseStatement(p)
      case Hang => Hang
      case Done(s, q) =>
        var acc' := match s case Some(st) => acc + [st] case None => acc;
        BlockLoop(q.NextToken(), acc')
  }

  // Expressions

  /** The Pratt loop: the current token's prefix handler builds the left
      operand, then infix handlers extend it while the peek token binds
      tighter than `precedence`. No prefix handler means nil, with no error. */
  function ParseExpression(p: Parser, precedence: int): (r: Parsed<Expr>)
    ensures Moved(p, r)
    ensures NoSkipping(p.toks) ==> r.Done?
    ensures p.Cur().kind !in PrefixFns ==> r == Done(NilExpr, p)
    ensures r.Done? && p.Cur().kind in PrefixFns ==>
              r.rest.PeekTokenIs(SEMICOLON) || precedence >= FindPrecedence(r.rest.Peek().kind) ||
              r.rest.Peek().kind !in InfixFns
    decreases p.Rem(), 6
  {
    if p.Cur().kind !in PrefixFns then Done(NilExpr, p)
    else
      match ApplyPrefix(PrefixFns[p.Cur().kind], p)
      case Hang => Hang
      case Done(left, q) => InfixLoop(q, left, precedence)
  }

  function ApplyPrefix(fn: PrefixFn, p: Parser): (r: Parsed<Expr>)
    requires p.Cur().kind in PrefixFns && PrefixFns[p.Cur().kind] == fn
    ensures Moved(p, r)
    ensures r.Done? && fn != ParenFn ==> !r.node.NilExpr?
    ensures NoSkipping(p.toks) ==> r.Done?
    decreases p.Rem(), 5
  {
    match fn
    case IfFn => ParseIfExpression(p)
    case IdentifierFn => ParseIdentifier(p)
    case IntegerFn => ParseInteger(p)
    case PrefixExprFn => ParsePrefixExpression(p)
    case ParenFn => ParseParen(p)
    case BooleanFn => ParseBoolean(p)
  }

  /** Extends `left` while the peek token is not `;`, binds tighter than
      `precedence` and has an infix handler; it stops exactly when one of
      those fails. */
  function InfixLoop(p: Parser, left: Expr, precedence: int): (r: Parsed<Expr>)
    ensures Moved(p, r)
    ensures r.Done? && !left.NilExpr? ==> !r.node.NilExpr?
    ensures NoSkipping(p.toks) ==> r.Done?
    ensures p.PeekTokenIs(SEMICOLON) || precedence >= FindPrecedence(p.Peek().kind) || p.Peek().kind !in InfixFns
            ==> r == Done(left, p)
    ensures r.Done? ==>
              r.rest.PeekTokenIs(SEMICOLON) || precedence >= FindPrecedence(r.rest.Peek().kind) ||
              r.rest.Peek().kind !in InfixFns
    decreases p.Rem(), 3
  {
    if p.PeekTokenIs(SEMICOLON) || precedence >= FindPrecedence(p.Peek().kind) then Done(left, p)
    else if p.Peek().kind !in InfixFns then Done(left, p)
    else
      var fn := InfixFns[p.Peek().kind];
      var q := p.NextToken();
      match ApplyInfix(fn, q, left)
      case Hang => Hang
      case Done(left', q') => InfixLoop(q', left', precedence)
  }

  function ApplyInfix(fn: InfixFn, p: Parser, left: Expr): (r: Parsed<Expr>)
    requires p.Cur().kind in InfixFns && InfixFns[p.Cur().kind] == fn
    ensures Moved(p, r)
    ensures NoSkipping(p.toks) ==> r.Done?
    decreases p.Rem(), 2
  {
    match fn
    case InfixExprFn => ParseInfixExpression(p, left)
    case SuffixExprFn => ParseSuffixExpression(p, left)
  }

  /** `!x` or `-x`: the operand is parsed at the precedence of the token
      after the operator, not at `PREFIX`. */
  function ParsePrefixExpression(p: Parser): (r: Parsed<Expr>)
    requires p.CurTokenIs(BANG) || p.CurTokenIs(MINUS)
    ensures Moved(p, r)
    ensures NoSkipping(p.toks) ==> r.Done?
    ensures r.Done? ==> r.node.Prefix? && r.node.tok == p.Cur() && p.idx < r.rest.idx
    decreases p.Rem(), 4
  {
    var q := p.NextToken();
    match ParseExpression(q, FindPrecedence(q.Cur().kind))
    case Hang => Hang
    case Done(right, q') => Done(Prefix(p.Cur(), right), q')
  }

  /** A binary operator: the right operand is parsed at the operator's own
      precedence, which makes equal-precedence chains associate left. */
  function ParseInfixExpression(p: Parser, left: Expr): (r: Parsed<Expr>)
    requires p.Cur().kind in InfixFns
    ensures Moved(p, r)
    ensures NoSkipping(p.toks) ==> r.Done?
    ensures r.Done? ==> r.node.Infix? && r.node.tok == p.Cur() && r.node.left == left && p.idx < r.rest.idx
    decreases p.Rem(), 1
  {
    var q := p.NextToken();
    match ParseExpression(q, FindPrecedence(p.Cur().kind))
    case Hang => Hang
    case Done(right, q') => Done(Infix(p.Cur(), left, right), q')
  }

  /** A suffix operator wraps `left` and consumes nothing more; its place
      in an operator chain is given by `ParserFacts.SuffixBindsTighter`. */
  function ParseSuffixExpression(p: Parser, left: Expr): (r: Parsed<Expr>)
    ensures r == Done(Suffix(p.Cur(), left), p)
  {
    Done(Suffix(p.Cur(), left), p)
  }

  function ParseIdentifier(p: Parser): (r: Parsed<Expr>)
    ensures r.Done? && r.rest == p
    ensures r.node == Ident(Identifier(p.Cur(), p.Cur().literal))
  {
    Done(Ident(Identifier(p.Cur(), p.Cur().literal)), p)
  }

  /** An identifier is named by its token's spelling and prints back as
      exactly that spelling. */
  lemma IdentifierPrints(p: Parser)
    ensures var e := ParseIdentifier(p).node;
            Printable(e) && ExprString(e) == p.Cur().literal && e.id.value == ExprString(e)
  {
  }

  /** `( expr )`: a missing `)` records one error and yields nil. */
  function ParseParen(p: Parser): (r: Parsed<Expr>)
    requires p.CurTokenIs(LPAREN)
    ensures Moved(p, r)
    ensures NoSkipping(p.toks) ==> r.Done?
    ensures r.Done? ==> p.idx < r.rest.idx
    decreases p.Rem(), 4
  {
    var q := p.NextToken();
    match ParseExpression(q, LOWEST)
    case Hang => Hang
    case Done(e, q') =>
      var (ok, q'') := q'.ExpectPeek(RPAREN);
      Done(if ok then e else NilExpr, q'')
  }

  /** A group ends on its `)`, or else yields nil with the failed
      expectation of `)` as the latest error. */
  lemma ParenCloses(p: Parser)
    requires p.CurTokenIs(LPAREN) && ParseParen(p).Done?
    ensures var r := ParseParen(p);
            r.rest.CurTokenIs(RPAREN) ||
            (r.node == NilExpr && |r.rest.errors| > 0 &&
             r.rest.errors[|r.rest.errors| - 1] == PeekErrorMessage(RPAREN, r.rest.Peek().kind))
  {
    var inner := ParseExpression(p.NextToken(), LOWEST);
    var (ok, q) := inner.rest.ExpectPeek(RPAREN);
    assert ParseParen(p) == Done(if ok then inner.node else NilExpr, q);
    ExpectClose(inner.rest);
  }

  lemma ExpectClose(p: Parser)
    ensures var (ok, q) := p.ExpectPeek(RPAREN);
            q.CurTokenIs(RPAREN) ||
            (!ok && |q.errors| > 0 && q.errors[|q.errors| - 1] == PeekErrorMessage(RPAREN, q.Peek().kind))
  {
    var (ok, q) := p.ExpectPeek(RPAREN);
    if !ok {
      assert q.Peek() == p.Peek();
    }
  }

  /** An integer literal holds the value its digits spell; a literal that
      does not fit in 64 bits records one error. */
  function ParseInteger(p: Parser): (r: Parsed<Expr>)
    ensures r.Done? && r.node.IntegerLiteral? && r.node.tok == p.Cur()
    ensures r.rest.toks == p.toks && r.rest.idx == p.idx
    ensures var lit := p.Cur().literal;
            |lit| > 0 && AllDigits(lit) && DecimalValue(lit) <= MAX_INT64 ==>
              r.node.intValue == DecimalValue(lit) && r.rest.errors == p.errors
    ensures var lit := p.Cur().literal;
            !(|lit| > 0 && AllDigits(lit) && DecimalValue(lit) <= MAX_INT64) ==>
              r.rest.errors == p.errors + [PeekErrorMessage(p.Cur().kind, p.Peek().kind)]
  {
    var (value, ok) := ParseInt(p.Cur().literal);
    Done(IntegerLiteral(p.Cur(), value), if ok then p else p.AddPeekError(p.Cur().kind))
  }

  /** A boolean literal is true exactly when the current token is `TRUE`. */
  function ParseBoolean(p: Parser): (r: Parsed<Expr>)
    ensures r.Done? && r.rest == p
    ensures r.node == BooleanLiteral(p.Cur(), p.CurTokenIs(TRUE))
  {
    Done(BooleanLiteral(p.Cur(), p.CurTokenIs(TRUE)), p)
  }

  /** For a token the lexer classified by the keyword table, a boolean
      literal is true exactly when it is spelled `true`; it prints back as
      its spelling. */
  lemma BooleanSpelling(p: Parser)
    ensures var e := ParseBoolean(p).node;
            p.Cur().kind == LookupIdent(p.Cur().literal) ==> (e.boolValue <==> p.Cur().literal == "true")
    ensures Printable(ParseBoolean(p).node) && ExprString(ParseBoolean(p).node) == p.Cur().literal
  {
  }

  /** `if (cond) { ... } else { ... }`. Failed expectations are recorded but
      do not stop the parse. */
  function ParseIfExpression(p: Parser): (r: Parsed<Expr>)
    requires p.CurTokenIs(IF)
    ensures Moved(p, r)
    ensures NoSkipping(p.toks) ==> r.Done?
    ensures r.Done? ==> r.node.If? && r.node.tok == p.Cur() && p.idx < r.rest.idx
    decreases p.Rem(), 4
  {
    var p1 := p.ExpectPeek(LPAREN).1;
    var p2 := p1.NextToken();
    assert p.idx < |p.toks|;
    assert Follows(p, p2) && p.idx < p2.idx && p2.Rem() < p.Rem();
    match ParseExpression(p2, LOWEST)
    case Hang => Hang
    case Done(cond, p3) =>
      assert Follows(p, p3) && p.idx < p3.idx;
      ParseIfBody(p.Cur(), cond, p3)
  }

  /** The `)` after the condition, then the consequence block and the
      optional `else` block of an `if`. */
  function ParseIfBody(tok: Token, cond: Expr, p: Parser): (r: Parsed<Expr>)
    ensures Moved(p, r)
    ensures NoSkipping(p.toks) ==> r.Done?
    ensures r.Done? ==> r.node.If? && r.node.tok == tok && r.node.condition == cond && p.idx < r.rest.idx
    decreases p.Rem(), 12
  {
    var q0 := p.ExpectPeek(RPAREN).1.ExpectPeek(LBRACE).1;
    assert Follows(p, q0);
    match ParseBlockStatement(q0)
    case Hang => Hang
    case Done(cons, q) =>
      match ParseElse(q)
      case Hang => Hang
      case Done(alt, q') => Done(If(tok, cond, cons, alt), q')
  }

  /** An `else` block when the peek token is `else`, and nothing otherwise. */
  function ParseElse(p: Parser): (r: Parsed<Option<Block>>)
    ensures Moved(p, r)
    ensures NoSkipping(p.toks) ==> r.Done?
    ensures !p.PeekTokenIs(ELSE) ==> r == Done(None, p)
    ensures r.Done? && p.PeekTokenIs(ELSE) ==> r.node.Some?
    decreases p.Rem(), 11
  {
    if !p.PeekTokenIs(ELSE) then Done(None, p)
    else
      var (_, q) := p.NextToken().ExpectPeek(LBRACE);
      match ParseBlockStatement(q)
      case Hang => Hang
      case Done(alt, q') => Done(Some(alt), q')
  }
}

=== FILE: parser_facts.dfy ===
/** Properties of the parser that span several parse functions: the parser
    reads exactly the lexer's token stream, and the Pratt loop groups chains
    of binary operators by precedence. The chain lemmas are stated for any
    tokens of the right kinds, at any position of any stream. */
module ParserFacts {
  import opened Options
  import opened Token
  import Lexer
  import opened Precedence
  import opened Ast
  import opened GoInt
  import opened Parser

  /** The parser over `input` sees at index `n` the token the lexer returns
      on its `n`-th call; so construction primes the current token with the
      first token and the peek token with the second. */
  lemma StreamIsLexer(input: string, n: nat)
    ensures New(input).(idx := n).Cur() == Lexer.NthToken(Lexer.New(input), n)
    ensures New(input).Cur() == Lexer.NthToken(Lexer.New(input), 0)
    ensures New(input).Peek() == Lexer.NthToken(Lexer.New(input), 1)
  {
    Lexer.TokenizeIsStream(Lexer.New(input), n);
    Lexer.TokenizeIsStream(Lexer.New(input), 0);
    Lexer.TokenizeIsStream(Lexer.New(input), 1);
  }

  /** The token `k` places after the current one. */
  function At(p: Parser, k: nat): Token
  {
    Lexer.StreamAt(p.toks, p.idx + k)
  }

  function Skip(p: Parser, k: nat): Parser
  {
    p.(idx := p.idx + k)
  }

  /** An operator whose infix handler parses a right operand. */
  predicate BinaryOp(k: Kind)
  {
    k in InfixFns && InfixFns[k] == InfixExprFn
  }

  /** An integer token whose digits fit in 64 bits. */
  predicate SmallInt(t: Token)
  {
    t.kind == INT && ParseInt(t.literal).1
  }

  function Leaf(t: Token): Expr
  {
    IntegerLiteral(t, ParseInt(t.literal).0)
  }

  /** The token at offset `k` ends an infix loop running at `precedence`. */
  predicate StopsAt(p: Parser, k: nat, precedence: int)
  {
    At(p, k).kind == SEMICOLON || precedence >= FindPrecedence(At(p, k).kind) || At(p, k).kind !in InfixFns
  }

  /** Every binary operator binds tighter than `LOWEST`. */
  lemma BinaryOpAboveLowest(k: Kind)
    requires BinaryOp(k)
    ensures FindPrecedence(k) > LOWEST
  {
  }

  /** An integer starts the infix loop with its literal as left operand. */
  lemma LeafStartsLoop(p: Parser, precedence: int)
    requires SmallInt(p.Cur())
    ensures ParseExpression(p, precedence) == InfixLoop(p, Leaf(p.Cur()), precedence)
  {
    assert ParseInteger(p) == Done(Leaf(p.Cur()), p);
  }

  lemma LoopStops(p: Parser, left: Expr, precedence: int)
    requires StopsAt(p, 1, precedence)
    ensures InfixLoop(p, left, precedence) == Done(left, p)
  {
    assert At(p, 1) == p.Peek();
  }

  /** A well-formed integer followed by a token that ends the loop parses
      to its literal and consumes nothing more. */
  lemma LeafExpression(p: Parser, precedence: int)
    requires SmallInt(p.Cur()) && StopsAt(p, 1, precedence)
    ensures ParseExpression(p, precedence) == Done(Leaf(p.Cur()), p)
  {
    LeafStartsLoop(p, precedence);
    LoopStops(p, Leaf(p.Cur()), precedence);
  }

  /** The right operand of `op int` is the integer alone when the token
      after it binds no tighter than `op`. */
  lemma InfixOverLeaf(p: Parser, left: Expr)
    requires BinaryOp(p.Cur().kind)
    requires SmallInt(At(p, 1)) && StopsAt(p, 2, FindPrecedence(p.Cur().kind))
    ensures ParseInfixExpression(p, left) == Done(Infix(p.Cur(), left, Leaf(At(p, 1))), Skip(p, 1))
  {
    var q := p.NextToken();
    assert q == Skip(p, 1) && q.Cur() == At(p, 1) && At(q, 1) == At(p, 2);
    LeafExpression(q, FindPrecedence(p.Cur().kind));
  }

  /** One turn of the infix loop when the peek token binds tighter than the
      loop's precedence. */
  lemma LoopTurn(p: Parser, left: Expr, precedence: int)
    requires BinaryOp(p.Peek().kind) && precedence < FindPrecedence(p.Peek().kind)
    ensures InfixLoop(p, left, precedence)
            == match ParseInfixExpression(p.NextToken(), left)
               case Hang => Hang
               case Done(left', q) => InfixLoop(q, left', precedence)
  {
    var q := p.NextToken();
    assert q.Cur() == p.Peek() && !p.PeekTokenIs(SEMICOLON);
    assert ApplyInfix(InfixExprFn, q, left) == ParseInfixExpression(q, left);
  }

  /** One turn of the infix loop over `op int`: `left` becomes the left
      operand of `op`, when the token after the integer binds no tighter
      than `op`. */
  lemma InfixStep(p: Parser, left: Expr, precedence: int)
    requires BinaryOp(At(p, 1).kind) && precedence < FindPrecedence(At(p, 1).kind)
    requires SmallInt(At(p, 2)) && StopsAt(p, 3, FindPrecedence(At(p, 1).kind))
    ensures InfixLoop(p, left, precedence)
            == InfixLoop(Skip(p, 2), Infix(At(p, 1), left, Leaf(At(p, 2))), precedence)
  {
    LoopTurn(p, left, precedence);
    InfixOverLeaf(Skip(p, 1), left);
  }

  /** `a op1 b op2 c` where `op1` binds at least as tightly as `op2` groups
      to the left: `((a op1 b) op2 c)`, so equal precedence associates left. */
  lemma LeftAssociates(p: Parser)
    requires SmallInt(At(p, 0)) && SmallInt(At(p, 2)) && SmallInt(At(p, 4))
    requires BinaryOp(At(p, 1).kind) && BinaryOp(At(p, 3).kind)
    requires At(p, 5).kind !in InfixFns
    requires FindPrecedence(At(p, 1).kind) >= FindPrecedence(At(p, 3).kind)
    ensures ParseExpression(p, LOWEST)
            == Done(Infix(At(p, 3), Infix(At(p, 1), Leaf(At(p, 0)), Leaf(At(p, 2))), Leaf(At(p, 4))), Skip(p, 4))
  {
    var a := Leaf(At(p, 0));
    var ab := Infix(At(p, 1), a, Leaf(At(p, 2)));
    var abc := Infix(At(p, 3), ab, Leaf(At(p, 4)));
    BinaryOpAboveLowest(At(p, 1).kind);
    BinaryOpAboveLowest(At(p, 3).kind);
    LeafStartsLoop(p, LOWEST);
    InfixStep(p, a, LOWEST);
    InfixStep(Skip(p, 2), ab, LOWEST);
    LoopStops(Skip(p, 4), abc, LOWEST);
  }

  /** `a op1 b op2 c` where `op2` binds tighter nests to the right:
      `(a op1 (b op2 c))`. With `LeftAssociates` this decides every
      three-operand chain. */
  lemma TighterNestsRight(p: Parser)
    requires SmallInt(At(p, 0)) && SmallInt(At(p, 2)) && SmallInt(At(p, 4))
    requires BinaryOp(At(p, 1).kind) && BinaryOp(At(p, 3).kind)
    requires At(p, 5).kind !in InfixFns
    requires FindPrecedence(At(p, 1).kind) < FindPrecedence(At(p, 3).kind)
    ensures ParseExpression(p, LOWEST)
            == Done(Infix(At(p, 1), Leaf(At(p, 0)), Infix(At(p, 3), Leaf(At(p, 2)), Leaf(At(p, 4)))), Skip(p, 4))
  {
    var a := Leaf(At(p, 0));
    var b := Leaf(At(p, 2));
    var bc := Infix(At(p, 3), b, Leaf(At(p, 4)));
    var prec1 := FindPrecedence(At(p, 1).kind);
    BinaryOpAboveLowest(At(p, 1).kind);
    assert At(p, 0) == p.Cur() && At(p, 1) == p.Peek();
    LeafStartsLoop(p, LOWEST);
    LoopTurn(p, a, LOWEST);
    var q := Skip(p, 2);
    assert At(q, 0) == At(p, 2) && At(q, 1) == At(p, 3) && At(q, 2) == At(p, 4) && At(q, 3) == At(p, 5);
    LeafStartsLoop(q, prec1);
    InfixStep(q, b, prec1);
    var r := Skip(q, 2);
    assert r == Skip(p, 4) && At(r, 1) == At(p, 5);
    LoopStops(r, bc, prec1);
    assert ParseExpression(q, prec1) == Done(bc, r);
    var p1 := p.NextToken();
    assert p1.NextToken() == q && p1.Cur() == At(p, 1);
    assert ParseInfixExpression(p1, a) == Done(Infix(At(p, 1), a, bc), r);
    LoopStops(r, Infix(At(p, 1), a, bc), LOWEST);
  }

  /** `a op1 b op3 c op5 d op7 e` where `op3` binds tighter than `op1`,
      `op5` no tighter than `op1`, and `op7` tighter than `op5`: each tighter
      operator nests inside the looser one before it, and the two looser
      ones group to the left: `((a op1 (b op3 c)) op5 (d op7 e))`. */
  lemma TighterPairsNest(p: Parser)
    requires SmallInt(At(p, 0)) && SmallInt(At(p, 2)) && SmallInt(At(p, 4)) && SmallInt(At(p, 6)) && SmallInt(At(p, 8))
    requires BinaryOp(At(p, 1).kind) && BinaryOp(At(p, 3).kind) && BinaryOp(At(p, 5).kind) && BinaryOp(At(p, 7).kind)
    requires FindPrecedence(At(p, 1).kind) < FindPrecedence(At(p, 3).kind)
    requires FindPrecedence(At(p, 5).kind) <= FindPrecedence(At(p, 1).kind)
    requires FindPrecedence(At(p, 5).kind) < FindPrecedence(At(p, 7).kind)
    requires At(p, 9).kind !in InfixFns
    ensures ParseExpression(p, LOWEST)
            == Done(Infix(At(p, 5),
                          Infix(At(p, 1), Leaf(At(p, 0)), Infix(At(p, 3), Leaf(At(p, 2)), Leaf(At(p, 4)))),
                          Infix(At(p, 7), Leaf(At(p, 6)), Leaf(At(p, 8)))),
                    Skip(p, 8))
  {
    var left := Infix(At(p, 1), Leaf(At(p, 0)), Infix(At(p, 3), Leaf(At(p, 2)), Leaf(At(p, 4))));
    FirstPairNests(p);
    SecondPairNests(p, left);
  }

  /** The first half: the loop builds `a op1 (b op3 c)` and stands before `op5`. */
  lemma FirstPairNests(p: Parser)
    requires SmallInt(At(p, 0)) && SmallInt(At(p, 2)) && SmallInt(At(p, 4))
    requires BinaryOp(At(p, 1).kind) && BinaryOp(At(p, 3).kind)
    requires FindPrecedence(At(p, 1).kind) < FindPrecedence(At(p, 3).kind)
    requires StopsAt(p, 5, FindPrecedence(At(p, 1).kind))
    ensures ParseExpression(p, LOWEST)
            == InfixLoop(Skip(p, 4), Infix(At(p, 1), Leaf(At(p, 0)), Infix(At(p, 3), Leaf(At(p, 2)), Leaf(At(p, 4)))), LOWEST)
  {
    var q := Skip(p, 2);
    BinaryOpAboveLowest(At(p, 1).kind);
    assert At(p, 0) == p.Cur();
    LeafStartsLoop(p, LOWEST);
    assert At(q, 0) == At(p, 2) && At(q, 1) == At(p, 3) && At(q, 2) == At(p, 4) && At(q, 3) == At(p, 5);
    BinaryAt(q, FindPrecedence(At(p, 1).kind));
    OperandTurn(p, Leaf(At(p, 0)), LOWEST, Infix(At(p, 3), Leaf(At(p, 2)), Leaf(At(p, 4))), Skip(p, 4));
  }

  /** The second half: from before `op5`, `d op7 e` becomes its right operand
      and the loop ends after `e`. */
  lemma SecondPairNests(p: Parser, left: Expr)
    requires SmallInt(At(p, 6)) && SmallInt(At(p, 8))
    requires BinaryOp(At(p, 5).kind) && BinaryOp(At(p, 7).kind)
    requires FindPrecedence(At(p, 5).kind) < FindPrecedence(At(p, 7).kind)
    requires At(p, 9).kind !in InfixFns
    ensures InfixLoop(Skip(p, 4), left, LOWEST)
            == Done(Infix(At(p, 5), left, Infix(At(p, 7), Leaf(At(p, 6)), Leaf(At(p, 8)))), Skip(p, 8))
  {
    var r := Skip(p, 4);
    var q := Skip(p, 6);
    BinaryOpAboveLowest(At(p, 5).kind);
    assert At(r, 1) == At(p, 5);
    assert At(q, 0) == At(p, 6) && At(q, 1) == At(p, 7) && At(q, 2) == At(p, 8) && At(q, 3) == At(p, 9);
    BinaryAt(q, FindPrecedence(At(p, 5).kind));
    assert Skip(r, 2) == q;
    OperandTurn(r, left, LOWEST, Infix(At(p, 7), Leaf(At(p, 6)), Leaf(At(p, 8))), Skip(p, 8));
    assert At(Skip(p, 8), 1) == At(p, 9);
    LoopStops(Skip(p, 8), Infix(At(p, 5), left, Infix(At(p, 7), Leaf(At(p, 6)), Leaf(At(p, 8)))), LOWEST);
  }

  /** A prefix operator starts the infix loop with the prefix node. */
  lemma PrefixStartsLoop(p: Parser, right: Expr, q: Parser, precedence: int)
    requires p.CurTokenIs(MINUS) || p.CurTokenIs(BANG)
    requires ParseExpression(p.NextToken(), FindPrecedence(p.Peek().kind)) == Done(right, q)
    ensures ParseExpression(p, precedence) == InfixLoop(q, Prefix(p.Cur(), right), precedence)
  {
    assert PrefixFns[p.Cur().kind] == PrefixExprFn;
    PrefixParsed(p, right, q);
    PrefixLoop(p, PrefixExprFn, precedence);
  }

  /** The prefix handler of the current token, then the infix loop. */
  lemma PrefixLoop(p: Parser, fn: PrefixFn, precedence: int)
    requires p.Cur().kind in PrefixFns && PrefixFns[p.Cur().kind] == fn
    ensures ParseExpression(p, precedence)
            == match ApplyPrefix(fn, p)
               case Hang => Hang
               case Done(left, q) => InfixLoop(q, left, precedence)
  {
  }

  lemma PrefixParsed(p: Parser, right: Expr, q: Parser)
    requires p.CurTokenIs(MINUS) || p.CurTokenIs(BANG)
    requires p.Cur().kind in PrefixFns && PrefixFns[p.Cur().kind] == PrefixExprFn
    requires ParseExpression(p.NextToken(), FindPrecedence(p.Peek().kind)) == Done(right, q)
    ensures ApplyPrefix(PrefixExprFn, p) == Done(Prefix(p.Cur(), right), q)
  {
  }

  /** A parenthesis starts the infix loop with the enclosed expression, or
      with nil and one more error when the `)` is missing. */
  lemma ParenStartsLoop(p: Parser, e: Expr, q: Parser, precedence: int)
    requires p.CurTokenIs(LPAREN)
    requires ParseExpression(p.NextToken(), LOWEST) == Done(e, q)
    ensures ParseExpression(p, precedence)
            == InfixLoop(q.ExpectPeek(RPAREN).1, if q.PeekTokenIs(RPAREN) then e else NilExpr, precedence)
  {
    assert PrefixFns[LPAREN] == ParenFn;
    ParenParsed(p, e, q);
    PrefixLoop(p, ParenFn, precedence);
  }

  lemma ParenParsed(p: Parser, e: Expr, q: Parser)
    requires p.CurTokenIs(LPAREN)
    requires p.Cur().kind in PrefixFns && PrefixFns[p.Cur().kind] == ParenFn
    requires ParseExpression(p.NextToken(), LOWEST) == Done(e, q)
    ensures ApplyPrefix(ParenFn, p) == Done(if q.PeekTokenIs(RPAREN) then e else NilExpr, q.ExpectPeek(RPAREN).1)
  {
  }

  /** The operand of a prefix operator before `a op b`: parsed at the
      precedence of the integer `a`, which is `LOWEST`, it spans `a op b`. */
  lemma PrefixOperand(p: Parser)
    requires SmallInt(At(p, 1)) && BinaryOp(At(p, 2).kind) && SmallInt(At(p, 3))
    requires At(p, 4).kind !in InfixFns
    ensures ParseExpression(p.NextToken(), FindPrecedence(p.Peek().kind))
            == Done(Infix(At(p, 2), Leaf(At(p, 1)), Leaf(At(p, 3))), Skip(p, 3))
  {
    assert FindPrecedence(INT) == LOWEST;
    SingleBinary(Skip(p, 1));
  }

  /** A prefix operator takes as operand everything the next token starts
      at that token's own precedence, which for an integer is `LOWEST`: so
      `-a op b` parses as `(-(a op b))`. */
  lemma PrefixOperandSpansInfix(p: Parser)
    requires p.CurTokenIs(MINUS) || p.CurTokenIs(BANG)
    requires SmallInt(At(p, 1)) && BinaryOp(At(p, 2).kind) && SmallInt(At(p, 3))
    requires At(p, 4).kind !in InfixFns
    ensures ParseExpression(p, LOWEST)
            == Done(Prefix(p.Cur(), Infix(At(p, 2), Leaf(At(p, 1)), Leaf(At(p, 3)))), Skip(p, 3))
  {
    var body := Infix(At(p, 2), Leaf(At(p, 1)), Leaf(At(p, 3)));
    var r := Skip(p, 3);
    PrefixOperand(p);
    PrefixStartsLoop(p, body, r, LOWEST);
    assert StopsAt(r, 1, LOWEST) by {
      assert At(r, 1) == At(p, 4);
    }
    LoopStops(r, Prefix(p.Cur(), body), LOWEST);
  }

  /** `a op b` followed by a token that ends the loop: one binary node. */
  lemma SingleBinary(p: Parser)
    requires SmallInt(At(p, 0)) && BinaryOp(At(p, 1).kind) && SmallInt(At(p, 2))
    requires StopsAt(p, 3, LOWEST)
    ensures ParseExpression(p, LOWEST) == Done(Infix(At(p, 1), Leaf(At(p, 0)), Leaf(At(p, 2))), Skip(p, 2))
  {
    BinaryOpAboveLowest(At(p, 1).kind);
    BinaryAt(p, LOWEST);
  }

  /** `a op b`, parsed at a precedence below `op`'s and followed by a token
      that ends the loop at that precedence: one binary node. */
  lemma BinaryAt(p: Parser, precedence: int)
    requires SmallInt(At(p, 0)) && BinaryOp(At(p, 1).kind) && SmallInt(At(p, 2))
    requires precedence < FindPrecedence(At(p, 1).kind) && StopsAt(p, 3, precedence)
    ensures ParseExpression(p, precedence) == Done(Infix(At(p, 1), Leaf(At(p, 0)), Leaf(At(p, 2))), Skip(p, 2))
  {
    var a := Leaf(At(p, 0));
    assert At(p, 0) == p.Cur();
    LeafStartsLoop(p, precedence);
    InfixStep(p, a, precedence);
    var r := Skip(p, 2);
    assert At(r, 1) == At(p, 3);
    LoopStops(r, Infix(At(p, 1), a, Leaf(At(p, 2))), precedence);
  }

  /** One turn of the infix loop over `op right`: whatever the right operand
      parses to at `op`'s precedence becomes the right child of `op`, with
      `left` as its left child. */
  lemma OperandTurn(p: Parser, left: Expr, precedence: int, right: Expr, q: Parser)
    requires BinaryOp(At(p, 1).kind) && precedence < FindPrecedence(At(p, 1).kind)
    requires ParseExpression(Skip(p, 2), FindPrecedence(At(p, 1).kind)) == Done(right, q)
    ensures InfixLoop(p, left, precedence) == InfixLoop(q, Infix(At(p, 1), left, right), precedence)
  {
    LoopTurn(p, left, precedence);
    assert p.NextToken().NextToken() == Skip(p, 2);
  }

  /** A parenthesised binary expression `(a op b)` starts the infix loop,
      after the `)`, with the grouped node. */
  lemma ParenGroupStartsLoop(p: Parser, precedence: int)
    requires p.CurTokenIs(LPAREN)
    requires SmallInt(At(p, 1)) && BinaryOp(At(p, 2).kind) && SmallInt(At(p, 3))
    requires At(p, 4).kind == RPAREN
    ensures ParseExpression(p, precedence)
            == InfixLoop(Skip(p, 4), Infix(At(p, 2), Leaf(At(p, 1)), Leaf(At(p, 3))), precedence)
  {
    var inner := Infix(At(p, 2), Leaf(At(p, 1)), Leaf(At(p, 3)));
    SingleBinary(Skip(p, 1));
    ParenStartsLoop(p, inner, Skip(p, 3), precedence);
  }

  /** `(a op1 b) op2 c` groups as written whatever the two precedences. */
  lemma ParensRegroup(p: Parser)
    requires p.CurTokenIs(LPAREN)
    requires SmallInt(At(p, 1)) && BinaryOp(At(p, 2).kind) && SmallInt(At(p, 3))
    requires At(p, 4).kind == RPAREN
    requires BinaryOp(At(p, 5).kind) && SmallInt(At(p, 6)) && At(p, 7).kind !in InfixFns
    ensures ParseExpression(p, LOWEST)
            == Done(Infix(At(p, 5), Infix(At(p, 2), Leaf(At(p, 1)), Leaf(At(p, 3))), Leaf(At(p, 6))), Skip(p, 6))
  {
    var inner := Infix(At(p, 2), Leaf(At(p, 1)), Leaf(At(p, 3)));
    ParenGroupStartsLoop(p, LOWEST);
    BinaryOpAboveLowest(At(p, 5).kind);
    InfixStep(Skip(p, 4), inner, LOWEST);
    LoopStops(Skip(p, 6), Infix(At(p, 5), inner, Leaf(At(p, 6))), LOWEST);
  }

  /** An empty group, `(` then a token that starts no expression then `)`,
      gives nil with no error at all: the inner parse yields nil and the
      `)` is found. */
  lemma EmptyGroup(p: Parser)
    requires p.CurTokenIs(LPAREN) && At(p, 1).kind !in PrefixFns && At(p, 2).kind == RPAREN
    requires StopsAt(p, 3, LOWEST)
    ensures ParseExpression(p, LOWEST) == Done(NilExpr, Skip(p, 2))
  {
    var q := Skip(p, 1);
    assert q == p.NextToken() && q.Cur() == At(p, 1);
    assert ParseExpression(q, LOWEST) == Done(NilExpr, q);
    assert q.ExpectPeek(RPAREN) == (true, Skip(p, 2)) by {
      assert q.Peek() == At(p, 2);
    }
    ParenStartsLoop(p, NilExpr, q, LOWEST);
    assert At(Skip(p, 2), 1) == At(p, 3);
    LoopStops(Skip(p, 2), NilExpr, LOWEST);
  }

  /** The operand of `( a x`, parsed from `a`, is `a` alone and leaves the
      parser on `a`. */
  lemma LeafAfterParen(p: Parser, q: Parser)
    requires SmallInt(At(p, 1)) && StopsAt(p, 2, LOWEST) && q == Skip(p, 1)
    ensures ParseExpression(q, LOWEST) == Done(Leaf(At(p, 1)), q)
  {
    assert q.Cur() == At(p, 1) && At(q, 1) == At(p, 2);
    LeafExpression(q, LOWEST);
  }

  /** `( a` not followed by `)`: one error naming the token found, and no
      expression. */
  lemma MissingRightParen(p: Parser)
    requires p.CurTokenIs(LPAREN) && SmallInt(At(p, 1))
    requires At(p, 2).kind != RPAREN && StopsAt(p, 2, LOWEST)
    ensures ParseExpression(p, LOWEST)
            == Done(NilExpr, Skip(p, 1).(errors := p.errors + [PeekErrorMessage(RPAREN, At(p, 2).kind)]))
  {
    var q := Skip(p, 1);
    var msg := PeekErrorMessage(RPAREN, At(p, 2).kind);
    var r := q.(errors := p.errors + [msg]);
    assert q == p.NextToken();
    LeafAfterParen(p, q);
    assert q.ExpectPeek(RPAREN).1 == r && !q.PeekTokenIs(RPAREN) by {
      assert q.Peek() == At(p, 2);
    }
    ParenStartsLoop(p, Leaf(At(p, 1)), q, LOWEST);
    assert ParseExpression(p, LOWEST) == InfixLoop(r, NilExpr, LOWEST);
    assert At(r, 1) == At(p, 2);
    LoopStops(r, NilExpr, LOWEST);
  }

  /** A program that is one expression statement ended by `;`: the program
      holds exactly that statement, tagged with its first token, and the
      parser stops on the `EOF` after the `;` with no new errors. */
  lemma SingleExpressionProgram(p: Parser, e: Expr, q: Parser)
    requires p.Cur().kind != LET && p.Cur().kind != RETURN && p.Cur().kind != EOF
    requires ParseExpression(p, LOWEST) == Done(e, q)
    requires At(q, 1).kind == SEMICOLON && At(q, 2).kind == EOF
    ensures ParseProgram(p) == Done(Program([ExpressionStatement(p.Cur(), e)]), Skip(q, 2))
  {
    ExpressionStatementStep(p, e, q);
    OneStatementProgram(p, ExpressionStatement(p.Cur(), e), Skip(q, 1));
  }

  /** A program whose first statement is followed by `EOF` holds that
      statement alone. */
  lemma OneStatementProgram(p: Parser, st: Stmt, r: Parser)
    requires !p.CurTokenIs(EOF) && ParseStatement(p) == Done(Some(st), r)
    requires r.NextToken().CurTokenIs(EOF)
    ensures ParseProgram(p) == Done(Program([st]), r.NextToken())
  {
    ProgramStep(p, [], Some(st), r);
    assert [] + [st] == [st];
  }

  /** A statement that does not start with `let` or `return` is an
      expression statement; it takes the `;` after the expression, if any. */
  lemma ExpressionStatementStep(p: Parser, e: Expr, q: Parser)
    requires p.Cur().kind != LET && p.Cur().kind != RETURN
    requires ParseExpression(p, LOWEST) == Done(e, q)
    ensures ParseStatement(p)
            == Done(Some(ExpressionStatement(p.Cur(), e)), if q.PeekTokenIs(SEMICOLON) then q.NextToken() else q)
  {
    assert ParseStatement(p) == ParseExpressionStatement(p, LOWEST);
  }

  /** One turn of the program loop: a parsed statement is appended, a
      missing one skipped, and parsing resumes after the statement's last
      token. */
  lemma ProgramStep(p: Parser, acc: seq<Stmt>, s: Option<Stmt>, q: Parser)
    requires !p.CurTokenIs(EOF) && ParseStatement(p) == Done(s, q)
    ensures ProgramLoop(p, acc)
            == ProgramLoop(q.NextToken(), match s case Some(st) => acc + [st] case None => acc)
  {
  }

  /** One turn of a block: a parsed statement is appended, a missing one
      skipped, and parsing resumes after the statement's last token, until
      `}` or `EOF` is current. */
  lemma BlockStep(p: Parser, acc: seq<Stmt>, s: Option<Stmt>, q: Parser)
    requires !p.CurTokenIs(RBRACE) && !p.CurTokenIs(EOF) && ParseStatement(p) == Done(s, q)
    ensures BlockLoop(p, acc)
            == BlockLoop(q.NextToken(), match s case Some(st) => acc + [st] case None => acc)
  {
  }

  // Suffix operators

  /** Every binary operator binds looser than the suffix `?`. */
  lemma BinaryOpBelowSuffix(k: Kind)
    requires BinaryOp(k)
    ensures FindPrecedence(k) < FindPrecedence(WHAT)
  {
  }

  /** A token that ends the loop at some precedence ends it at every higher
      one. */
  lemma StopsAbove(p: Parser, k: nat, lo: int, hi: int)
    requires StopsAt(p, k, lo) && lo <= hi
    ensures StopsAt(p, k, hi)
  {
  }

  /** One turn of the infix loop over `?`, at a precedence below the
      suffix's: the tree so far becomes the operand of the suffix node and
      only the `?` is consumed. */
  lemma SuffixTurn(p: Parser, left: Expr, precedence: int)
    requires At(p, 1).kind == WHAT && precedence < FindPrecedence(WHAT)
    ensures InfixLoop(p, left, precedence) == InfixLoop(Skip(p, 1), Suffix(At(p, 1), left), precedence)
  {
    var q := p.NextToken();
    assert q == Skip(p, 1) && q.Cur() == At(p, 1) && p.Peek() == At(p, 1);
    assert InfixFns[WHAT] == SuffixExprFn;
    assert ApplyInfix(SuffixExprFn, q, left) == Done(Suffix(q.Cur(), left), q);
  }

  /** In `a op b ?`, followed by a token that ends the loop, the suffix
      binds tighter than the binary operator: `(a op (b ?))`, and parsing
      stops on the `?`. */
  lemma SuffixBindsTighter(p: Parser)
    requires SmallInt(At(p, 0)) && BinaryOp(At(p, 1).kind) && SmallInt(At(p, 2)) && At(p, 3).kind == WHAT
    requires StopsAt(p, 4, LOWEST)
    ensures ParseExpression(p, LOWEST)
            == Done(Infix(At(p, 1), Leaf(At(p, 0)), Suffix(At(p, 3), Leaf(At(p, 2)))), Skip(p, 3))
  {
    var op := At(p, 1).kind;
    var prec := FindPrecedence(op);
    BinaryOpAboveLowest(op);
    BinaryOpBelowSuffix(op);
    // The right operand `b ?` at the operator's precedence.
    var r2 := Skip(p, 2);
    assert r2.Cur() == At(p, 2) && At(r2, 1) == At(p, 3);
    LeafStartsLoop(r2, prec);
    SuffixTurn(r2, Leaf(At(p, 2)), prec);
    var r3 := Skip(r2, 1);
    assert r3 == Skip(p, 3) && At(r3, 1) == At(p, 4);
    StopsAbove(p, 4, LOWEST, prec);
    LoopStops(r3, Suffix(At(p, 3), Leaf(At(p, 2))), prec);
    var right := Suffix(At(p, 3), Leaf(At(p, 2)));
    assert ParseExpression(Skip(p, 2), prec) == Done(right, Skip(p, 3));
    // The whole chain at LOWEST.
    assert At(p, 0) == p.Cur();
    LeafStartsLoop(p, LOWEST);
    OperandTurn(p, Leaf(At(p, 0)), LOWEST, right, Skip(p, 3));
    LoopStops(Skip(p, 3), Infix(At(p, 1), Leaf(At(p, 0)), right), LOWEST);
  }

  // Whole statement runs

  /** The statements of a run in order, the missing ones dropped. */
  function Present(ss: seq<Option<Stmt>>): (r: seq<Stmt>)
    ensures |r| <= |ss|
    ensures (forall k :: 0 <= k < |ss| ==> ss[k].Some?) ==> |r| == |ss|
  {
    if |ss| == 0 then []
    else (match ss[0] case Some(st) => [st] case None => []) + Present(ss[1..])
  }

  /** `ps` are the states a statement loop passes through and `ss` what it
      parses on the way: from each state one statement is parsed, and the
      next state lies one token past that statement's last token. */
  predicate StatementRun(ps: seq<Parser>, ss: seq<Option<Stmt>>)
  {
    |ps| == |ss| + 1 &&
    forall k :: 0 <= k < |ss| ==>
      ParseStatement(ps[k]).Done? && ParseStatement(ps[k]).node == ss[k] &&
      ps[k + 1] == ParseStatement(ps[k]).rest.NextToken()
  }

  /** A run that is never at `EOF` until its last state is at `EOF` is
      exactly what the program loop does: it collects the run's statements,
      in order and with the missing ones dropped, and stops at the last
      state. */
  lemma {:induction false} ProgramRun(ps: seq<Parser>, ss: seq<Option<Stmt>>, acc: seq<Stmt>)
    requires StatementRun(ps, ss)
    requires forall k :: 0 <= k < |ss| ==> !ps[k].CurTokenIs(EOF)
    requires ps[|ss|].CurTokenIs(EOF)
    ensures ProgramLoop(ps[0], acc) == Done(acc + Present(ss), ps[|ss|])
    decreases |ss|
  {
    if |ss| == 0 {
      assert acc + Present(ss) == acc;
    } else {
      var acc' := match ss[0] case Some(st) => acc + [st] case None => acc;
      ProgramStep(ps[0], acc, ss[0], ParseStatement(ps[0]).rest);
      assert ps[1] == ParseStatement(ps[0]).rest.NextToken();
      RunTail(ps, ss);
      var ps', ss' := ps[1..], ss[1..];
      assert forall k :: 0 <= k < |ss'| ==> ps'[k] == ps[k + 1];
      assert ps'[|ss'|] == ps[|ss|];
      ProgramRun(ps', ss', acc');
      PresentStep(ss, acc);
    }
  }

  /** A program is the statements of the run from its first token to
      `EOF`. */
  lemma ProgramCollects(ps: seq<Parser>, ss: seq<Option<Stmt>>)
    requires StatementRun(ps, ss)
    requires forall k :: 0 <= k < |ss| ==> !ps[k].CurTokenIs(EOF)
    requires ps[|ss|].CurTokenIs(EOF)
    ensures ParseProgram(ps[0]) == Done(Program(Present(ss)), ps[|ss|])
  {
    ProgramRun(ps, ss, []);
    assert [] + Present(ss) == Present(ss);
  }

  /** The same for a block: the loop collects a run that meets neither `}`
      nor `EOF` until its last state, which is at one of them. */
  lemma {:induction false} BlockRun(ps: seq<Parser>, ss: seq<Option<Stmt>>, acc: seq<Stmt>)
    requires StatementRun(ps, ss)
    requires forall k :: 0 <= k < |ss| ==> !ps[k].CurTokenIs(RBRACE) && !ps[k].CurTokenIs(EOF)
    requires ps[|ss|].CurTokenIs(RBRACE) || ps[|ss|].CurTokenIs(EOF)
    ensures BlockLoop(ps[0], acc) == Done(acc + Present(ss), ps[|ss|])
    decreases |ss|
  {
    if |ss| == 0 {
      assert acc + Present(ss) == acc;
    } else {
      var acc' := match ss[0] case Some(st) => acc + [st] case None => acc;
      BlockStep(ps[0], acc, ss[0], ParseStatement(ps[0]).rest);
      assert ps[1] == ParseStatement(ps[0]).rest.NextToken();
      RunTail(ps, ss);
      var ps', ss' := ps[1..], ss[1..];
      assert forall k :: 0 <= k < |ss'| ==> ps'[k] == ps[k + 1];
      assert ps'[|ss'|] == ps[|ss|];
      BlockRun(ps', ss', acc');
      PresentStep(ss, acc);
    }
  }

  /** A block keeps its `{` and holds the statements of the run that starts
      just after it. */
  lemma BlockCollects(p: Parser, ps: seq<Parser>, ss: seq<Option<Stmt>>)
    requires StatementRun(ps, ss) && ps[0] == p.NextToken()
    requires forall k :: 0 <= k < |ss| ==> !ps[k].CurTokenIs(RBRACE) && !ps[k].CurTokenIs(EOF)
    requires ps[|ss|].CurTokenIs(RBRACE) || ps[|ss|].CurTokenIs(EOF)
    ensures ParseBlockStatement(p) == Done(Block(p.Cur(), Present(ss)), ps[|ss|])
  {
    BlockRun(ps, ss, []);
    assert [] + Present(ss) == Present(ss);
    assert BlockLoop(p.NextToken(), []) == Done(Present(ss), ps[|ss|]);
  }

  lemma PresentStep(ss: seq<Option<Stmt>>, acc: seq<Stmt>)
    requires |ss| > 0
    ensures (match ss[0] case Some(st) => acc + [st] case None => acc) + Present(ss[1..]) == acc + Present(ss)
  {
  }

  lemma RunTail(ps: seq<Parser>, ss: seq<Option<Stmt>>)
    requires StatementRun(ps, ss) && |ss| > 0
    ensures StatementRun(ps[1..], ss[1..])
  {
    forall k | 0 <= k < |ss| - 1
      ensures ParseStatement(ps[1..][k]).Done? && ParseStatement(ps[1..][k]).node == ss[1..][k] &&
              ps[1..][k + 1] == ParseStatement(ps[1..][k]).rest.NextToken()
    {
      assert ps[1..][k] == ps[k + 1] && ps[1..][k + 1] == ps[k + 2] && ss[1..][k] == ss[k + 1];
    }
  }
}

=== FILE: precedence.dfy ===
/** The precedence ladder of the expression parser: how tightly each token
    kind binds when it appears after an operand. */
module Precedence {
  import opened Token

  const LOWEST: int := 1
  const EQUAL: int := 2
  const LESSGREATER: int := 3
  const SUM: int := 4
  const PRODUCT: int := 5
  const PREFIX: int := 6
  const CALL: int := 7
  const NOT: int := 8
  const WEN: int := 9
  /** The rank of `(`, `{` and `,`; the kind `LPAREN` itself is a token. */
  const PAREN: int := 10

  /** The precedence table; kinds it leaves out rank `LOWEST`. */
  const Table: map<Kind, int> := map[
    ASSIGN := EQUAL,
    EQ := EQUAL,
    NE := EQUAL,
    PLUS := SUM,
    MINUS := SUM,
    MULTI := PRODUCT,
    DIVIDE := PRODUCT,
    BANG := NOT,
    WHAT := WEN,
    LT := LESSGREATER,
    LE := LESSGREATER,
    GT := LESSGREATER,
    GE := LESSGREATER,
    LPAREN := PAREN,
    RPAREN := LOWEST,
    LBRACE := PAREN,
    RBRACE := LOWEST,
    COMMA := PAREN,
    SEMICOLON := LOWEST
  ]

  function FindPrecedence(k: Kind): (p: int)
    ensures LOWEST <= p <= PAREN
    ensures k !in Table ==> p == LOWEST
  {
    if k in Table then Table[k] else LOWEST
  }

  /** The ranks strictly increase along the ladder. */
  lemma LadderIncreases()
    ensures LOWEST < EQUAL < LESSGREATER < SUM < PRODUCT < PREFIX < CALL < NOT < WEN < PAREN
  {
  }

  /** The ladder read kind by kind: an independent statement of the table
      in which every kind is listed. */
  function Rank(k: Kind): int
  {
    match k
    case ILLEGAL => LOWEST
    case EOF => LOWEST
    case IDENT => LOWEST
    case INT => LOWEST
    case STRING => LOWEST
    case ASSIGN => EQUAL
    case EQ => EQUAL
    case NE => EQUAL
    case PLUS => SUM
    case MINUS => SUM
    case MULTI => PRODUCT
    case DIVIDE => PRODUCT
    case BANG => NOT
    case WHAT => WEN
    case LT => LESSGREATER
    case LE => LESSGREATER
    case GT => LESSGREATER
    case GE => LESSGREATER
    case PLUSPLUS => LOWEST
    case MINUSMINUS => LOWEST
    case LPAREN => PAREN
    case RPAREN => LOWEST
    case LBRACE => PAREN
    case RBRACE => LOWEST
    case COMMA => PAREN
    case SEMICOLON => LOWEST
    case FUNCTION => LOWEST
    case LET => LOWEST
    case TRUE => LOWEST
    case FALSE => LOWEST
    case IF => LOWEST
    case ELSE => LOWEST
    case RETURN => LOWEST
  }

  /** The table ranks every kind as `Rank` does. */
  lemma TableRanks(k: Kind)
    ensures FindPrecedence(k) == Rank(k)
  {
    // A few kinds at a time, so that each proof looks up only a handful of
    // keys in the table.
    match k
    case ILLEGAL | EOF | IDENT | INT => TableRanks0(k);
    case STRING | ASSIGN | EQ | NE => TableRanks1(k);
    case PLUS | MINUS | MULTI | DIVIDE => TableRanks2(k);
    case BANG | WHAT | LT | LE => TableRanks3(k);
    case GT | GE | PLUSPLUS | MINUSMINUS => TableRanks4(k);
    case LPAREN | RPAREN | LBRACE | RBRACE => TableRanks5(k);
    case COMMA | SEMICOLON | FUNCTION | LET => TableRanks6(k);
    case TRUE | FALSE | IF | ELSE => TableRanks7(k);
    case RETURN => TableRanks8(k);
  }

  lemma TableRanks0(k: Kind)
    requires k == ILLEGAL || k == EOF || k == IDENT || k == INT
    ensures FindPrecedence(k) == Rank(k)
  {
    match k
    case ILLEGAL =>
    case EOF =>
    case IDENT =>
    case INT =>
  }

  lemma TableRanks1(k: Kind)
    requires k == STRING || k == ASSIGN || k == EQ || k == NE
    ensures FindPrecedence(k) == Rank(k)
  {
    match k
    case STRING =>
    case ASSIGN =>
    case EQ =>
    case NE =>
  }

  lemma TableRanks2(k: Kind)
    requires k == PLUS || k == MINUS || k == MULTI || k == DIVIDE
    ensures FindPrecedence(k) == Rank(k)
  {
    match k
    case PLUS =>
    case MINUS =>
    case MULTI =>
    case DIVIDE =>
  }

  lemma TableRanks3(k: Kind)
    requires k == BANG || k == WHAT || k == LT || k == LE
    ensures FindPrecedence(k) == Rank(k)
  {
    match k
    case BANG =>
    case WHAT =>
    case LT =>
    case LE =>
  }

  lemma TableRanks4(k: Kind)
    requires k == GT || k == GE || k == PLUSPLUS || k == MINUSMINUS
    ensures FindPrecedence(k) == Rank(k)
  {
    match k
    case GT =>
    case GE =>
    case PLUSPLUS =>
    case MINUSMINUS =>
  }

  lemma TableRanks5(k: Kind)
    requires k == LPAREN || k == RPAREN || k == LBRACE || k == RBRACE
    ensures FindPrecedence(k) == Rank(k)
  {
    match k
    case LPAREN =>
    case RPAREN =>
    case LBRACE =>
    case RBRACE =>
  }

  lemma TableRanks6(k: Kind)
    requires k == COMMA || k == SEMICOLON || k == FUNCTION || k == LET
    ensures FindPrecedence(k) == Rank(k)
  {
    match k
    case COMMA =>
    case SEMICOLON =>
    case FUNCTION =>
    case LET =>
  }

  lemma TableRanks7(k: Kind)
    requires k == TRUE || k == FALSE || k == IF || k == ELSE
    ensures FindPrecedence(k) == Rank(k)
  {
    match k
    case TRUE =>
    case FALSE =>
    case IF =>
    case ELSE =>
  }

  lemma TableRanks8(k: Kind)
    requires k == RETURN
    ensures FindPrecedence(k) == Rank(k)
  {
    match k
    case RETURN =>
  }

  /** The kinds `Rank` puts at the bottom of the ladder. */
  lemma RankLowest(k: Kind)
    ensures Rank(k) == LOWEST <==>
              !(k == ASSIGN || k == EQ || k == NE || k == LT || k == LE || k == GT || k == GE ||
                k == PLUS || k == MINUS || k == MULTI || k == DIVIDE || k == BANG || k == WHAT ||
                k == LPAREN || k == LBRACE || k == COMMA)
  {
  }

  /** Closing delimiters, `;`, and every kind outside the table (including
      `EOF`, literals, keywords and `++`/`--`) rank `LOWEST`, so they end an
      expression. */
  lemma LowestKinds(k: Kind)
    ensures FindPrecedence(k) == LOWEST <==>
              !(k == ASSIGN || k == EQ || k == NE || k == LT || k == LE || k == GT || k == GE ||
                k == PLUS || k == MINUS || k == MULTI || k == DIVIDE || k == BANG || k == WHAT ||
                k == LPAREN || k == LBRACE || k == COMMA)
  {
    TableRanks(k);
    RankLowest(k);
  }
}

=== FILE: scenarios.dfy ===
/** Worked examples: the general parser lemmas instantiated on the token
    streams of concrete source lines, with the printed form of the trees
    they produce, and the evaluator on the trees of concrete expressions. */
module Scenarios {
  import opened Options
  import opened Token
  import opened GoInt
  import opened Ast
  import opened Object
  import opened Eval
  import Precedence
  import P = Parser
  import L = Lexer
  import opened ParserFacts

  function Int(s: string): Token { Token(INT, s) }
  function Op(k: Kind): Token { Token(k, Name(k)) }
  const Semi: Token := Token(SEMICOLON, ";")

  function Lit(s: string, n: int64): Expr { IntegerLiteral(Int(s), n) }

  /** The integer literals of the examples below, and the values they spell. */
  lemma SmallLiteral(s: string, n: int64)
    requires (s, n) == ("0", 0) || (s, n) == ("1", 1) || (s, n) == ("2", 2) || (s, n) == ("3", 3) ||
             (s, n) == ("5", 5) || (s, n) == ("6", 6) || (s, n) == ("10", 10) || (s, n) == ("22", 22)
    ensures SmallInt(Int(s)) && Leaf(Int(s)) == Lit(s, n)
  {
    if s == "10" {
      assert s[..1] == "1";
    } else if s == "22" {
      assert s[..1] == "2";
    }
    assert DecimalValue(s) == n;
  }

  /** The tokens of `1 - 1 * 10;` and the tree they parse to. */
  const ProductToks: seq<Token> := [Int("1"), Op(MINUS), Int("1"), Op(MULTI), Int("10"), Semi]
  const ProductTree: Expr := Infix(Op(MINUS), Lit("1", 1), Infix(Op(MULTI), Lit("1", 1), Lit("10", 10)))

  /** The source line of the first example. */
  const ProductLine: string := "1 - 1 * 10;"

  /** The runes of `1 - 1 * 10;`, one by one. */
  predicate ProductChars(s: string)
  {
    |s| == 11 && s[0] == '1' && s[1] == ' ' && s[2] == '-' && s[3] == ' ' && s[4] == '1' &&
    s[5] == ' ' && s[6] == '*' && s[7] == ' ' && s[8] == '1' && s[9] == '0' && s[10] == ';'
  }

  // The lexer on `1 - 1 * 10;`, one call at a time: from each position,
  // the token returned and the position after it.

  /** A one-rune operator at `q`, after delimiters only, is the next token. */
  lemma OneRuneAt(s: string, a: nat, q: nat, k: Kind)
    requires a <= q < |s| && (forall i :: a <= i < q ==> L.IsDelim(s[i]))
    requires L.IsOneRune(s[q]) && L.SingleKind(s[q]) == k && Name(k) == [s[q]]
    ensures L.SkipDelim(s, a) == q
    ensures L.NextToken(L.Lexer(s, a)) == (Op(k), L.Lexer(s, q + 1))
  {
    L.SkipDelimTo(s, a, q);
    L.OneRuneOperators(L.Lexer(s, a));
  }

  /** A run of digits from `q` to `e`, after delimiters only and closed by a
      non-digit (or the end), is the next token. */
  lemma NumberAt(s: string, a: nat, q: nat, e: nat)
    requires a <= q < e <= |s| && (forall i :: a <= i < q ==> L.IsDelim(s[i]))
    requires forall i :: q <= i < e ==> L.IsDigit(s[i])
    requires e == |s| || !L.IsDigit(s[e])
    ensures L.SkipDelim(s, a) == q
    ensures L.NextToken(L.Lexer(s, a)) == (Token(INT, s[q..e]), L.Lexer(s, e))
  {
    L.SkipDelimTo(s, a, q);
    L.NumberToken(L.Lexer(s, a));
  }

  lemma ProductLexAt0(s: string)
    requires ProductChars(s)
    ensures L.SkipDelim(s, 0) < |s|
    ensures L.NextToken(L.Lexer(s, 0)) == (Int("1"), L.Lexer(s, 1))
  {
    NumberAt(s, 0, 0, 1);
    assert s[0..1] == "1";
  }

  lemma ProductLexAt1(s: string)
    requires ProductChars(s)
    ensures L.SkipDelim(s, 1) < |s|
    ensures L.NextToken(L.Lexer(s, 1)) == (Op(MINUS), L.Lexer(s, 3))
  {
    OneRuneAt(s, 1, 2, MINUS);
  }

  lemma ProductLexAt3(s: string)
    requires ProductChars(s)
    ensures L.SkipDelim(s, 3) < |s|
    ensures L.NextToken(L.Lexer(s, 3)) == (Int("1"), L.Lexer(s, 5))
  {
    NumberAt(s, 3, 4, 5);
    assert s[4..5] == "1";
  }

  lemma ProductLexAt5(s: string)
    requires ProductChars(s)
    ensures L.SkipDelim(s, 5) < |s|
    ensures L.NextToken(L.Lexer(s, 5)) == (Op(MULTI), L.Lexer(s, 7))
  {
    OneRuneAt(s, 5, 6, MULTI);
  }

  lemma ProductLexAt7(s: string)
    requires ProductChars(s)
    ensures L.SkipDelim(s, 7) < |s|
    ensures L.NextToken(L.Lexer(s, 7)) == (Int("10"), L.Lexer(s, 10))
  {
    NumberAt(s, 7, 8, 10);
    assert s[8..10] == "10";
  }

  lemma ProductLexAt10(s: string)
    requires ProductChars(s)
    ensures L.SkipDelim(s, 10) < |s|
    ensures L.NextToken(L.Lexer(s, 10)) == (Semi, L.Lexer(s, 11))
  {
    OneRuneAt(s, 10, 10, SEMICOLON);
  }

  /** One call of the lexer in front of the tokens of the rest. */
  lemma LexStep(s: string, a: nat, b: nat, t: Token, rest: seq<Token>)
    requires a <= |s| && b <= |s| && L.SkipDelim(s, a) < |s|
    requires L.NextToken(L.Lexer(s, a)) == (t, L.Lexer(s, b))
    requires L.Tokenize(L.Lexer(s, b)) == rest
    ensures L.Tokenize(L.Lexer(s, a)) == [t] + rest
  {
    L.TokenizeStep(L.Lexer(s, a));
  }

  /** Past the `;` only the end of the input is left. */
  lemma ProductTokenizeFrom11(s: string)
    requires ProductChars(s)
    ensures L.Tokenize(L.Lexer(s, 11)) == ProductToks[6..]
  {
    assert L.SkipDelim(s, 11) == |s| == 11;
  }

  lemma ProductTokenizeFrom10(s: string)
    requires ProductChars(s)
    ensures L.Tokenize(L.Lexer(s, 10)) == ProductToks[5..]
  {
    ProductLexAt10(s);
    ProductTokenizeFrom11(s);
    LexStep(s, 10, 11, Semi, ProductToks[6..]);
    assert ProductToks[5..] == [Semi] + ProductToks[6..];
  }

  lemma ProductTokenizeFrom7(s: string)
    requires ProductChars(s)
    ensures L.Tokenize(L.Lexer(s, 7)) == ProductToks[4..]
  {
    ProductLexAt7(s);
    ProductTokenizeFrom10(s);
    LexStep(s, 7, 10, Int("10"), ProductToks[5..]);
    assert ProductToks[4..] == [Int("10")] + ProductToks[5..];
  }

  lemma ProductTokenizeFrom5(s: string)
    requires ProductChars(s)
    ensures L.Tokenize(L.Lexer(s, 5)) == ProductToks[3..]
  {
    ProductLexAt5(s);
    ProductTokenizeFrom7(s);
    LexStep(s, 5, 7, Op(MULTI), ProductToks[4..]);
    assert ProductToks[3..] == [Op(MULTI)] + ProductToks[4..];
  }

  lemma ProductTokenizeFrom3(s: string)
    requires ProductChars(s)
    ensures L.Tokenize(L.Lexer(s, 3)) == ProductToks[2..]
  {
    ProductLexAt3(s);
    ProductTokenizeFrom5(s);
    LexStep(s, 3, 5, Int("1"), ProductToks[3..]);
    assert ProductToks[2..] == [Int("1")] + ProductToks[3..];
  }

  lemma ProductTokenizeFrom1(s: string)
    requires ProductChars(s)
    ensures L.Tokenize(L.Lexer(s, 1)) == ProductToks[1..]
  {
    ProductLexAt1(s);
    ProductTokenizeFrom3(s);
    LexStep(s, 1, 3, Op(MINUS), ProductToks[2..]);
    assert ProductToks[1..] == [Op(MINUS)] + ProductToks[2..];
  }

  lemma ProductTokenizeFrom0(s: string)
    requires ProductChars(s)
    ensures L.Tokenize(L.Lexer(s, 0)) == ProductToks[0..]
  {
    ProductLexAt0(s);
    ProductTokenizeFrom1(s);
    LexStep(s, 0, 1, Int("1"), ProductToks[1..]);
    assert ProductToks[0..] == [Int("1")] + ProductToks[1..];
  }

  /** The source line `1 - 1 * 10;` lexes to exactly `ProductToks`. */
  lemma ProductLexes()
    ensures L.Tokenize(L.New(ProductLine)) == ProductToks
  {
    assert ProductChars(ProductLine);
    ProductTokenizeFrom0(ProductLine);
  }

  /** What the parser sees at each offset of `1 - 1 * 10;`. */
  lemma ProductStream(p: P.Parser)
    requires p.toks == ProductToks && p.idx == 0
    ensures At(p, 0) == Int("1") && At(p, 1) == Op(MINUS) && At(p, 2) == Int("1")
    ensures At(p, 3) == Op(MULTI) && At(p, 4) == Int("10") && At(p, 5) == Semi
  {
  }

  /** `1 - 1 * 10;`: the product binds tighter and nests on the right. */
  lemma ProductBindsTighter(p: P.Parser)
    requires p.toks == ProductToks && p.idx == 0
    ensures P.ParseExpression(p, Precedence.LOWEST) == P.Done(ProductTree, p.(idx := 4))
  {
    ProductStream(p);
    SmallLiteral("1", 1);
    SmallLiteral("10", 10);
    assert BinaryOp(MINUS) && BinaryOp(MULTI);
    assert Precedence.FindPrecedence(MINUS) < Precedence.FindPrecedence(MULTI);
    assert At(p, 5).kind !in P.InfixFns;
    TighterNestsRight(p);
  }

  lemma ProductPrints()
    ensures ExprString(ProductTree) == "(1 - (1 * 10))"
  {
    assert ExprString(ProductTree.right) == "(1 * 10)";
  }

  /** `1 - 1 * 10` evaluates to -9. */
  lemma ProductEvaluates()
    ensures EvalExpr(ProductTree) == Val(Integer(-9))
  {
    LiteralValues(Int("1"), 1, true);
    LiteralValues(Int("10"), 10, true);
    assert EvalExpr(ProductTree.right) == Val(Integer(10));
  }

  /** The tokens of `22 * 22 / 2;` and the tree they parse to. */
  const QuotientToks: seq<Token> := [Int("22"), Op(MULTI), Int("22"), Op(DIVIDE), Int("2"), Semi]
  const QuotientTree: Expr := Infix(Op(DIVIDE), Infix(Op(MULTI), Lit("22", 22), Lit("22", 22)), Lit("2", 2))

  /** What the parser sees at each offset of `22 * 22 / 2;`. */
  lemma QuotientStream(p: P.Parser)
    requires p.toks == QuotientToks && p.idx == 0
    ensures At(p, 0) == Int("22") && At(p, 1) == Op(MULTI) && At(p, 2) == Int("22")
    ensures At(p, 3) == Op(DIVIDE) && At(p, 4) == Int("2") && At(p, 5) == Semi
  {
  }

  /** `22 * 22 / 2;`: operators of equal precedence group to the left. */
  lemma QuotientAssociatesLeft(p: P.Parser)
    requires p.toks == QuotientToks && p.idx == 0
    ensures P.ParseExpression(p, Precedence.LOWEST) == P.Done(QuotientTree, p.(idx := 4))
  {
    QuotientStream(p);
    SmallLiteral("22", 22);
    SmallLiteral("2", 2);
    assert BinaryOp(MULTI) && BinaryOp(DIVIDE);
    assert Precedence.FindPrecedence(MULTI) == Precedence.FindPrecedence(DIVIDE);
    assert At(p, 5).kind !in P.InfixFns;
    LeftAssociates(p);
    assert Leaf(At(p, 0)) == Lit("22", 22) && Leaf(At(p, 2)) == Lit("22", 22) && Leaf(At(p, 4)) == Lit("2", 2);
    assert Skip(p, 4) == p.(idx := 4);
  }

  lemma QuotientPrints()
    ensures ExprString(QuotientTree) == "((22 * 22) / 2)"
  {
    assert ExprString(QuotientTree.left) == "(22 * 22)";
  }

  lemma QuotientEvaluates()
    ensures EvalExpr(QuotientTree) == Val(Integer(242))
  {
    LiteralValues(Int("22"), 22, true);
    LiteralValues(Int("2"), 2, true);
    assert EvalExpr(QuotientTree.left) == Val(Integer(484));
  }

  /** The tokens of `(1 + 2) * 3;` and the tree they parse to. */
  const GroupToks: seq<Token> := [Op(LPAREN), Int("1"), Op(PLUS), Int("2"), Op(RPAREN), Op(MULTI), Int("3"), Semi]
  const GroupTree: Expr := Infix(Op(MULTI), Infix(Op(PLUS), Lit("1", 1), Lit("2", 2)), Lit("3", 3))

  /** What the parser sees at each offset of `(1 + 2) * 3;`. */
  lemma GroupStream(p: P.Parser)
    requires p.toks == GroupToks && p.idx == 0
    ensures p.CurTokenIs(LPAREN)
    ensures At(p, 1) == Int("1") && At(p, 2) == Op(PLUS) && At(p, 3) == Int("2") && At(p, 4) == Op(RPAREN)
    ensures At(p, 5) == Op(MULTI) && At(p, 6) == Int("3") && At(p, 7) == Semi
  {
  }

  /** `(1 + 2) * 3;`: the parenthesised sum becomes the left operand. */
  lemma GroupRegroups(p: P.Parser)
    requires p.toks == GroupToks && p.idx == 0
    ensures P.ParseExpression(p, Precedence.LOWEST) == P.Done(GroupTree, p.(idx := 6))
  {
    GroupStream(p);
    SmallLiteral("1", 1);
    SmallLiteral("2", 2);
    SmallLiteral("3", 3);
    assert BinaryOp(PLUS) && BinaryOp(MULTI);
    assert At(p, 7).kind !in P.InfixFns;
    ParensRegroup(p);
  }

  lemma GroupPrints()
    ensures ExprString(GroupTree) == "((1 + 2) * 3)"
  {
    assert ExprString(GroupTree.left) == "(1 + 2)";
  }

  lemma GroupEvaluates()
    ensures EvalExpr(GroupTree) == Val(Integer(9))
  {
    LiteralValues(Int("1"), 1, true);
    LiteralValues(Int("2"), 2, true);
    LiteralValues(Int("3"), 3, true);
    assert EvalExpr(GroupTree.left) == Val(Integer(3));
  }

  /** The tokens of `-6 - 1;` and the tree they parse to: the minus sign
      takes the whole difference as its operand. */
  const NegToks: seq<Token> := [Op(MINUS), Int("6"), Op(MINUS), Int("1"), Semi]
  const NegTree: Expr := Prefix(Op(MINUS), Infix(Op(MINUS), Lit("6", 6), Lit("1", 1)))

  /** What the parser sees at each offset of `-6 - 1;`. */
  lemma NegStream(p: P.Parser)
    requires p.toks == NegToks && p.idx == 0
    ensures p.CurTokenIs(MINUS)
    ensures At(p, 1) == Int("6") && At(p, 2) == Op(MINUS) && At(p, 3) == Int("1") && At(p, 4) == Semi
  {
  }

  lemma NegatesDifference(p: P.Parser)
    requires p.toks == NegToks && p.idx == 0
    ensures P.ParseExpression(p, Precedence.LOWEST) == P.Done(NegTree, p.(idx := 3))
  {
    NegStream(p);
    SmallLiteral("6", 6);
    SmallLiteral("1", 1);
    assert BinaryOp(MINUS);
    assert At(p, 4).kind !in P.InfixFns;
    PrefixOperandSpansInfix(p);
  }

  /** So `-6 - 1` prints as a negated difference and evaluates to -5. */
  lemma NegPrints()
    ensures ExprString(NegTree) == "(-(6 - 1))"
  {
    assert ExprString(NegTree.right) == "(6 - 1)";
  }

  lemma NegEvaluates()
    ensures EvalExpr(NegTree) == Val(Integer(-5))
  {
    LiteralValues(Int("6"), 6, true);
    LiteralValues(Int("1"), 1, true);
    assert EvalExpr(NegTree.right) == Val(Integer(5));
  }

  /** The tokens of `5 + 5;` and the tree they parse to. */
  const SumToks: seq<Token> := [Int("5"), Op(PLUS), Int("5"), Semi]
  const SumTree: Expr := Infix(Op(PLUS), Lit("5", 5), Lit("5", 5))

  /** `5 + 5;`: one binary node, stopping before the `;`. */
  lemma SumParses(p: P.Parser)
    requires p.toks == SumToks && p.idx == 0
    ensures P.ParseExpression(p, Precedence.LOWEST) == P.Done(SumTree, p.(idx := 2))
  {
    assert At(p, 0) == Int("5") && At(p, 1) == Op(PLUS) && At(p, 2) == Int("5") && At(p, 3) == Semi;
    SmallLiteral("5", 5);
    assert BinaryOp(PLUS);
    SingleBinary(p);
  }

  lemma SumPrints()
    ensures ExprString(SumTree) == "(5 + 5)"
  {
  }

  /** The tokens of `1 + 0 / 0 - 5 * 0;` and the tree they parse to. */
  const MixedToks: seq<Token> :=
    [Int("1"), Op(PLUS), Int("0"), Op(DIVIDE), Int("0"), Op(MINUS), Int("5"), Op(MULTI), Int("0"), Semi]
  const MixedTree: Expr :=
    Infix(Op(MINUS), Infix(Op(PLUS), Lit("1", 1), Infix(Op(DIVIDE), Lit("0", 0), Lit("0", 0))),
          Infix(Op(MULTI), Lit("5", 5), Lit("0", 0)))

  /** What the parser sees at each offset of `1 + 0 / 0 - 5 * 0;`. */
  lemma MixedStream(p: P.Parser)
    requires p.toks == MixedToks && p.idx == 0
    ensures At(p, 0) == Int("1") && At(p, 1) == Op(PLUS) && At(p, 2) == Int("0") && At(p, 3) == Op(DIVIDE)
    ensures At(p, 4) == Int("0") && At(p, 5) == Op(MINUS) && At(p, 6) == Int("5") && At(p, 7) == Op(MULTI)
    ensures At(p, 8) == Int("0") && At(p, 9) == Semi
  {
  }

  const MixedSum: Expr := Infix(Op(PLUS), Lit("1", 1), Infix(Op(DIVIDE), Lit("0", 0), Lit("0", 0)))

  /** `1 + 0 / 0 - 5 * 0;`: each product nests inside the sum or difference
      before it, and the sum and difference group to the left. */
  lemma MixedChainGroups(p: P.Parser)
    requires p.toks == MixedToks && p.idx == 0
    ensures P.ParseExpression(p, Precedence.LOWEST) == P.Done(MixedTree, p.(idx := 8))
  {
    MixedChainShape(p);
    TighterPairsNest(p);
    MixedChainLeaves(p);
  }

  /** The kinds and precedences along `1 + 0 / 0 - 5 * 0;`. */
  lemma MixedChainShape(p: P.Parser)
    requires p.toks == MixedToks && p.idx == 0
    ensures SmallInt(At(p, 0)) && SmallInt(At(p, 2)) && SmallInt(At(p, 4)) && SmallInt(At(p, 6)) && SmallInt(At(p, 8))
    ensures BinaryOp(At(p, 1).kind) && BinaryOp(At(p, 3).kind) && BinaryOp(At(p, 5).kind) && BinaryOp(At(p, 7).kind)
    ensures Precedence.FindPrecedence(At(p, 1).kind) < Precedence.FindPrecedence(At(p, 3).kind)
    ensures Precedence.FindPrecedence(At(p, 5).kind) <= Precedence.FindPrecedence(At(p, 1).kind)
    ensures Precedence.FindPrecedence(At(p, 5).kind) < Precedence.FindPrecedence(At(p, 7).kind)
    ensures At(p, 9).kind !in P.InfixFns
  {
    MixedStream(p);
    SmallLiteral("1", 1);
    SmallLiteral("0", 0);
    SmallLiteral("5", 5);
  }

  /** The tree the general lemma names, spelled out. */
  lemma MixedChainLeaves(p: P.Parser)
    requires p.toks == MixedToks && p.idx == 0
    ensures Infix(At(p, 5),
                  Infix(At(p, 1), Leaf(At(p, 0)), Infix(At(p, 3), Leaf(At(p, 2)), Leaf(At(p, 4)))),
                  Infix(At(p, 7), Leaf(At(p, 6)), Leaf(At(p, 8))))
            == MixedTree
    ensures Skip(p, 8) == p.(idx := 8)
  {
    MixedStream(p);
    SmallLiteral("1", 1);
    SmallLiteral("0", 0);
    SmallLiteral("5", 5);
  }

  /** `0 / 0` and `(1 + (0 / 0))` printed. */
  lemma MixedSumPrints()
    ensures ExprString(MixedSum) == "(1 + (0 / 0))"
  {
    assert ExprString(MixedSum.right) == "(0 / 0)";
  }

  lemma MixedPrints()
    ensures ExprString(MixedTree) == "((1 + (0 / 0)) - (5 * 0))"
  {
    MixedSumPrints();
    MixedProductPrints();
  }

  lemma MixedProductPrints()
    ensures ExprString(MixedTree.right) == "(5 * 0)"
  {
  }

  /** It parses, but evaluating it divides by zero. */
  lemma MixedAborts()
    ensures EvalExpr(MixedTree) == Abort(DivideByZero)
  {
    LiteralValues(Int("1"), 1, true);
    LiteralValues(Int("0"), 0, true);
    assert EvalExpr(MixedTree.left.right) == Abort(DivideByZero);
  }

  /** The product statement as a whole program: one expression statement,
      the `;` consumed, and no errors. */
  lemma ProductStatement(p: P.Parser)
    requires p.toks == ProductToks && p.idx == 0 && p.errors == []
    ensures P.ParseProgram(p)
            == P.Done(Program([ExpressionStatement(Int("1"), ProductTree)]), p.(idx := 6))
  {
    ProductBindsTighter(p);
    var q := p.(idx := 4);
    assert p.Cur() == Int("1") && At(q, 1) == Semi && At(q, 2).kind == EOF;
    SingleExpressionProgram(p, ProductTree, q);
  }

  /** The whole pipeline on the line `1 - 1 * 10;`: lexed, parsed to one
      statement with no errors, and evaluated to -9. */
  lemma ProductProgram()
    ensures P.ParseProgram(P.New(ProductLine))
            == P.Done(Program([ExpressionStatement(Int("1"), ProductTree)]), P.Parser(ProductToks, 6, []))
    ensures EvalProgram(Program([ExpressionStatement(Int("1"), ProductTree)])) == Val(Integer(-9))
  {
    ProductLexes();
    ProductStatement(P.New(ProductLine));
    ProductEvaluates();
  }
}

=== FILE: token.dfy ===
/** Token kinds, the `(kind, literal)` token record, and the keyword table
    that turns a letter run into a keyword kind or an identifier. */
module Token {
  import opened Options

  /** The closed set of token kinds. `PLUSPLUS` and `MINUSMINUS` have
      parser handlers but are never produced by the lexer. */
  datatype Kind =
    | ILLEGAL | EOF
    | IDENT | INT | STRING
    | ASSIGN | EQ | NE | PLUS | MINUS | MULTI | DIVIDE | BANG | WHAT
    | LT | LE | GT | GE | PLUSPLUS | MINUSMINUS
    | LPAREN | RPAREN | LBRACE | RBRACE | COMMA | SEMICOLON
    | FUNCTION | LET | TRUE | FALSE | IF | ELSE | RETURN

  datatype Token = Token(kind: Kind, literal: string)

  /** The string value of each kind, as diagnostics print it. */
  function Name(k: Kind): string
  {
    match k
    case ILLEGAL => "ILLEGAL"
    case EOF => "EOF"
    case IDENT => "IDENT"
    case INT => "INT"
    case STRING => "STRING"
    case ASSIGN => "="
    case EQ => "=="
    case NE => "!="
    case PLUS => "+"
    case MINUS => "-"
    case MULTI => "*"
    case DIVIDE => "/"
    case BANG => "!"
    case WHAT => "?"
    case LT => "<"
    case LE => "<="
    case GT => ">"
    case GE => ">="
    case PLUSPLUS => "++"
    case MINUSMINUS => "--"
    case LPAREN => "("
    case RPAREN => ")"
    case LBRACE => "{"
    case RBRACE => "}"
    case COMMA => ","
    case SEMICOLON => ";"
    case FUNCTION => "FUNCTION"
    case LET => "LET"
    case TRUE => "TRUE"
    case FALSE => "FALSE"
    case IF => "IF"
    case ELSE => "ELSE"
    case RETURN => "RETURN"
  }

  /** Recovers a kind from its name: an independent reading of the table
      above, keyed on the first character, used to show that no two kinds
      share a name. */
  function KindNamed(s: string): Option<Kind>
  {
    if |s| == 0 then None
    else
      match s[0]
      case 'I' =>
        if s == "ILLEGAL" then Some(ILLEGAL) else if s == "IDENT" then Some(IDENT)
        else if s == "INT" then Some(INT) else if s == "IF" then Some(IF) else None
      case 'E' => if s == "EOF" then Some(EOF) else if s == "ELSE" then Some(ELSE) else None
      case 'S' => if s == "STRING" then Some(STRING) else None
      case 'F' => if s == "FUNCTION" then Some(FUNCTION) else if s == "FALSE" then Some(FALSE) else None
      case 'L' => if s == "LET" then Some(LET) else None
      case 'T' => if s == "TRUE" then Some(TRUE) else None
      case 'R' => if s == "RETURN" then Some(RETURN) else None
      case '=' => if s == "=" then Some(ASSIGN) else if s == "==" then Some(EQ) else None
      case '!' => if s == "!" then Some(BANG) else if s == "!=" then Some(NE) else None
      case '+' => if s == "+" then Some(PLUS) else if s == "++" then Some(PLUSPLUS) else None
      case '-' => if s == "-" then Some(MINUS) else if s == "--" then Some(MINUSMINUS) else None
      case '<' => if s == "<" then Some(LT) else if s == "<=" then Some(LE) else None
      case '>' => if s == ">" then Some(GT) else if s == ">=" then Some(GE) else None
      case '*' => if s == "*" then Some(MULTI) else None
      case '/' => if s == "/" then Some(DIVIDE) else None
      case '?' => if s == "?" then Some(WHAT) else None
      case '(' => if s == "(" then Some(LPAREN) else None
      case ')' => if s == ")" then Some(RPAREN) else None
      case '{' => if s == "{" then Some(LBRACE) else None
      case '}' => if s == "}" then Some(RBRACE) else None
      case ',' => if s == "," then Some(COMMA) else None
      case ';' => if s == ";" then Some(SEMICOLON) else None
      case _ => None
  }

  /** Reading a kind's name back gives the kind. */
  lemma NameRoundTrip(k: Kind)
    ensures KindNamed(Name(k)) == Some(k)
  {
    match k
    case ILLEGAL =>
    case EOF =>
    case IDENT =>
    case INT =>
    case STRING =>
    case ASSIGN =>
    case EQ =>
    case NE =>
    case PLUS =>
    case MINUS =>
    case MULTI =>
    case DIVIDE =>
    case BANG =>
    case WHAT =>
    case LT =>
    case LE =>
    case GT =>
    case GE =>
    case PLUSPLUS =>
    case MINUSMINUS =>
    case LPAREN =>
    case RPAREN =>
    case LBRACE =>
    case RBRACE =>
    case COMMA =>
    case SEMICOLON =>
    case FUNCTION =>
    case LET =>
    case TRUE =>
    case FALSE =>
    case IF =>
    case ELSE =>
    case RETURN =>
  }

  /** Distinct kinds have distinct names, so a kind is identified by its
      name; in particular the seven keyword kinds and `IDENT` are pairwise
      distinct. */
  lemma NameInjective(a: Kind, b: Kind)
    ensures Name(a) == Name(b) ==> a == b
  {
    NameRoundTrip(a);
    NameRoundTrip(b);
  }

  const Keywords: map<string, Kind> := map[
    "fn" := FUNCTION,
    "let" := LET,
    "true" := TRUE,
    "false" := FALSE,
    "if" := IF,
    "else" := ELSE,
    "return" := RETURN
  ]

  predicate IsKeywordKind(k: Kind)
  {
    k == FUNCTION || k == LET || k == TRUE || k == FALSE || k == IF || k == ELSE || k == RETURN
  }

  /** The keyword spelled exactly `key`, or the identifier kind. */
  function LookupIdent(key: string): (k: Kind)
    ensures k == IDENT || IsKeywordKind(k)
    ensures k == IDENT <==> key !in {"fn", "let", "true", "false", "if", "else", "return"}
  {
    if key in Keywords then Keywords[key] else IDENT
  }

  /** The spelling of each keyword kind: the inverse of the table. */
  function Spelling(k: Kind): string
    requires IsKeywordKind(k)
  {
    match k
    case FUNCTION => "fn"
    case LET => "let"
    case TRUE => "true"
    case FALSE => "false"
    case IF => "if"
    case ELSE => "else"
    case RETURN => "return"
  }

  /** A keyword kind is produced by its spelling and by nothing else. */
  lemma LookupIdentKeyword(key: string, k: Kind)
    requires IsKeywordKind(k)
    ensures LookupIdent(key) == k <==> key == Spelling(k)
  {
  }

  /** Lookup is injective on keywords. */
  lemma LookupIdentInjective(a: string, b: string)
    requires LookupIdent(a) == LookupIdent(b) != IDENT
    ensures a == b
  {
    LookupIdentKeyword(a, LookupIdent(a));
    LookupIdentKeyword(b, LookupIdent(b));
  }

  /** Lookup is exact and case-sensitive. */
  lemma LookupIdentExact()
    ensures LookupIdent("let") == LET && LookupIdent("fn") == FUNCTION
    ensures LookupIdent("Let") == IDENT && LookupIdent("lets") == IDENT
    ensures LookupIdent("LET") == IDENT && LookupIdent("") == IDENT
  {
  }
}
